=== FILE: README.md ===
# DNCL interpreter core in Dafny

A functional model of the evaluation core of a small interpreter for DNCL.
DNCL is the Japanese pseudocode dialect used in Japan's common university
entrance examination. The model covers two cooperating pieces:

- **The formula evaluator** (`dncl/calc.py`):
  - `tokenize` turns a formula into number and operator tokens. A `（…）`
    group is evaluated recursively and becomes one token.
  - `evaluate` makes two left-to-right splice passes: first `× / ÷ ％`,
    then `＋ －`.
  - The result is made an `int` when it is integral.
- **The operand resolver and statement layer** (`dncl/compiler.py`):
  - `underStanding` splits an operand on `と`, classifies each part and adds
    the parts up with Python's `+=`. A part can be a logic expression, a
    comparison, a quoted text, a `{…}` list, a digit run, a numeral, an array
    element, a variable or a formula.
  - `relationalOperation` evaluates the comparisons `＞ ＜ ＝ ≠ ≧ ≦`.
  - `logicOperation` and `evaluateParentheses` handle groups, the trailing
    `でない` (not), `かつ` (and) and `または` (or).
  - `assignment`, the print command and the line dispatch of
    `compileScript` make up the statement layer.

The modules follow the program's structure:

| module | models |
|---|---|
| `Wrappers` | `Option`, `Result` and the error kinds. Each Python exception the code can raise is one `Error` constructor. |
| `Text` | `str.strip`, `str.split`, `str.splitlines` helpers, substring search, digit runs, parenthesis depth |
| `Values` | runtime values `Int \| Num \| Str \| Arr`, and Python's `+=`, `==` and ordering on them. Truth values are the text tokens 真/偽. |
| `Calc` | `dncl/calc.py` |
| `Compiler` | the mutually recursive resolver of `dncl/compiler.py` |
| `Script` | `assignment`, the print command, increase/decrease and `compileScript` |
| `CalcFacts`, `CompilerFacts`, `RelationFacts`, `LogicFacts`, `ScriptFacts`, `TextFacts` | the lemmas |

Python's recursion through `underStanding → logicOperation →
evaluateParentheses → relationalOperation → underStanding` is one cluster
of mutually recursive functions. Termination follows from the lexicographic
measure (text length, tier): every call either shortens the text or moves to
a lower tier at the same length.

Three places in the source behave differently from what they evidently
intend. "## Findings" shows them in four rows, because one place, the truth
token left by a resolved group, breaks both `でない` and the connectives. To
keep both behaviours in one model, the functions that contain those places
take a `Reading` parameter:

- `AsWritten` follows the code exactly, except as listed under "## Left out".
- `Intended` applies the evident fix.

Only `Compiler.SplitOrder`, `Compiler.Leaf` and `Script.Shift` look at the
reading; every other function is shared. A result can differ between the
readings only when its evaluation passes through one of those three:

- a text with both connectives;
- a side that is just 真 or 偽, which is what a resolved group leaves, followed by `でない` or joined by a connective;
- an increase or a decrease.

## Model

| member | source | states |
|---|---|---|
| Calc.FloorDiv | dncl/calc.py:62-63 | `÷` is Python's floor division on floats: the quotient is a whole number `q` with `q ≤ a/b < q+1`, so it rounds toward negative infinity. |
| CalcFacts.FloorDivModLaw | dncl/calc.py:62-65 | `a == b×(a÷b) + a％b`. The remainder takes the sign of the divisor and is smaller than it in size. |
| Calc.ApplyOperator | dncl/calc.py:51-67 | An operator fails exactly when it is `/`, `÷` or `％` with a zero divisor, or when it is not one of the six operator glyphs. The error names the cause. |
| Calc.ParseNumber | dncl/calc.py:52-53 | `float` of a run of digits and points succeeds exactly when the run holds at most one point and at least one digit. With a point the value is the whole part plus the fraction part, split at the first point. A digit-only run is its decimal value, and every success is non-negative. A failure is an error naming the text. |
| Calc.PointValue | dncl/calc.py:52-53 | The value of `whole.fraction` is at least the whole part and below the next integer: the digits after the point add less than one. |
| Calc.Flush | dncl/calc.py:23-25 | A pending number becomes exactly one number token after the earlier tokens. With no pending number nothing is added. |
| Calc.GroupEnd | dncl/calc.py:29-40 | The depth-tracked group scan stops at a `）` or at the end of the text. |
| CalcFacts.GroupEndDepth | dncl/calc.py:29-40 | Inside the group, nesting depth never goes below the opening level. The scan stops where the opening `（` is closed. |
| CalcFacts.GroupInteriorBalanced | dncl/calc.py:28-41 | The text given to the recursive `calc` is balanced and strictly shorter than the formula. |
| CalcFacts.GroupTokens | dncl/calc.py:28-41 | A formula that is one group tokenizes to exactly one number token: the value `calc` gives its interior. Failures pass through. |
| Calc.Tokenize | dncl/calc.py:14-49 | Only the six operator glyphs ever become operator tokens. |
| CalcFacts.TokenizeRejects | dncl/calc.py:44-45 | A character that is not a digit, a point, an operator, `（` or a space makes tokenizing fail. So does a `）` with no `（` before it. |
| CalcFacts.CalcRejects | dncl/calc.py:44-45 | The same inputs make the whole formula fail. |
| CalcFacts.TokenizeSpace | dncl/calc.py:42-43 | A space ends the pending number and adds no token. |
| CalcFacts.JuxtaposedTokens | dncl/calc.py:20-25 | Two digit runs separated by a space are two separate number tokens. |
| CalcFacts.TokensExample | dncl/calc.py:14-49 | `2＋3×4` tokenizes to `2, ＋, 3, ×, 4`. |
| Calc.Splice | dncl/calc.py:75-76 | Applying one operator replaces the three tokens `a op b` by one value. The list gets exactly two shorter and every other token keeps its place. |
| Calc.Sweep | dncl/calc.py:72-79 | A pass leaves no operator of its tier. The other operators remain, in order, and the list keeps its operand/operator alternation. |
| CalcFacts.SweepShrinks | dncl/calc.py:72-79 | A pass shortens the list by exactly two tokens for every operator it applies. |
| CalcFacts.WellFormedLength | dncl/calc.py:69-90 | An alternating list with k operators has 2k+1 tokens. |
| CalcFacts.PassesLeaveOneToken | dncl/calc.py:72-90 | After both passes, an alternating list is exactly one token. |
| CalcFacts.PassFoldsLeft | dncl/calc.py:72-79 | Within one tier the operators apply left to right: a pass is the left fold over the list. |
| CalcFacts.EvaluateFollowsPrecedence | dncl/calc.py:69-90 | The two splice passes give the same result as a one-pass reference evaluator. The reference folds the additive operators left to right over products that are themselves folded left to right. |
| CalcFacts.SubtractionFoldsLeft | dncl/calc.py:82-89 | `8－3－2` is `(8－3)－2` = 3. |
| CalcFacts.CalcExample | dncl/calc.py:4-94 | `2＋3×4` is the int 14: multiplication binds tighter than addition. |
| CalcFacts.CalcOfTokens | dncl/calc.py:92-94 | A formula whose tokens alternate and hold an operator gives the reference value, made an int when integral. |
| Calc.Normalize | dncl/calc.py:94 | The result keeps its value, and is an int exactly when that value is integral. |
| Calc.Float | dncl/calc.py:52-53 | `float(v)`: a number is its value, a digit-only text is its decimal value, a list is a TypeError. |
| Calc.Settle | dncl/calc.py:94 | The final conversion to int of an integral result:<br>• a number becomes an int when integral;<br>• a digit-only text becomes its int;<br>• a fractional text stays the same text;<br>• every result is settled. |
| CalcFacts.SettleIdempotent | dncl/calc.py:94 | Settling a settled value changes nothing. |
| Calc.Calc | dncl/calc.py:92-94 | Every successful result is settled: an int, a non-integral number, or a text that spells a non-integral number. |
| CalcFacts.LeadSurvives | dncl/calc.py:69-90 | When the second token is not an operator, both passes leave the first token alone, and `evaluate` returns it. |
| CalcFacts.LoneLiteral | dncl/calc.py:92-94 | A formula that is a single literal returns that literal's text, settled. |
| CalcFacts.GroupedLiteral | dncl/calc.py:28-41 | `（t）` for a literal `t` is `t` settled. |
| CalcFacts.GroupedFraction | dncl/calc.py:92-94 | `（2.5）` is the text "2.5", not a number. |
| CalcFacts.GroupedWholeWithPoint | dncl/calc.py:92-94 | `（5.0）` fails: `int("5.0")` is a ValueError. |
| CalcFacts.Juxtaposed | dncl/calc.py:69-94 | `"a b"` for digit runs `a`, `b` is the int `a`: with no operator, `evaluate` returns the first token. |
| Compiler.BoolToDncl | dncl/compiler.py:38-43 | Gives only 真 or 偽, one character long. `dnclBoolToBool(boolToDNCLBool(b)) == b`. |
| Compiler.FirstPresent | dncl/compiler.py:46-60 | Picks the first glyph, in the fixed order `＞ ＜ ＝ ≠ ≧ ≦`, that occurs anywhere in the text. No earlier glyph of that order occurs. |
| Compiler.RelationalOperation | dncl/compiler.py:46-60 | Returns None exactly when the text has no comparison glyph. Otherwise the result is 真 or 偽, or the resolver's error. |
| Compiler.Compared | dncl/compiler.py:47-60 | Comparing two resolved operands gives 真 or 偽, or fails. |
| Compiler.Holds | dncl/compiler.py:47-60 | `＝` and `≠` always answer. The ordering glyphs answer exactly when Python can order the two values. |
| RelationFacts.HoldsOnNumbers | dncl/compiler.py:47-60 | On numbers each glyph is its relation between the two values. |
| RelationFacts.HoldsMirror | dncl/compiler.py:47-60 | `a＞b` is `b＜a`, `a≧b` is `b≦a`, and `＝`, `≠` are symmetric. Failures are the same either way. |
| RelationFacts.ComparisonValue | dncl/compiler.py:46-60 | `x glyph y` with resolvable operands is the truth token of the glyph's relation between their values. |
| RelationFacts.ComparisonFails | dncl/compiler.py:46-60 | `x glyph y` whose values cannot be ordered fails with Python's TypeError. |
| RelationFacts.DigitComparison | dncl/compiler.py:46-60 | Comparing two decimal literals compares the numbers they spell. |
| RelationFacts.RelationMirror | dncl/compiler.py:46-60 | When neither operand contains a comparison glyph and both operands resolve, swapping the operands and using the converse glyph gives the same answer, ordering failures included. When both operands fail, the two orders can report different errors, because the left operand is resolved first. |
| RelationFacts.ThirdPieceIgnored | dncl/compiler.py:46-60 | `x＜y＜z` compares only `x` with `y`. Everything after a second glyph is ignored. |
| Compiler.Connective | dncl/compiler.py:76-100 | Splits at the first top-level (depth 0) occurrence of the first connective in the order tried. The second connective is used only when the first has no top-level occurrence. No split means neither occurs at top level. |
| LogicFacts.MixedConnective | dncl/compiler.py:76-100 | In `a かつ b または c`, the code splits at `かつ`. The intended reading splits at `または`. |
| LogicFacts.JunctionAnd | dncl/compiler.py:91-95 | `かつ` is Python's short-circuit `and` of its two sides. The right side is not evaluated when the left is 偽. |
| LogicFacts.JunctionOr | dncl/compiler.py:96-100 | `または` is Python's short-circuit `or`. The right side is not evaluated when the left is 真. |
| LogicFacts.AndOf | dncl/compiler.py:88-95 | `a かつ b` is the conjunction of its comparisons. |
| LogicFacts.OrOf | dncl/compiler.py:88-100 | `a または b` is the disjunction of its comparisons. |
| LogicFacts.AtomLogic | dncl/compiler.py:102-103 | A text with no group, `でない` or connective is the single comparison it holds. |
| LogicFacts.MixedAsWritten | dncl/compiler.py:76-100 | As written, `a かつ b または c` is `a and (b or c)`. |
| LogicFacts.MixedIntended | dncl/compiler.py:76-100 | With `かつ` binding tighter, `a かつ b または c` is `(a and b) or c`. |
| LogicFacts.PrecedenceCounterexample | dncl/compiler.py:76-100 | `1＞2かつ1＜2または1＜2` is 偽 as written and 真 intended. |
| LogicFacts.NegatedAtom | dncl/compiler.py:72-73 | `a でない` negates the comparison `a`. |
| LogicFacts.NegatedGroupAsWritten | dncl/compiler.py:72-73 | As written, `（a）でない` is 真 whatever `a` is. The group's truth token reaches `relationalOperation`, which finds no glyph in it, and None is falsy. |
| LogicFacts.NegatedGroupIntended | dncl/compiler.py:72-73 | When the truth token is read as its own value, `（a）でない` is the negation of `a`. |
| LogicFacts.JoinedGroupAsWritten | dncl/compiler.py:88-103 | As written, `（a）かつ b` is 偽 whatever `a` is. The group's truth token is the left side; `relationalOperation` finds no glyph in it and gives None, which is falsy, so `b` is never evaluated. |
| LogicFacts.JoinedGroupIntended | dncl/compiler.py:88-103 | When the truth token is read as its own value, `（a）かつ b` is the conjunction of `a` and `b`. |
| LogicFacts.JoinedGroupCounterexample | dncl/compiler.py:66-103 | `（1＜2）かつ1＜2` is 偽 as written and 真 intended. |
| LogicFacts.GroupCounterexample | dncl/compiler.py:68-73 | `（1＜2）でない` is 真 as written and 偽 intended. |
| Compiler.ScanGroup | dncl/compiler.py:108-118 | The stack scan finds a `（` followed later by a `）`. When `（`s are still open, the group starts at the bottom of the stack, which is the outermost one. |
| LogicFacts.ScanStacked | dncl/compiler.py:108-118 | While `（`s are open, the scan returns the `）` that brings the bottom one back to depth zero, with the depth positive before it. It returns nothing exactly when no later `）` closes that `（`. |
| LogicFacts.ScanGroupFinds | dncl/compiler.py:106-119 | On a whole text the scan finds the group opened by the first `（`, and the interior of that group is balanced. It finds nothing exactly when there is no `（` or the first one is never closed. |
| LogicFacts.UnclosedGroupStops | dncl/compiler.py:66-68 | When both parentheses occur and no `）` closes the first `（`, the scan finds no group, so the source's loop would repeat forever. The model stops with `UnbalancedGroups` naming the text. |
| Compiler.EvaluateParentheses | dncl/compiler.py:106-119 | When the scan finds no group the text comes back unchanged. When it finds one, every successful result is strictly shorter. |
| LogicFacts.GroupReplaced | dncl/compiler.py:106-119 | The group the scan finds is replaced by exactly one character, the truth token that `logicOperation` gives its interior. The text before and after it is unchanged. |
| Compiler.Replace | dncl/compiler.py:117 | The splice keeps the prefix and suffix and puts the token in the group's place. |
| Compiler.ResolveGroups | dncl/compiler.py:68-69 | The loop ends with no `（`/`）` pair left, and the text is never longer than it was. |
| LogicFacts.GroupsOnce | dncl/compiler.py:68-69 | When one replacement leaves no `（`, the loop stops after it. |
| LogicFacts.GroupResolved | dncl/compiler.py:65-69 | `（a）rest` becomes `a`'s truth token followed by `rest`. |
| Compiler.LogicOperation | dncl/compiler.py:63-103 | Every answer is 真, 偽 or None. |
| Compiler.Leaf | dncl/compiler.py:102-103 | As written, a text with no connective always goes to `relationalOperation`. The intended reading takes a lone truth token as its own value. |
| Compiler.Classify | dncl/compiler.py:135-209 | Parts are classified by the fixed priority of the if/elif chain:<br>• logic exactly when a connective or `でない` occurs;<br>• comparison exactly when a glyph occurs and no logic marker;<br>• digits only for digit runs;<br>• variable or element only when no arithmetic glyph or parenthesis occurs;<br>• a formula otherwise. |
| Compiler.Quoted | dncl/compiler.py:150-159 | The greedy quote patterns take the text between the opening mark and the last closing mark. |
| Compiler.ElementRef | dncl/compiler.py:185-190 | `name[digits]` splits into the name and the index the digits spell. |
| Compiler.Subscript | dncl/compiler.py:185-190 | An element of a missing array is an undefined-variable error. A list gives its item, a text its character. An index beyond the end and subscripting a number are errors. |
| Compiler.TextValue | dncl/compiler.py:138-148 | Adding a logic or comparison result to the running text needs a truth token. None is a TypeError. |
| Compiler.ResolveElements | dncl/compiler.py:161-170 | Every element of a `{…}` list is resolved, one value per element. |
| CompilerFacts.ElementsResolved | dncl/compiler.py:161-170 | Item `i` of a resolved list is the value of element `i`. A failing list fails with the error of one of its elements. |
| CompilerFacts.DigitList | dncl/compiler.py:161-170 | `{d1,…,dn}` for digit runs `di` is the list of the ints they spell, in order. |
| CompilerFacts.AccumulateFolds | dncl/compiler.py:135-211 | The resolution loop adds the parts' values with `+=`, starting from the empty value of the first part's kind. |
| CompilerFacts.JoinedParts | dncl/compiler.py:135-211 | Parts joined by `と` resolve to the `+=` fold of their values. |
| CompilerFacts.DigitPartsSum | dncl/compiler.py:172-176 | Digit runs joined by `と` sum: `1と2と3` is the int 6. |
| CompilerFacts.QuotedPartsConcatenate | dncl/compiler.py:150-159 | Quoted texts joined by `と` concatenate their interiors. |
| CompilerFacts.DigitsOperand | dncl/compiler.py:172-176 | A digit run is the int it spells. |
| CompilerFacts.VariableOperand | dncl/compiler.py:191-196 | A plain name is the variable's value. A name absent from the store is an error, not a default. |
| CompilerFacts.ElementOperand | dncl/compiler.py:185-190 | `name[digits]` is that element of the stored value. |
| CompilerFacts.InputMarkerIsVariable | dncl/compiler.py:184-202 | `【外部からの入力】` is read as a variable name, so the input branch is never reached. |
| Values.Add | dncl/compiler.py:206-209 | Python's `+=` on the values:<br>• numbers add, and stay an int only when both are;<br>• texts concatenate;<br>• a list is extended: its items come first and the added items follow, in order;<br>• any other pairing is a TypeError. |
| Values.Empty | dncl/compiler.py:206-209 | `type(val)()` followed by `+= val` gives `val`. |
| Values.CompareFlip | dncl/compiler.py:47-50 | Ordering `b` with `a` is the reverse of ordering `a` with `b`, and fails exactly when that does. |
| Values.CompareSameIsEqual | dncl/compiler.py:51-58 | Two values order as equal exactly when Python's `==` holds. |
| Values.EqualSymmetric | dncl/compiler.py:51-54 | Python's `==` is symmetric on the values. |
| Text.Strip | dncl/compiler.py:136 | After `strip(" ")` no space is left at either end. The result is a contiguous slice of the text, and everything cut off on either side is spaces. A text with no space at either end is unchanged; any other non-empty text gets shorter. |
| TextFacts.SplitJoin | dncl/compiler.py:135 | Splitting a text joined by a separator gives back the pieces. |
| Script.StepPattern | dncl/compiler.py:14-15 | The greedy increase/decrease patterns end the amount at the last keyword and the name at the last `を` before it. |
| Script.Parse | dncl/compiler.py:25-35 | Print is tried first, then assignment, then increase, then decrease. A line is an increase exactly when it is not a print or an assignment and the increase pattern matches, and likewise a decrease. It does nothing exactly when no pattern matches. Each statement carries the operand, name and amount its pattern captures. |
| ScriptFacts.PrintLine | dncl/compiler.py:27-28 | `x を表示する` is a print of `x`. |
| ScriptFacts.AssignLine | dncl/compiler.py:30-31 | `name ← raw` is an assignment. |
| ScriptFacts.IncreaseLine | dncl/compiler.py:32-33 | `name を k 増やす` is an increase of `name` by `k`. |
| ScriptFacts.DecreaseLine | dncl/compiler.py:34-35 | `name を k 減らす` is a decrease of `name` by `k`. |
| Script.Write | dncl/compiler.py:222-223 | The store is written only when the value resolves, under the given key alone. All other keys are unchanged and a failure leaves the store unwritten. |
| ScriptFacts.AssignStores | dncl/compiler.py:214-223 | An assignment line sets `store[name.strip()]` to the resolved stripped value, and nothing else changes. |
| Script.Arith | dncl/calc.py:54-57 | `＋` and `－` on two numbers give their sum and difference. The result is an int exactly when that value is integral. Anything else is a TypeError. |
| Script.Shift | dncl/compiler.py:32-35 | Increase and decrease change at most the one named variable. As written they are the assignment of `name＋amount`. |
| ScriptFacts.ShiftAsWrittenFails | dncl/compiler.py:32-35 | As written, increasing or decreasing a named variable by a digit amount always fails. |
| ScriptFacts.IncreaseAsWritten | dncl/compiler.py:32-33 | `x を 1 増やす` fails as written. |
| ScriptFacts.DecreaseAsWritten | dncl/compiler.py:34-35 | `x を 1 減らす` fails as written. |
| ScriptFacts.IncreaseIntended | dncl/compiler.py:32-33 | Intended, `x を k 増やす` on an int `n` stores `n + k` and changes nothing else. |
| ScriptFacts.DecreaseIntended | dncl/compiler.py:34-35 | Intended, `x を k 減らす` stores `n − k`. |
| ScriptFacts.ShiftUndefined | dncl/compiler.py:32-35 | In the intended reading, increasing or decreasing a variable that does not exist is an undefined-variable error naming the stripped name. |
| Script.Exec | dncl/compiler.py:226-233 | Printing appends exactly one value to the output and leaves the store alone. No other statement prints, and a line matching no pattern changes nothing. |
| ScriptFacts.PrintShows | dncl/compiler.py:226-233 | A print line appends the resolved operand to the output. |
| Script.Run | dncl/compiler.py:25-35 | The output only grows. An empty script changes nothing. |
| ScriptFacts.RunConcat | dncl/compiler.py:25-35 | Running two scripts one after the other is running their concatenation. A failure stops the run. |
| Script.SplitLines | dncl/compiler.py:24 | `splitlines` yields lines with no line break in them, and none at all only for the empty script. |
| ScriptFacts.SplitLinesJoin | dncl/compiler.py:24 | Splitting lines joined by `\n` gives them back. |
| ScriptFacts.CrLfOneBreak | dncl/compiler.py:24 | `\r\n` is one line break. |
| ScriptFacts.AssignThenPrint | dncl/compiler.py:25-31 | `x ← raw` followed by `x を表示する` stores the value and prints it. |
| ScriptFacts.AssignThenPrintScript | dncl/compiler.py:23-35 | The same, as one script of two lines. |
| Script.CompileScript | dncl/compiler.py:23-35 | Running a script only ever adds to the output. |

## Left out

- Console I/O. `input()` (`dncl/compiler.py:202`) cannot be reached, so it is not modelled. The `print` call becomes appending the value to an output trace; Python's display format is not modelled.
- `dncl/__main__.py` is not part of this model. It reads the script file and dumps the store.
- The module-level `variables` dict becomes an explicit store that is passed in and returned.
- IEEE floating point. Floats are exact `real`s: rounding, overflow, `inf` and `nan` are not modelled.
- `str.isdigit`, and the `\d` of the array-element pattern (`dncl/compiler.py:9`, modelled by `Compiler.ElementRef`), count only ASCII and full-width digits. `str.isnumeric` counts only those and the kanji numerals. A numeral part other than a digit run is an `InvalidNumber` error, where Python's `float()` would decide.
- Literals are parsed when a number token is completed. A malformed literal that Python would never reach (for example the second literal in `（5 1.2.3）`) is therefore an error in the model.
- Formulas whose token list does not alternate:
  - one with an operator at either end, two adjacent operators, or no token at all, is `MalformedFormula`;
  - the source raises an IndexError or a ValueError here, or never finishes (a leading operator);
  - a leading `－` is not a negative number.
- The `logicOperation` loop never finishes once the text holds both `（` and `）` but no `）` brings the first `（` back to depth zero, as in `（（1）`. The model gives `UnbalancedGroups` instead (`LogicFacts.UnclosedGroupStops`).
- The `.` of the source's regular expressions does not match a line break. The model does not say this, because the lines handed to the patterns never contain one.
- Comparing values of different kinds, and `+=` on incompatible kinds, are Python's TypeError. Ordering lists is lexicographic, as in Python. Nested `{…}` literals are split exactly as the naive split does.
- ShiftUndefined: stated for the intended reading only. As written, the shift assigns the text `name＋amount` and never looks the name up, so the error is whatever resolving that text gives. For an identifier name and a digit amount that is calc's invalid-character error, stated by `ScriptFacts.ShiftAsWrittenFails`.
- Script.Assignment: carries no contract of its own. Its behaviour is stated on `Script.Write` and, through the line dispatch, on `ScriptFacts.AssignStores`.
- Compiler.LogicOperation: its contract gives only the shape of the answer. Its meaning is stated by the `LogicFacts` lemmas for atoms, connectives, negation and groups.
- Calc.Tokenize: its contract states only which tokens can appear. The tokens themselves are stated by `CalcFacts.TokensExample`, `GroupTokens`, `JuxtaposedTokens`, `TokenizeSpace` and `TokenizeRejects`.

## Findings

| source | as written | input that shows it | evidently intended | confidence | as-written member | corrected member |
|---|---|---|---|---|---|---|
| dncl/compiler.py:76-100 | The first top-level `かつ` is split before any `または` is looked for. `かつ` becomes the root, so `a かつ b または c` is `a and (b or c)`: `かつ` binds looser. | `1＞2かつ1＜2または1＜2` gives 偽 | `かつ` binds tighter, as the comment on line 75 and the language's usual precedence say: `(a and b) or c` gives 真 | high; not executed | LogicFacts.MixedAsWritten | LogicFacts.MixedIntended |
| dncl/compiler.py:72-73 | After a group has been replaced by its truth token, `でない` hands 真/偽 to `relationalOperation`. That finds no glyph and returns None, which is falsy, so the negation is always 真. | `（1＜2）でない` gives 真 | the negation of the group: 偽 | high; not executed | LogicFacts.NegatedGroupAsWritten | LogicFacts.NegatedGroupIntended |
| dncl/compiler.py:88-103 | The same truth token reaches a connective. The side that is just 真 or 偽 goes through `logicOperation` to `relationalOperation`, which gives None, and None is falsy. So a group joined by `かつ` is always false, and one joined by `または` never counts. | `（1＜2）かつ1＜2` gives 偽 | the group's value joins the connective: 真 | high; not executed | LogicFacts.JoinedGroupAsWritten | LogicFacts.JoinedGroupIntended |
| dncl/compiler.py:32-35 | Increase and decrease assign the text `name＋amount`. For an amount of digits, that text goes to `calc`, which rejects the letters of the name as invalid characters. | `xを1増やす` with `x` = 5 fails | `x` becomes 6 | high; not executed | ScriptFacts.IncreaseAsWritten | ScriptFacts.IncreaseIntended |

The corrected behaviour is the model's `Intended` reading:

- `Compiler.SplitOrder` tries `または` first.
- `Compiler.Leaf` takes a truth token as its own value. This corrects the second and third rows.
- `Script.Shift` adds to the variable's stored value.

A lemma with a `Reading` parameter holds for both readings. So does a lemma
whose statement names no reading. The others name the reading they are
about. Most carry it in their name (`…AsWritten`, `…Intended`, and the
counterexamples, which state both). `ScriptFacts.ShiftUndefined` is about
the intended reading only.

=== FILE: calc.dfy ===
/** The arithmetic formula evaluator (`calc`): a character scanner that turns
    a formula into alternating number and operator tokens, evaluating every
    parenthesised group by a recursive call, followed by two left-to-right
    splice passes, first over `× / ÷ ％` and then over `＋ －`. */
module Calc {
  import opened Wrappers
  import opened Text
  import opened Values

  /** A token of a formula: a number (a literal or a group's value) or one
      operator glyph. */
  datatype Token = NumTok(v: real) | OpTok(op: char)

  const Operators: set<char> := {'＋', '－', '×', '/', '÷', '％'}
  const MulTier: set<char> := {'×', '/', '÷', '％'}
  const AddTier: set<char> := {'＋', '－'}

  /** Python's float `a // b`: the quotient rounded toward negative infinity. */
  function FloorDiv(a: real, b: real): (q: real)
    requires b != 0.0
    ensures q == q.Floor as real
    ensures q <= a / b < q + 1.0
  {
    (a / b).Floor as real
  }

  /** Python's float `a % b`: the remainder that goes with `FloorDiv`. */
  function FloorMod(a: real, b: real): real
    requires b != 0.0
  {
    a - b * FloorDiv(a, b)
  }

  /** `applyOperator`: both operands are already reals; a zero divisor of
      '/', '÷' or '％' fails, and a glyph outside the six operators is an
      unknown operator. */
  function ApplyOperator(op: char, a: real, b: real): (r: Result<real>)
    ensures op !in Operators ==> r == Err(UnknownOperator(op))
    ensures op in Operators ==> (r.Err? <==> op in {'/', '÷', '％'} && b == 0.0)
    ensures r.Err? ==> r.error == DivisionByZero || r.error == UnknownOperator(op)
  {
    if op == '＋' then Ok(a + b)
    else if op == '－' then Ok(a - b)
    else if op == '×' then Ok(a * b)
    else if op == '/' then (if b == 0.0 then Err(DivisionByZero) else Ok(a / b))
    else if op == '÷' then (if b == 0.0 then Err(DivisionByZero) else Ok(FloorDiv(a, b)))
    else if op == '％' then (if b == 0.0 then Err(DivisionByZero) else Ok(FloorMod(a, b)))
    else Err(UnknownOperator(op))
  }

  function Pow10(n: nat): (p: nat)
    ensures p > 0
  {
    if n == 0 then 1 else 10 * Pow10(n - 1)
  }

  /** The characters the scanner collects into a number token. */
  predicate NumberChars(s: string)
  {
    forall k :: 0 <= k < |s| ==> IsDigit(s[k]) || s[k] == '.'
  }

  /** No point follows another one. */
  predicate OnePointAtMost(s: string)
  {
    forall a, b :: 0 <= a < b < |s| && s[a] == '.' ==> s[b] != '.'
  }

  predicate SomeDigit(s: string)
  {
    exists k :: 0 <= k < |s| && IsDigit(s[k])
  }

  /** Without a point, a number text is well formed when it is not empty. */
  lemma NoPoint(text: string)
    requires NumberChars(text) && '.' !in text
    ensures OnePointAtMost(text)
    ensures SomeDigit(text) <==> |text| > 0
  {
    assert forall a :: 0 <= a < |text| ==> text[a] in text;
    if |text| > 0 {
      assert IsDigit(text[0]);
    }
  }

  /** With its first point at `k`, a number text has no second point
      exactly when none follows `k`, and then a digit exactly when the
      point is not alone. */
  lemma FirstPoint(text: string, k: nat)
    requires NumberChars(text) && k < |text| && text[k] == '.' && '.' !in text[..k]
    ensures OnePointAtMost(text) <==> '.' !in text[k + 1..]
    ensures OnePointAtMost(text) ==> (SomeDigit(text) <==> |text| > 1)
  {
    var fraction := text[k + 1..];
    assert forall j :: 0 <= j < |fraction| ==> fraction[j] == text[k + 1 + j] && fraction[j] in fraction;
    assert forall a :: 0 <= a < k ==> text[a] in text[..k];
    if '.' in fraction {
      assert text[k + 1 + FirstIndex(fraction, '.')] == '.';
    } else if |text| > 1 {
      assert IsDigit(if k > 0 then text[0] else text[k + 1]);
    }
  }

  /** The number the digits on both sides of a point spell: the digits
      after it count tenths, hundredths and so on. */
  function PointValue(whole: string, fraction: string): (v: real)
    requires forall i :: 0 <= i < |whole| ==> IsDigit(whole[i])
    requires forall i :: 0 <= i < |fraction| ==> IsDigit(fraction[i])
    ensures DigitsValue(whole) as real <= v < DigitsValue(whole) as real + 1.0
  {
    DigitsBelowPow10(fraction);
    BelowOne(DigitsValue(fraction), Pow10(|fraction|));
    DigitsValue(whole) as real + DigitsValue(fraction) as real / Pow10(|fraction|) as real
  }

  /** `n` digits spell a number below `10^n`: the digits after a point add
      less than one. */
  lemma {:induction false} DigitsBelowPow10(s: string)
    requires forall i :: 0 <= i < |s| ==> IsDigit(s[i])
    ensures DigitsValue(s) < Pow10(|s|)
  {
    if |s| > 0 {
      DigitsBelowPow10(s[..|s| - 1]);
    }
  }

  lemma BelowOne(x: nat, p: nat)
    requires x < p
    ensures 0.0 <= x as real / p as real < 1.0
  {
    assert (x as real / p as real) * p as real == x as real;
  }

  /** Python's `float(text)` for a run of digits and points: it succeeds
      exactly when there is at most one point and at least one digit, and
      the digits after the point are the fraction. */
  function ParseNumber(text: string): (r: Result<real>)
    requires NumberChars(text)
    ensures r.Ok? <==> OnePointAtMost(text) && SomeDigit(text)
    ensures r.Ok? ==> r.value >= 0.0
    ensures AllDigits(text) ==> r == Ok(DigitsValue(text) as real)
    ensures r.Ok? && '.' in text ==>
              var k := FirstIndex(text, '.');
              r.value == PointValue(text[..k], text[k + 1..])
    ensures r.Err? ==> r.error == InvalidNumber(text)
  {
    if '.' !in text then
      NoPoint(text);
      if |text| == 0 then Err(InvalidNumber(text)) else Ok(DigitsValue(text) as real)
    else
      var k := FirstIndex(text, '.');
      var whole, fraction := text[..k], text[k + 1..];
      FirstPoint(text, k);
      if '.' in fraction || |whole| + |fraction| == 0 then Err(InvalidNumber(text))
      else
        Ok(PointValue(whole, fraction))
  }

  /** Every operator token holds one of the six operator glyphs. */
  predicate KnownOperators(ts: seq<Token>)
  {
    forall k :: 0 <= k < |ts| ==> ts[k].OpTok? ==> ts[k].op in Operators
  }

  /** Ends the pending number token, if there is one. */
  function Flush(number: string, tokens: seq<Token>): (r: Result<seq<Token>>)
    requires NumberChars(number)
    ensures r.Ok? ==> |r.value| == |tokens| + (if |number| == 0 then 0 else 1)
    ensures r.Ok? ==> r.value[..|tokens|] == tokens
    ensures r.Ok? ==> forall k :: |tokens| <= k < |r.value| ==> r.value[k].NumTok?
    ensures |number| == 0 ==> r == Ok(tokens)
  {
    if |number| == 0 then Ok(tokens)
    else
      var v :- ParseNumber(number);
      Ok(tokens + [NumTok(v)])
  }

  /** The position of the '）' that closes a group whose interior starts at
      `j`, with `depth` groups still open; `|s|` when it is never closed. */
  function GroupEnd(s: string, j: nat, depth: nat): (k: nat)
    requires j <= |s| && depth >= 1
    ensures j <= k <= |s|
    ensures k < |s| ==> s[k] == '）'
    decreases |s| - j
  {
    if j == |s| then |s|
    else if s[j] == '（' then GroupEnd(s, j + 1, depth + 1)
    else if s[j] == '）' then (if depth == 1 then j else GroupEnd(s, j + 1, depth - 1))
    else GroupEnd(s, j + 1, depth)
  }

  /** The scanner of `tokenize`, from position `i` with the pending number
      characters `number` and the tokens emitted so far. A '（' hands the
      text up to its matching '）' (or to the end) to `Calc`. */
  function Tokenize(s: string, i: nat, number: string, tokens: seq<Token>): (r: Result<seq<Token>>)
    requires i <= |s| && NumberChars(number) && KnownOperators(tokens)
    ensures r.Ok? ==> KnownOperators(r.value)
    decreases |s|, 0, |s| - i
  {
    if i == |s| then Flush(number, tokens)
    else
      var c := s[i];
      if IsDigit(c) || c == '.' then Tokenize(s, i + 1, number + [c], tokens)
      else
        var ts :- Flush(number, tokens);
        if c in Operators then Tokenize(s, i + 1, "", ts + [OpTok(c)])
        else if c == '（' then
          var k := GroupEnd(s, i + 1, 1);
          var v :- Calc(s[i + 1..k]);
          var x :- Float(v);
          Tokenize(s, if k < |s| then k + 1 else |s|, "", ts + [NumTok(x)])
        else if c == ' ' then Tokenize(s, i + 1, "", ts)
        else Err(InvalidCharacter(c))
  }

  /** At least one token, and every operator is one of the six and stands
      between two numbers: the token lists on which both passes of
      `evaluate` only ever index inside the list. Two numbers may stand
      side by side (`5 3`, `2（3）`); the passes step over such a pair. */
  predicate Flanked(ts: seq<Token>)
  {
    && |ts| > 0
    && forall k :: 0 <= k < |ts| && ts[k].OpTok? ==>
         && 0 < k < |ts| - 1 && ts[k].op in Operators
         && ts[k - 1].NumTok? && ts[k + 1].NumTok?
  }

  /** A flanked list in which numbers and operators alternate: numbers at
      the even positions, operators at the odd ones, odd length. */
  predicate WellFormed(ts: seq<Token>)
  {
    && Flanked(ts)
    && |ts| % 2 == 1
    && forall k :: 0 <= k < |ts| ==>
         if k % 2 == 0 then ts[k].NumTok? else ts[k].OpTok? && ts[k].op in Operators
  }

  /** The operator glyphs of a token list, in order. */
  function OpsOf(ts: seq<Token>): seq<char>
  {
    if |ts| == 0 then [] else (if ts[0].OpTok? then [ts[0].op] else []) + OpsOf(ts[1..])
  }

  /** `ops` with the glyphs of `tier` removed. */
  function Without(ops: seq<char>, tier: set<char>): seq<char>
  {
    if |ops| == 0 then [] else (if ops[0] in tier then [] else [ops[0]]) + Without(ops[1..], tier)
  }

  predicate InTier(t: Token, tier: set<char>)
  {
    t.OpTok? && t.op in tier
  }

  /** `tokens[i - 1 : i + 2] = [x]`: the operator at `i` and its two operands
      become the single number `x`. */
  function Splice(ts: seq<Token>, i: nat, x: real): (r: seq<Token>)
    requires Flanked(ts) && i < |ts| && ts[i].OpTok?
    ensures Flanked(r) && |r| == |ts| - 2
    ensures WellFormed(ts) ==> WellFormed(r)
    ensures forall k :: 0 <= k < i - 1 ==> r[k] == ts[k]
    ensures r[i - 1] == NumTok(x)
    ensures forall k :: i <= k < |r| ==> r[k] == ts[k + 2]
  {
    var r := ts[..i - 1] + [NumTok(x)] + ts[i + 2..];
    assert forall k :: i <= k < |r| ==> r[k] == ts[k + 2];
    r
  }

  lemma OpsOfConcat(a: seq<Token>, b: seq<Token>)
    ensures OpsOf(a + b) == OpsOf(a) + OpsOf(b)
  {
    if |a| > 0 {
      assert (a + b)[1..] == a[1..] + b;
      OpsOfConcat(a[1..], b);
    } else {
      assert a + b == b;
    }
  }

  lemma WithoutConcat(a: seq<char>, b: seq<char>, tier: set<char>)
    ensures Without(a + b, tier) == Without(a, tier) + Without(b, tier)
  {
    if |a| > 0 {
      assert (a + b)[1..] == a[1..] + b;
      WithoutConcat(a[1..], b, tier);
    } else {
      assert a + b == b;
    }
  }

  lemma OpsOfTriple(a: Token, b: Token, c: Token)
    requires a.NumTok? && b.OpTok? && c.NumTok?
    ensures OpsOf([a, b, c]) == [b.op]
  {
    assert OpsOf([c]) == [] by {
      assert [c][1..] == [];
    }
    assert OpsOf([b, c]) == [b.op] by {
      assert [b, c][1..] == [c];
    }
    assert [a, b, c][1..] == [b, c];
  }

  /** The operators of `pre + [a, b, c] + post`. */
  lemma OpsOfAround(pre: seq<Token>, a: Token, b: Token, c: Token, post: seq<Token>)
    requires a.NumTok? && b.OpTok? && c.NumTok?
    ensures OpsOf(pre + [a, b, c] + post) == OpsOf(pre) + [b.op] + OpsOf(post)
  {
    OpsOfConcat(pre + [a, b, c], post);
    OpsOfConcat(pre, [a, b, c]);
    OpsOfTriple(a, b, c);
  }

  /** The operators of `pre + [a] + post` for a number `a`. */
  lemma OpsOfAroundNumber(pre: seq<Token>, a: Token, post: seq<Token>)
    requires a.NumTok?
    ensures OpsOf(pre + [a] + post) == OpsOf(pre) + OpsOf(post)
  {
    OpsOfConcat(pre + [a], post);
    OpsOfConcat(pre, [a]);
    assert OpsOf([a]) == [] by {
      assert [a][1..] == [];
    }
  }

  /** Removing a tier operator by a splice does not change the operators of
      the other tier. */
  lemma SpliceKeepsOtherOps(ts: seq<Token>, i: nat, x: real, tier: set<char>)
    requires Flanked(ts) && i < |ts| && ts[i].OpTok? && ts[i].op in tier
    ensures Without(OpsOf(Splice(ts, i, x)), tier) == Without(OpsOf(ts), tier)
  {
    var pre, post := ts[..i - 1], ts[i + 2..];
    assert ts == pre + [ts[i - 1], ts[i], ts[i + 1]] + post;
    OpsOfAround(pre, ts[i - 1], ts[i], ts[i + 1], post);
    OpsOfAroundNumber(pre, NumTok(x), post);
    var a, b := OpsOf(pre), OpsOf(post);
    WithoutConcat(a + [ts[i].op], b, tier);
    WithoutConcat(a, [ts[i].op], tier);
    WithoutConcat(a, b, tier);
    assert Without([ts[i].op], tier) == [] by {
      assert [ts[i].op][1..] == [];
    }
  }

  /** A list without tier operators keeps all its operators. */
  lemma WithoutAbsentTier(ts: seq<Token>, tier: set<char>)
    requires forall k :: 0 <= k < |ts| ==> !InTier(ts[k], tier)
    ensures Without(OpsOf(ts), tier) == OpsOf(ts)
  {
    if |ts| > 0 {
      WithoutAbsentTier(ts[1..], tier);
      var head := if ts[0].OpTok? then [ts[0].op] else [];
      WithoutConcat(head, OpsOf(ts[1..]), tier);
    }
  }

  /** One pass of `evaluate` from position `i`: a tier operator at `i` is
      applied to its neighbours and spliced, and the scan steps back one
      place; anything else moves the scan on. */
  function Sweep(tier: set<char>, ts: seq<Token>, i: nat): (r: Result<seq<Token>>)
    requires Flanked(ts) && i <= |ts|
    requires forall k :: 0 <= k < i ==> !InTier(ts[k], tier)
    ensures r.Ok? ==> Flanked(r.value)
    ensures r.Ok? && WellFormed(ts) ==> WellFormed(r.value)
    ensures r.Ok? ==> forall k :: 0 <= k < |r.value| ==> !InTier(r.value[k], tier)
    ensures r.Ok? ==> OpsOf(r.value) == Without(OpsOf(ts), tier)
    decreases 2 * |ts| - i
  {
    if i == |ts| then
      WithoutAbsentTier(ts, tier);
      Ok(ts)
    else if InTier(ts[i], tier) then
      var x :- ApplyOperator(ts[i].op, ts[i - 1].v, ts[i + 1].v);
      SpliceKeepsOtherOps(ts, i, x, tier);
      Sweep(tier, Splice(ts, i, x), i - 1)
    else
      Sweep(tier, ts, i + 1)
  }

  /** `evaluate`: the multiplicative pass, then the additive pass, then the
      first remaining token. */
  function Evaluate(ts: seq<Token>): Result<real>
    requires Flanked(ts)
  {
    var products :- Sweep(MulTier, ts, 0);
    var sums :- Sweep(AddTier, products, 0);
    Ok(sums[0].v)
  }

  predicate Integral(x: real)
  {
    x == x.Floor as real
  }

  /** `int(result) if float(result).is_integer() else result` for a result
      that is a number. */
  function Normalize(x: real): (v: Value)
    ensures v.IsNumber() && v.AsReal() == x
    ensures v.Int? <==> Integral(x)
  {
    if Integral(x) then Int(x.Floor) else Num(x)
  }

  /** Python's `float(v)` for the objects a token list can hold: numbers,
      and the text of a number literal. */
  function Float(v: Value): (r: Result<real>)
    ensures v.IsNumber() ==> r == Ok(v.AsReal())
    ensures v.Str? && AllDigits(v.s) ==> r == Ok(DigitsValue(v.s) as real)
    ensures v.Arr? ==> r == Err(TypeMismatch)
  {
    match v
    case Str(t) => if NumberChars(t) then ParseNumber(t) else Err(InvalidNumber(t))
    case Arr(_) => Err(TypeMismatch)
    case _ => Ok(v.AsReal())
  }

  /** What `calc` can hand back: an int, a float with a fraction, or the
      text of a literal whose value has a fraction. */
  predicate Settled(v: Value)
  {
    match v
    case Int(_) => true
    case Num(x) => !Integral(x)
    case Str(_) => Float(v).Ok? && !Integral(Float(v).value)
    case Arr(_) => false
  }

  /** The last line of `calc` applied to whatever `evaluate` returned: a
      number is normalised; a literal's text whose value is whole goes
      through `int`, which refuses a point ("5.0"), and any other literal
      text is returned as it is, still text. */
  function Settle(v: Value): (r: Result<Value>)
    ensures v.IsNumber() ==> r == Ok(Normalize(v.AsReal()))
    ensures v.Str? && AllDigits(v.s) ==> r == Ok(Int(DigitsValue(v.s)))
    ensures v.Str? && r.Ok? && r.value.Str? ==> r.value == v
    ensures r.Ok? ==> Settled(r.value)
  {
    var x :- Float(v);
    if !Integral(x) then
      Ok(v)
    else if v.Str? then
      if AllDigits(v.s) then Ok(Int(DigitsValue(v.s))) else Err(InvalidNumber(v.s))
    else
      Ok(Int(x.Floor))
  }

  /** The run of digits and points that starts at `i`. */
  function Literal(s: string, i: nat): (t: string)
    requires i <= |s|
    ensures NumberChars(t) && i + |t| <= |s| && s[i..i + |t|] == t
    ensures i + |t| == |s| || !(IsDigit(s[i + |t|]) || s[i + |t|] == '.')
    decreases |s| - i
  {
    if i < |s| && (IsDigit(s[i]) || s[i] == '.') then [s[i]] + Literal(s, i + 1) else []
  }

  /** The first token `tokenize` emits from position `i` on, as the program
      holds it: the text of a number literal, or the value `calc` gives a
      parenthesised group. */
  function Lead(s: string, i: nat): (r: Result<Value>)
    requires i <= |s|
    decreases |s|, 0, |s| - i
  {
    if i == |s| then Err(MalformedFormula)
    else if IsDigit(s[i]) || s[i] == '.' then Ok(Str(Literal(s, i)))
    else if s[i] == ' ' then Lead(s, i + 1)
    else if s[i] == '（' then Calc(s[i + 1..GroupEnd(s, i + 1, 1)])
    else Err(MalformedFormula)
  }

  /** `calc(formula)`: tokenize, evaluate, settle. When the second token is
      an operator the first token is replaced by a computed float;
      otherwise `evaluate` hands back the first token as `tokenize` made
      it. A token list with an operator at either end or two operators in
      a row is reported as malformed. */
  function Calc(formula: string): (r: Result<Value>)
    ensures r.Ok? ==> Settled(r.value)
    decreases |formula|, 1, 0
  {
    var tokens :- Tokenize(formula, 0, "", []);
    if !Flanked(tokens) then Err(MalformedFormula)
    else
      var x :- Evaluate(tokens);
      if |tokens| > 1 && tokens[1].OpTok? then Ok(Normalize(x))
      else
        var first :- Lead(formula, 0);
        Settle(first)
  }
}

=== FILE: calc_facts.dfy ===
/** What the formula evaluator guarantees: floor semantics of '÷' and '％',
    the shape of each splice pass, the precedence and associativity of the
    two passes against a textbook one-pass evaluator, the matching of
    parenthesised groups, and the rejection of stray characters. */
module CalcFacts {
  import opened Wrappers
  import opened Text
  import opened Values
  import opened Calc

  /** '÷' and '％' agree with each other the way Python's floor division
      and modulo do: `a == b * (a ÷ b) + a ％ b`, and the remainder takes
      the sign of the divisor. */
  lemma FloorDivModLaw(a: real, b: real)
    requires b != 0.0
    ensures a == b * FloorDiv(a, b) + FloorMod(a, b)
    ensures b > 0.0 ==> 0.0 <= FloorMod(a, b) < b
    ensures b < 0.0 ==> b < FloorMod(a, b) <= 0.0
  {
    var q := FloorDiv(a, b);
    var d := a / b - q;
    assert 0.0 <= d < 1.0;
    assert FloorMod(a, b) == b * d by {
      assert b * (a / b) == a;
      assert b * d == b * (a / b) - b * q;
    }
    assert b - b * d == b * (1.0 - d);
    if b > 0.0 {
      assert b * (1.0 - d) > 0.0;
    } else {
      assert b * (1.0 - d) < 0.0;
    }
  }

  lemma WellFormedSuffix(ts: seq<Token>, i: nat)
    requires WellFormed(ts) && i % 2 == 0 && i < |ts|
    ensures WellFormed(ts[i..])
  {
    forall k | 0 <= k < |ts[i..]|
      ensures if k % 2 == 0 then ts[i..][k].NumTok? else ts[i..][k].OpTok? && ts[i..][k].op in Operators
    {
      assert ts[i..][k] == ts[i + k];
      assert (i + k) % 2 == k % 2;
    }
  }

  /** A well-formed list of 2k+1 tokens holds exactly k operators. */
  lemma {:induction false} WellFormedLength(ts: seq<Token>)
    requires WellFormed(ts)
    ensures |ts| == 2 * |OpsOf(ts)| + 1
    decreases |ts|
  {
    if |ts| == 1 {
      assert ts[1..] == [];
    } else {
      WellFormedSuffix(ts, 2);
      WellFormedLength(ts[2..]);
      assert ts[1..][1..] == ts[2..];
      assert OpsOf(ts[1..]) == [ts[1].op] + OpsOf(ts[2..]);
    }
  }

  lemma OpsOfKnown(ts: seq<Token>)
    requires KnownOperators(ts)
    ensures forall c :: c in OpsOf(ts) ==> c in Operators
  {
    if |ts| > 0 {
      assert KnownOperators(ts[1..]) by {
        assert forall k :: 0 <= k < |ts[1..]| ==> ts[1..][k] == ts[k + 1];
      }
      OpsOfKnown(ts[1..]);
    }
  }

  lemma WithoutElements(ops: seq<char>, tier: set<char>)
    ensures forall c :: c in Without(ops, tier) ==> c in ops && c !in tier
  {
    if |ops| > 0 {
      WithoutElements(ops[1..], tier);
    }
  }

  /** Each pass shortens the list by exactly two tokens per operator of its
      tier, and keeps the other tier's operators in their order. */
  lemma SweepShrinks(tier: set<char>, ts: seq<Token>)
    requires WellFormed(ts)
    ensures Sweep(tier, ts, 0).Ok? ==>
              && OpsOf(Sweep(tier, ts, 0).value) == Without(OpsOf(ts), tier)
              && |Sweep(tier, ts, 0).value| == |ts| - 2 * (|OpsOf(ts)| - |Without(OpsOf(ts), tier)|)
  {
    var r := Sweep(tier, ts, 0);
    if r.Ok? {
      WellFormedLength(ts);
      WellFormedLength(r.value);
    }
  }

  /** After the multiplicative and the additive pass exactly one token is
      left, the one `evaluate` returns. */
  lemma PassesLeaveOneToken(ts: seq<Token>)
    requires WellFormed(ts)
    ensures Sweep(MulTier, ts, 0).Ok? && Sweep(AddTier, Sweep(MulTier, ts, 0).value, 0).Ok? ==>
              |Sweep(AddTier, Sweep(MulTier, ts, 0).value, 0).value| == 1
  {
    var products := Sweep(MulTier, ts, 0);
    if products.Ok? {
      var sums := Sweep(AddTier, products.value, 0);
      if sums.Ok? {
        OpsOfKnown(ts);
        WithoutElements(OpsOf(ts), MulTier);
        WithoutElements(OpsOf(products.value), AddTier);
        var left := OpsOf(sums.value);
        assert forall c :: c in left ==> c in Operators && c !in MulTier && c !in AddTier;
        WellFormedLength(sums.value);
      }
    }
  }

  // ---------------------------------------------------------------------
  // Precedence and associativity

  function Prefixed(pre: seq<Token>, r: Result<seq<Token>>): Result<seq<Token>>
  {
    match r
    case Ok(v) => Ok(pre + v)
    case Err(e) => Err(e)
  }

  /** One pass written by structural recursion: apply a leading tier
      operator to the first two numbers, or keep the first number and
      operator and continue on the rest. */
  function Pass(tier: set<char>, ts: seq<Token>): (r: Result<seq<Token>>)
    requires WellFormed(ts)
    decreases |ts|
  {
    if |ts| == 1 then Ok(ts)
    else if ts[1].op in tier then
      var x :- ApplyOperator(ts[1].op, ts[0].v, ts[2].v);
      Pass(tier, Splice(ts, 1, x))
    else
      WellFormedSuffix(ts, 2);
      var rest :- Pass(tier, ts[2..]);
      Ok(ts[..2] + rest)
  }

  predicate ClearBefore(tier: set<char>, ts: seq<Token>, i: nat)
  {
    forall k :: 0 <= k < i && k < |ts| ==> !InTier(ts[k], tier)
  }

  lemma SweepSkips(tier: set<char>, ts: seq<Token>, i: nat)
    requires WellFormed(ts) && i < |ts| && ClearBefore(tier, ts, i) && !InTier(ts[i], tier)
    ensures Sweep(tier, ts, i) == Sweep(tier, ts, i + 1)
  {
  }

  lemma SweepApplies(tier: set<char>, ts: seq<Token>, i: nat, x: real)
    requires WellFormed(ts) && i < |ts| && i % 2 == 1 && ClearBefore(tier, ts, i) && InTier(ts[i], tier)
    requires ApplyOperator(ts[i].op, ts[i - 1].v, ts[i + 1].v) == Ok(x)
    ensures ClearBefore(tier, Splice(ts, i, x), i - 1)
    ensures Sweep(tier, ts, i) == Sweep(tier, Splice(ts, i, x), i - 1)
  {
  }

  lemma PassApplies(tier: set<char>, ts: seq<Token>, x: real)
    requires WellFormed(ts) && |ts| > 1 && ts[1].op in tier
    requires ApplyOperator(ts[1].op, ts[0].v, ts[2].v) == Ok(x)
    ensures Pass(tier, ts) == Pass(tier, Splice(ts, 1, x))
  {
  }

  lemma PassSkips(tier: set<char>, ts: seq<Token>)
    requires WellFormed(ts) && |ts| > 1 && ts[1].op !in tier
    ensures WellFormed(ts[2..])
    ensures Pass(tier, ts) == Prefixed(ts[..2], Pass(tier, ts[2..]))
  {
    WellFormedSuffix(ts, 2);
  }

  /** The claim `SweepIsPass` makes at position `i`. */
  predicate SweepMatches(tier: set<char>, ts: seq<Token>, i: nat)
    requires WellFormed(ts) && i < |ts| && WellFormed(ts[i..]) && ClearBefore(tier, ts, i)
  {
    Sweep(tier, ts, i) == Prefixed(ts[..i], Pass(tier, ts[i..]))
  }

  lemma SweepMatchesAtEnd(tier: set<char>, ts: seq<Token>, i: nat)
    requires WellFormed(ts) && i + 1 == |ts| && WellFormed(ts[i..]) && ClearBefore(tier, ts, i)
    ensures SweepMatches(tier, ts, i)
  {
    SweepSkips(tier, ts, i);
    assert ts[i..] == [ts[i]];
    assert ts[..i] + ts[i..] == ts;
  }

  lemma SweepMatchesApply(tier: set<char>, ts: seq<Token>, i: nat, x: real)
    requires WellFormed(ts) && i % 2 == 0 && i + 1 < |ts| && WellFormed(ts[i..]) && ClearBefore(tier, ts, i)
    requires ts[i + 1].op in tier && ApplyOperator(ts[i + 1].op, ts[i].v, ts[i + 2].v) == Ok(x)
    requires WellFormed(Splice(ts, i + 1, x)[i..]) && ClearBefore(tier, Splice(ts, i + 1, x), i)
    requires SweepMatches(tier, Splice(ts, i + 1, x), i)
    ensures SweepMatches(tier, ts, i)
  {
    var rest := ts[i..];
    var spliced := Splice(ts, i + 1, x);
    SweepSkips(tier, ts, i);
    SweepApplies(tier, ts, i + 1, x);
    assert rest[1] == ts[i + 1] && rest[0] == ts[i] && rest[2] == ts[i + 2];
    PassApplies(tier, rest, x);
    assert spliced[i..] == Splice(rest, 1, x);
    assert spliced[..i] == ts[..i];
  }

  lemma SweepMatchesSkip(tier: set<char>, ts: seq<Token>, i: nat)
    requires WellFormed(ts) && i % 2 == 0 && i + 1 < |ts| && WellFormed(ts[i..]) && ClearBefore(tier, ts, i)
    requires ts[i + 1].op !in tier
    requires WellFormed(ts[i + 2..]) && ClearBefore(tier, ts, i + 2)
    requires SweepMatches(tier, ts, i + 2)
    ensures SweepMatches(tier, ts, i)
  {
    var rest := ts[i..];
    SweepSkips(tier, ts, i);
    SweepSkips(tier, ts, i + 1);
    assert rest[1] == ts[i + 1];
    PassSkips(tier, rest);
    assert rest[2..] == ts[i + 2..];
    assert ts[..i] + rest[..2] == ts[..i + 2];
    match Pass(tier, ts[i + 2..])
    case Err(e) => {}
    case Ok(v) => {
      assert ts[..i] + (rest[..2] + v) == ts[..i + 2] + v;
    }
  }

  lemma SweepMatchesFail(tier: set<char>, ts: seq<Token>, i: nat)
    requires WellFormed(ts) && i % 2 == 0 && i + 1 < |ts| && WellFormed(ts[i..]) && ClearBefore(tier, ts, i)
    requires ts[i + 1].op in tier && ApplyOperator(ts[i + 1].op, ts[i].v, ts[i + 2].v).Err?
    ensures SweepMatches(tier, ts, i)
  {
    var rest := ts[i..];
    SweepSkips(tier, ts, i);
    assert rest[1] == ts[i + 1] && rest[0] == ts[i] && rest[2] == ts[i + 2];
  }

  /** The scan with its step-back, from any even position, equals the
      structural pass applied to the unscanned suffix. */
  lemma {:induction false} SweepIsPass(tier: set<char>, ts: seq<Token>, i: nat)
    requires WellFormed(ts) && i % 2 == 0 && i < |ts| && WellFormed(ts[i..])
    requires ClearBefore(tier, ts, i)
    ensures SweepMatches(tier, ts, i)
    decreases |ts| - i
  {
    if i + 1 == |ts| {
      SweepMatchesAtEnd(tier, ts, i);
    } else if ts[i + 1].op in tier {
      match ApplyOperator(ts[i + 1].op, ts[i].v, ts[i + 2].v)
      case Err(e) => {
        SweepMatchesFail(tier, ts, i);
      }
      case Ok(x) => {
        var spliced := Splice(ts, i + 1, x);
        WellFormedSuffix(spliced, i);
        SweepIsPass(tier, spliced, i);
        SweepMatchesApply(tier, ts, i, x);
      }
    } else {
      WellFormedSuffix(ts, i + 2);
      SweepIsPass(tier, ts, i + 2);
      SweepMatchesSkip(tier, ts, i);
    }
  }

  /** The plain left fold `((n0 op1 n1) op2 n2) …` over `rest`, which holds
      operator–number pairs. */
  function FoldLeft(acc: real, rest: seq<Token>): Result<real>
    decreases |rest|
  {
    if |rest| < 2 then Ok(acc)
    else if rest[0].OpTok? && rest[1].NumTok? then
      var x :- ApplyOperator(rest[0].op, acc, rest[1].v);
      FoldLeft(x, rest[2..])
    else Err(MalformedFormula)
  }

  function Single(r: Result<real>): Result<seq<Token>>
  {
    match r
    case Ok(v) => Ok([NumTok(v)])
    case Err(e) => Err(e)
  }

  /** Within one tier a pass is the left fold of that tier's operators:
      `8－3－2` is `(8－3)－2`. */
  lemma {:induction false} PassFoldsLeft(tier: set<char>, ts: seq<Token>)
    requires WellFormed(ts)
    requires forall k :: 0 <= k < |ts| && ts[k].OpTok? ==> ts[k].op in tier
    ensures Pass(tier, ts) == Single(FoldLeft(ts[0].v, ts[1..]))
    decreases |ts|
  {
    if |ts| == 1 {
      assert ts == [NumTok(ts[0].v)];
    } else {
      assert ts[1].op in tier;
      match ApplyOperator(ts[1].op, ts[0].v, ts[2].v)
      case Err(e) => {}
      case Ok(x) => {
        var spliced := Splice(ts, 1, x);
        PassApplies(tier, ts, x);
        PassFoldsLeft(tier, spliced);
        assert spliced[1..] == ts[3..];
        assert ts[1..][2..] == ts[3..];
      }
    }
  }

  /** A textbook one-pass evaluator: `sum pending term` is the value so far;
      a multiplicative operator extends the term, an additive one adds the
      finished term into the sum and starts the next term. */
  function Combine(sum: real, pending: char, ts: seq<Token>): Result<real>
    requires pending in AddTier && WellFormed(ts)
    decreases |ts|
  {
    if |ts| == 1 then ApplyOperator(pending, sum, ts[0].v)
    else if ts[1].op in MulTier then
      var x :- ApplyOperator(ts[1].op, ts[0].v, ts[2].v);
      Combine(sum, pending, Splice(ts, 1, x))
    else
      var total :- ApplyOperator(pending, sum, ts[0].v);
      WellFormedSuffix(ts, 2);
      Combine(total, ts[1].op, ts[2..])
  }

  /** The value of a formula under the usual rules: `× / ÷ ％` bind tighter
      than `＋ －`, and operators of one tier associate to the left. */
  function Reference(ts: seq<Token>): Result<real>
    requires WellFormed(ts)
  {
    Combine(0.0, '＋', ts)
  }

  lemma {:induction false} CombineIsPasses(sum: real, pending: char, ts: seq<Token>)
    requires pending in AddTier && WellFormed(ts)
    ensures Combine(sum, pending, ts) ==
              match Pass(MulTier, ts)
              case Err(e) => Err(e)
              case Ok(ps) => FoldLeft(sum, [OpTok(pending)] + ps)
    decreases |ts|
  {
    if |ts| == 1 {
      assert ([OpTok(pending)] + ts)[2..] == [];
    } else if ts[1].op in MulTier {
      match ApplyOperator(ts[1].op, ts[0].v, ts[2].v)
      case Err(e) => {}
      case Ok(x) => {
        CombineIsPasses(sum, pending, Splice(ts, 1, x));
      }
    } else {
      var total := ApplyOperator(pending, sum, ts[0].v).value;
      WellFormedSuffix(ts, 2);
      CombineIsPasses(total, ts[1].op, ts[2..]);
      match Pass(MulTier, ts[2..])
      case Err(e) => {}
      case Ok(rest) => {
        var ps := ts[..2] + rest;
        assert ([OpTok(pending)] + ps)[0] == OpTok(pending);
        assert ([OpTok(pending)] + ps)[1] == ts[0];
        assert ([OpTok(pending)] + ps)[2..] == [ts[1]] + rest;
      }
    }
  }

  /** `evaluate` obeys the usual precedence and associativity: on every
      well-formed token list it agrees with the one-pass reference, errors
      included. */
  lemma EvaluateFollowsPrecedence(ts: seq<Token>)
    requires WellFormed(ts)
    ensures Evaluate(ts) == Reference(ts)
  {
    SweepFromStart(MulTier, ts);
    CombineIsPasses(0.0, '＋', ts);
    match Pass(MulTier, ts)
    case Err(e) => {}
    case Ok(ps) => {
      assert forall k :: 0 <= k < |ps| && ps[k].OpTok? ==> ps[k].op in AddTier by {
        assert forall k :: 0 <= k < |ps| ==> !InTier(ps[k], MulTier);
      }
      AddStage(ps);
    }
  }

  /** A scan from the front is one structural pass over the whole list. */
  lemma SweepFromStart(tier: set<char>, ts: seq<Token>)
    requires WellFormed(ts)
    ensures Sweep(tier, ts, 0) == Pass(tier, ts)
  {
    SweepIsPass(tier, ts, 0);
    assert ts[..0] == [] && ts[0..] == ts;
    match Pass(tier, ts)
    case Err(e) => {}
    case Ok(v) => {
      assert [] + v == v;
    }
  }

  /** With only `＋` and `－` left, the additive scan is the left fold that
      starts from 0 + the first number. */
  lemma AddStage(ps: seq<Token>)
    requires WellFormed(ps)
    requires forall k :: 0 <= k < |ps| && ps[k].OpTok? ==> ps[k].op in AddTier
    ensures Sweep(AddTier, ps, 0) == Single(FoldLeft(0.0, [OpTok('＋')] + ps))
  {
    SweepFromStart(AddTier, ps);
    PassFoldsLeft(AddTier, ps);
    assert ([OpTok('＋')] + ps)[2..] == ps[1..];
    assert 0.0 + ps[0].v == ps[0].v;
  }

  // ---------------------------------------------------------------------
  // Parenthesised groups and rejected characters

  lemma DepthFront(s: string, j: nat, m: nat)
    requires j < m <= |s|
    ensures Depth(s[j..m]) == Delta(s[j]) + Depth(s[j + 1..m])
  {
    assert s[j..m][1..] == s[j + 1..m];
  }

  lemma {:induction false} GroupEndDepth(s: string, j: nat, depth: nat)
    requires j <= |s| && depth >= 1
    ensures GroupEnd(s, j, depth) < |s| ==> Depth(s[j..GroupEnd(s, j, depth)]) == 1 - depth
    ensures forall m :: j <= m <= GroupEnd(s, j, depth) ==> Depth(s[j..m]) >= 1 - depth
    decreases |s| - j
  {
    var k := GroupEnd(s, j, depth);
    if j == |s| || (s[j] == '）' && depth == 1) {
      assert k == j && s[j..j] == [];
    } else {
      var d := if s[j] == '（' then depth + 1 else if s[j] == '）' then depth - 1 else depth;
      assert k == GroupEnd(s, j + 1, d);
      GroupEndDepth(s, j + 1, d);
      forall m | j < m <= k
        ensures Depth(s[j..m]) == Delta(s[j]) + Depth(s[j + 1..m])
      {
        DepthFront(s, j, m);
      }
    }
  }

  /** A '（' opens a group that ends at its matching '）': the interior handed
      to the recursive `calc` is balanced and strictly shorter than the
      formula. */
  lemma GroupInteriorBalanced(s: string, i: nat)
    requires i < |s| && s[i] == '（'
    ensures GroupEnd(s, i + 1, 1) < |s| ==> s[GroupEnd(s, i + 1, 1)] == '）' && Balanced(s[i + 1..GroupEnd(s, i + 1, 1)])
    ensures |s[i + 1..GroupEnd(s, i + 1, 1)]| < |s|
  {
    var k := GroupEnd(s, i + 1, 1);
    GroupEndDepth(s, i + 1, 1);
    var inner := s[i + 1..k];
    forall m | 0 <= m <= |inner|
      ensures Depth(inner[..m]) >= 0
    {
      assert inner[..m] == s[i + 1..i + 1 + m];
    }
  }

  /** A character that is no digit, point, operator, parenthesis or space. */
  predicate Foreign(c: char)
  {
    !(IsDigit(c) || c == '.' || c in Operators || c == '（' || c == '）' || c == ' ')
  }

  /** A foreign character anywhere, or a '）' that no '（' precedes, makes
      the formula fail. */
  lemma {:induction false} CalcRejects(f: string, j: nat)
    requires j < |f| && (Foreign(f[j]) || (f[j] == '）' && '（' !in f[..j]))
    ensures Calc.Calc(f).Err?
    decreases |f|, 1, 0
  {
    assert f[0..j] == f[..j];
    TokenizeRejects(f, 0, "", [], j);
  }

  lemma {:induction false} TokenizeRejects(s: string, i: nat, number: string, tokens: seq<Token>, j: nat)
    requires i <= j < |s| && NumberChars(number) && KnownOperators(tokens)
    requires Foreign(s[j]) || (s[j] == '）' && '（' !in s[i..j])
    ensures Tokenize(s, i, number, tokens).Err?
    decreases |s|, 0, |s| - i
  {
    var c := s[i];
    if i < j {
      assert s[i] in s[i..j];
      assert s[i + 1..j] == s[i..j][1..];
    }
    if IsDigit(c) || c == '.' {
      TokenizeRejects(s, i + 1, number + [c], tokens, j);
    } else {
      match Flush(number, tokens)
      case Err(_) => {}
      case Ok(ts) => {
        if c in Operators {
          TokenizeRejects(s, i + 1, "", ts + [OpTok(c)], j);
        } else if c == '（' {
          var k := GroupEnd(s, i + 1, 1);
          if j < k {
            assert s[i + 1..k][j - i - 1] == s[j];
            CalcRejects(s[i + 1..k], j - i - 1);
          } else {
            match Calc.Calc(s[i + 1..k])
            case Err(_) => {}
            case Ok(v) => {
              match Float(v)
              case Err(_) => {}
              case Ok(x) => {
                TokenizeRejects(s, k + 1, "", ts + [NumTok(x)], j);
              }
            }
          }
        } else if c == ' ' {
          TokenizeRejects(s, i + 1, "", ts, j);
        }
      }
    }
  }

  // ---------------------------------------------------------------------
  // A worked example

  /** The tokens of `2＋3×4`. */
  lemma TokensExample()
    ensures Tokenize("2＋3×4", 0, "", []) == Ok([NumTok(2.0), OpTok('＋'), NumTok(3.0), OpTok('×'), NumTok(4.0)])
  {
    var s := "2＋3×4";
    assert |s| == 5 && s[0] == '2' && s[1] == '＋' && s[2] == '3';
    assert ParseNumber("2") == Ok(2.0);
    var ts := [NumTok(2.0), OpTok('＋'), NumTok(3.0), OpTok('×'), NumTok(4.0)];
    assert [] + [NumTok(2.0)] + [OpTok('＋')] == ts[..2];
    TokensExampleTail();
    assert Tokenize(s, 2, "", ts[..2]) == Ok(ts);
    assert Tokenize(s, 1, "2", []) == Ok(ts);
  }

  lemma TokensExampleTail()
    ensures var ts := [NumTok(2.0), OpTok('＋'), NumTok(3.0), OpTok('×'), NumTok(4.0)];
            Tokenize("2＋3×4", 3, "3", ts[..2]) == Ok(ts)
  {
    var s := "2＋3×4";
    assert |s| == 5 && s[3] == '×' && s[4] == '4';
    assert ParseNumber("3") == Ok(3.0) && ParseNumber("4") == Ok(4.0);
    var ts := [NumTok(2.0), OpTok('＋'), NumTok(3.0), OpTok('×'), NumTok(4.0)];
    assert ts[..4] + [NumTok(4.0)] == ts;
    assert ts[..2] + [NumTok(3.0)] + [OpTok('×')] == ts[..4];
    assert Tokenize(s, 5, "4", ts[..4]) == Ok(ts);
    assert Tokenize(s, 4, "", ts[..4]) == Ok(ts);
  }

  /** `2＋3×4` is 14, an int: multiplication binds tighter than addition. */
  lemma CalcExample()
    ensures Calc.Calc("2＋3×4") == Ok(Int(14))
  {
    var ts := [NumTok(2.0), OpTok('＋'), NumTok(3.0), OpTok('×'), NumTok(4.0)];
    TokensExample();
    ReferenceExample();
    CalcOfTokens("2＋3×4", ts, 14.0);
    assert Normalize(14.0) == Int(14);
  }

  lemma ReferenceExample()
    ensures WellFormed([NumTok(2.0), OpTok('＋'), NumTok(3.0), OpTok('×'), NumTok(4.0)])
    ensures Reference([NumTok(2.0), OpTok('＋'), NumTok(3.0), OpTok('×'), NumTok(4.0)]) == Ok(14.0)
  {
  }

  /** `8－3－2` is (8－3)－2 = 3, not 8－(3－2) = 7: within a tier the
      operators apply left to right. */
  lemma SubtractionFoldsLeft()
    ensures Evaluate([NumTok(8.0), OpTok('－'), NumTok(3.0), OpTok('－'), NumTok(2.0)]) == Ok(3.0)
  {
    var ts := [NumTok(8.0), OpTok('－'), NumTok(3.0), OpTok('－'), NumTok(2.0)];
    assert WellFormed(ts);
    assert Reference(ts) == Ok(3.0);
    EvaluateFollowsPrecedence(ts);
  }

  /** A formula whose tokens are well formed and hold an operator
      evaluates to what the one-pass reference gives them. */
  lemma CalcOfTokens(f: string, ts: seq<Token>, x: real)
    requires Tokenize(f, 0, "", []) == Ok(ts) && WellFormed(ts) && |ts| > 1 && Reference(ts) == Ok(x)
    ensures Calc.Calc(f) == Ok(Normalize(x))
  {
    EvaluateFollowsPrecedence(ts);
  }

  // ---------------------------------------------------------------------
  // The first token when no operator follows it

  /** A pass never touches the first token unless an operator follows it. */
  lemma {:induction false} SweepKeepsFront(tier: set<char>, ts: seq<Token>, i: nat)
    requires Flanked(ts) && i <= |ts|
    requires forall k :: 0 <= k < i ==> !InTier(ts[k], tier)
    requires |ts| == 1 || ts[1].NumTok?
    ensures Sweep(tier, ts, i).Ok? ==>
              && Sweep(tier, ts, i).value[0] == ts[0]
              && (|Sweep(tier, ts, i).value| == 1 || Sweep(tier, ts, i).value[1].NumTok?)
    decreases 2 * |ts| - i
  {
    if i < |ts| {
      if InTier(ts[i], tier) {
        match ApplyOperator(ts[i].op, ts[i - 1].v, ts[i + 1].v)
        case Err(_) => {}
        case Ok(x) => {
          var spliced := Splice(ts, i, x);
          assert spliced[0] == ts[0];
          SweepKeepsFront(tier, spliced, i - 1);
        }
      } else {
        SweepKeepsFront(tier, ts, i + 1);
      }
    }
  }

  /** When the second token is not an operator, `evaluate` hands back the
      first token: in `5 3` or `2（3＋4）` the rest is computed and dropped. */
  lemma LeadSurvives(ts: seq<Token>)
    requires Flanked(ts) && (|ts| == 1 || ts[1].NumTok?)
    ensures Evaluate(ts).Ok? ==> Evaluate(ts).value == ts[0].v
  {
    SweepKeepsFront(MulTier, ts, 0);
    match Sweep(MulTier, ts, 0)
    case Err(_) => {}
    case Ok(ps) => {
      SweepKeepsFront(AddTier, ps, 0);
    }
  }

  /** What `calc` returns goes through its last line unchanged. */
  lemma SettleIdempotent(v: Value)
    requires Settled(v)
    ensures Settle(v) == Ok(v)
  {
    if v.Int? {
      assert (v.i as real).Floor == v.i;
    }
  }

  /** The scanner collects a run of digits and points into the pending
      number. */
  lemma {:induction false} TokenizeRun(s: string, i: nat, j: nat, number: string, tokens: seq<Token>)
    requires i <= j <= |s| && NumberChars(number) && KnownOperators(tokens)
    requires NumberChars(s[i..j])
    ensures NumberChars(number + s[i..j])
    ensures Tokenize(s, i, number, tokens) == Tokenize(s, j, number + s[i..j], tokens)
    decreases j - i
  {
    if i < j {
      assert s[i..j][0] == s[i];
      assert s[i + 1..j] == s[i..j][1..];
      assert number + s[i..j] == (number + [s[i]]) + s[i + 1..j];
      TokenizeRun(s, i + 1, j, number + [s[i]], tokens);
    } else {
      assert number + s[i..j] == number;
    }
  }

  lemma {:induction false} LiteralWhole(t: string, i: nat)
    requires i <= |t| && NumberChars(t)
    ensures Literal(t, i) == t[i..]
    decreases |t| - i
  {
    if i < |t| {
      LiteralWhole(t, i + 1);
      assert t[i..] == [t[i]] + t[i + 1..];
    }
  }

  lemma TokenizeEnd(s: string, number: string, tokens: seq<Token>)
    requires NumberChars(number) && KnownOperators(tokens)
    ensures Tokenize(s, |s|, number, tokens) == Flush(number, tokens)
  {
  }

  lemma LeadLiteral(s: string)
    requires |s| > 0 && (IsDigit(s[0]) || s[0] == '.')
    ensures Lead(s, 0) == Ok(Str(Literal(s, 0)))
  {
  }

  lemma LeadGroup(s: string)
    requires |s| > 0 && s[0] == '（'
    ensures Lead(s, 0) == Calc.Calc(s[1..GroupEnd(s, 1, 1)])
  {
  }

  /** `calc` on tokens whose second one is not an operator. */
  lemma CalcKeepsLead(f: string, ts: seq<Token>, x: real, first: Value)
    requires Tokenize(f, 0, "", []) == Ok(ts) && Flanked(ts) && (|ts| == 1 || ts[1].NumTok?)
    requires Evaluate(ts) == Ok(x) && Lead(f, 0) == Ok(first)
    ensures Calc.Calc(f) == Settle(first)
  {
  }

  lemma CalcTokenizeFails(f: string)
    requires Tokenize(f, 0, "", []).Err?
    ensures Calc.Calc(f) == Err(Tokenize(f, 0, "", []).error)
  {
  }

  lemma EvaluateOne(x: real)
    ensures Flanked([NumTok(x)]) && Evaluate([NumTok(x)]) == Ok(x)
  {
    assert Sweep(MulTier, [NumTok(x)], 0) == Sweep(MulTier, [NumTok(x)], 1);
    assert Sweep(AddTier, [NumTok(x)], 0) == Sweep(AddTier, [NumTok(x)], 1);
  }

  /** The tokens of a lone literal. */
  lemma LiteralTokens(t: string)
    requires NumberChars(t) && |t| > 0
    ensures Tokenize(t, 0, "", []) == Flush(t, [])
  {
    TokenizeRun(t, 0, |t|, "", []);
    assert "" + t[0..|t|] == t;
    TokenizeEnd(t, t, []);
  }

  /** A formula that is one number literal is that literal's text, settled:
      an int when it is all digits, the text itself when its value has a
      fraction, and an error for a whole value written with a point. */
  lemma LoneLiteral(t: string)
    requires NumberChars(t) && |t| > 0
    ensures Calc.Calc(t) == Settle(Str(t))
  {
    LiteralTokens(t);
    match ParseNumber(t)
    case Err(_) => {
      CalcTokenizeFails(t);
    }
    case Ok(x) => {
      LiteralWhole(t, 0);
      assert t[0..] == t;
      LeadLiteral(t);
      EvaluateOne(x);
      CalcKeepsLead(t, [NumTok(x)], x, Str(t));
    }
  }

  lemma GroupEndPlain(s: string, j: nat, k: nat)
    requires j <= k < |s| && s[k] == '）'
    requires forall m :: j <= m < k ==> s[m] != '（' && s[m] != '）'
    ensures GroupEnd(s, j, 1) == k
    decreases k - j
  {
  }

  /** The tokens of a group that is the whole formula. */
  lemma GroupTokens(s: string, inner: string)
    requires |s| > 0 && s[0] == '（' && s[1..GroupEnd(s, 1, 1)] == inner && GroupEnd(s, 1, 1) + 1 == |s|
    ensures Tokenize(s, 0, "", []) ==
              match Calc.Calc(inner)
              case Err(e) => Err(e)
              case Ok(v) => match Float(v) case Err(e) => Err(e) case Ok(x) => Ok([NumTok(x)])
  {
    match Calc.Calc(inner)
    case Err(_) => {}
    case Ok(v) => {
      match Float(v)
      case Err(_) => {}
      case Ok(x) => {
        assert [] + [NumTok(x)] == [NumTok(x)];
        TokenizeEnd(s, "", [NumTok(x)]);
        assert Tokenize(s, 0, "", []) == Tokenize(s, |s|, "", [NumTok(x)]);
      }
    }
  }

  /** `（t）` for a number literal `t` is `t` settled: a group's value passes
      through the outer `calc` unchanged. */
  lemma GroupedLiteral(t: string)
    requires NumberChars(t) && |t| > 0
    ensures Calc.Calc("（" + t + "）") == Settle(Str(t))
  {
    var s := "（" + t + "）";
    assert s[1..|t| + 1] == t && s[0] == '（' && s[|t| + 1] == '）';
    GroupEndPlain(s, 1, |t| + 1);
    GroupTokens(s, t);
    LoneLiteral(t);
    match Settle(Str(t))
    case Err(_) => {
      CalcTokenizeFails(s);
    }
    case Ok(v) => {
      SettleIdempotent(v);
      var x := Float(v).value;
      LeadGroup(s);
      EvaluateOne(x);
      CalcKeepsLead(s, [NumTok(x)], x, v);
    }
  }

  lemma ParseFraction()
    ensures ParseNumber("2.5") == Ok(2.5)
  {
    assert FirstIndex("2.5", '.') == 1;
    assert "2.5"[..1] == "2" && "2.5"[2..] == "5";
  }

  lemma ParseWholeWithPoint()
    ensures ParseNumber("5.0") == Ok(5.0)
  {
    assert FirstIndex("5.0", '.') == 1;
    assert "5.0"[..1] == "5" && "5.0"[2..] == "0";
  }

  /** A fractional literal stays text. */
  lemma SettleFraction()
    ensures Settle(Str("2.5")) == Ok(Str("2.5"))
  {
    ParseFraction();
  }

  /** A whole value written with a point is refused. */
  lemma SettleWholeWithPoint()
    ensures Settle(Str("5.0")) == Err(InvalidNumber("5.0"))
  {
    ParseWholeWithPoint();
  }

  /** `（2.5）` is the text "2.5", not a number. */
  lemma GroupedFraction()
    ensures Calc.Calc("（2.5）") == Ok(Str("2.5"))
  {
    assert "（2.5）" == "（" + "2.5" + "）";
    GroupedLiteral("2.5");
    SettleFraction();
  }

  /** `（5.0）` is refused by `int`. */
  lemma GroupedWholeWithPoint()
    ensures Calc.Calc("（5.0）") == Err(InvalidNumber("5.0"))
  {
    assert "（5.0）" == "（" + "5.0" + "）";
    GroupedLiteral("5.0");
    SettleWholeWithPoint();
  }

  /** The tokens of two literals side by side. */
  lemma JuxtaposedTokens(a: string, b: string)
    requires AllDigits(a) && AllDigits(b)
    ensures Tokenize(a + " " + b, 0, "", []) == Ok([NumTok(DigitsValue(a) as real), NumTok(DigitsValue(b) as real)])
  {
    var s := a + " " + b;
    var ta := NumTok(DigitsValue(a) as real);
    assert s[..|a|] == a && s[|a| + 1..] == b;
    FirstLiteral(s, a);
    SecondLiteral(s, |a| + 1, b, [ta]);
    assert [ta] + [NumTok(DigitsValue(b) as real)] == [ta, NumTok(DigitsValue(b) as real)];
  }

  /** A literal ended by a space is the first token. */
  lemma FirstLiteral(s: string, a: string)
    requires AllDigits(a) && |a| < |s| && s[..|a|] == a && s[|a|] == ' '
    ensures Tokenize(s, 0, "", []) == Tokenize(s, |a| + 1, "", [NumTok(DigitsValue(a) as real)])
  {
    assert s[0..|a|] == a && "" + a == a;
    TokenizeRun(s, 0, |a|, "", []);
    assert [] + [NumTok(DigitsValue(a) as real)] == [NumTok(DigitsValue(a) as real)];
    TokenizeSpace(s, |a|, a, [], [NumTok(DigitsValue(a) as real)]);
  }

  /** Two literals side by side are the first one: the second is dropped. */
  lemma Juxtaposed(a: string, b: string)
    requires AllDigits(a) && AllDigits(b)
    ensures Calc.Calc(a + " " + b) == Ok(Int(DigitsValue(a)))
  {
    var s := a + " " + b;
    var ts := [NumTok(DigitsValue(a) as real), NumTok(DigitsValue(b) as real)];
    JuxtaposedTokens(a, b);
    SweepNoOperators(MulTier, ts, 0);
    SweepNoOperators(AddTier, ts, 0);
    LiteralStops(s, a);
    LeadLiteral(s);
    CalcKeepsLead(s, ts, DigitsValue(a) as real, Str(a));
  }

  /** A literal running to the end of the formula is the last token. */
  lemma SecondLiteral(s: string, i: nat, b: string, tokens: seq<Token>)
    requires i <= |s| && s[i..] == b && AllDigits(b) && KnownOperators(tokens)
    ensures Tokenize(s, i, "", tokens) == Ok(tokens + [NumTok(DigitsValue(b) as real)])
  {
    assert s[i..|s|] == b;
    TokenizeRun(s, i, |s|, "", tokens);
    assert "" + b == b;
    TokenizeEnd(s, b, tokens);
  }

  lemma TokenizeSpace(s: string, i: nat, number: string, tokens: seq<Token>, ts: seq<Token>)
    requires i < |s| && s[i] == ' ' && NumberChars(number) && KnownOperators(tokens)
    requires Flush(number, tokens) == Ok(ts)
    ensures KnownOperators(ts)
    ensures Tokenize(s, i, number, tokens) == Tokenize(s, i + 1, "", ts)
  {
  }

  /** A list of numbers alone passes through a sweep unchanged. */
  lemma {:induction false} SweepNoOperators(tier: set<char>, ts: seq<Token>, i: nat)
    requires Flanked(ts) && i <= |ts| && forall k :: 0 <= k < |ts| ==> ts[k].NumTok?
    ensures Sweep(tier, ts, i) == Ok(ts)
    decreases |ts| - i
  {
    if i < |ts| {
      SweepNoOperators(tier, ts, i + 1);
    }
  }

  lemma LiteralStops(s: string, a: string)
    requires AllDigits(a) && |a| < |s| && s[..|a|] == a && s[|a|] == ' '
    ensures Literal(s, 0) == a
  {
    var t := Literal(s, 0);
    assert s[0..|t|] == t;
  }
}

=== FILE: compiler.dfy ===
/** The operand resolver (`underStanding`) and the relational and logical
    evaluators it calls and that call it back. They are one cluster of
    mutually recursive functions: every call either shortens the text or
    moves to a lower tier of the same length, which is what the
    `decreases` clauses below record as (length, tier, count).

    Every evaluator takes a `Reading`: `AsWritten` follows the program,
    `Intended` corrects the two defects listed in the README's findings
    (the order in which `logicOperation` looks for its connectives, and a
    truth token left in place of a parenthesised group being read as
    nothing at all). */
module Compiler {
  import opened Wrappers
  import opened Text
  import opened Values
  import Calc

  /** The variable store: name to current value. */
  type Store = map<string, Value>

  /** The two truth tokens every logical and relational result is. */
  const TrueText: string := "真"
  const FalseText: string := "偽"

  const AndWord: string := "かつ"
  const OrWord: string := "または"
  const NotWord: string := "でない"

  /** The comparison glyphs in the order `relationalOperation` tries them;
      '≠' is listed twice, as in the program, and its second entry can
      never be the first one present. */
  const Comparators: seq<char> := ['＞', '＜', '＝', '≠', '≠', '≧', '≦']

  /** Glyphs that keep a part out of the variable branch. */
  const FormulaGlyphs: set<char> := {'＋', '－', '×', '/', '÷', '％', '（', '）'}

  /** Characters Python's `isnumeric` accepts besides digits, as far as
      this model follows it: the kanji numerals. */
  const Numerals: set<char> := {'〇', '零', '一', '二', '三', '四', '五', '六', '七', '八', '九', '十', '百', '千', '万', '億', '兆'}

  /** `boolToDNCLBool`. */
  function BoolToDncl(flag: bool): (t: string)
    ensures t == TrueText || t == FalseText
    ensures |t| == 1
    ensures DnclToBool(t) == flag
  {
    if flag then TrueText else FalseText
  }

  /** `dnclBoolToBool`: only 真 is true. */
  predicate DnclToBool(t: string)
  {
    t == TrueText
  }

  /** `dnclBoolToBool` of a result that may be Python's None, which is
      falsy. */
  predicate Truthy(o: Option<string>)
  {
    o.Some? && DnclToBool(o.value)
  }

  /** The program as written, or with its defects corrected: the
      connective search order (`SplitOrder`), the truth token of a resolved
      group (`Leaf`) and increase/decrease (`Script.Shift`). */
  datatype Reading = AsWritten | Intended

  // ---------------------------------------------------------------------
  // Text helpers of the resolver

  /** The index of the first glyph of `gs` that occurs anywhere in `raw`. */
  function FirstPresent(raw: string, gs: seq<char>): (k: Option<nat>)
    ensures k.Some? ==> k.value < |gs| && gs[k.value] in raw
    ensures k.Some? ==> forall j :: 0 <= j < k.value ==> gs[j] !in raw
    ensures k.None? ==> forall j :: 0 <= j < |gs| ==> gs[j] !in raw
  {
    if |gs| == 0 then None
    else if gs[0] in raw then Some(0)
    else
      match FirstPresent(raw, gs[1..])
      case None => None
      case Some(k) => Some(k + 1)
  }

  /** `w` starts at `j` outside every parenthesis of `s`. */
  predicate TopLevelAt(s: string, w: string, j: nat)
  {
    j < |s| && s[j] != '（' && s[j] != '）' && Depth(s[..j]) == 0 && OccursAt(s, w, j)
  }

  /** The depth-tracking scan of `logicOperation` from position `i`, where
      `level` is the depth reached so far. */
  function TopLevelFrom(s: string, w: string, i: nat, level: int): (r: Option<nat>)
    requires i <= |s| && level == Depth(s[..i])
    ensures r.Some? ==> i <= r.value && TopLevelAt(s, w, r.value)
    ensures r.Some? ==> forall j :: i <= j < r.value ==> !TopLevelAt(s, w, j)
    ensures r.None? ==> forall j :: i <= j ==> !TopLevelAt(s, w, j)
    decreases |s| - i
  {
    if i == |s| then None
    else
      assert s[..i] == s[0..i] && s[..i + 1] == s[0..i + 1];
      DepthSnoc(s, 0, i);
      if s[i] == '（' then TopLevelFrom(s, w, i + 1, level + 1)
      else if s[i] == '）' then TopLevelFrom(s, w, i + 1, level - 1)
      else if level == 0 && OccursAt(s, w, i) then Some(i)
      else TopLevelFrom(s, w, i + 1, level)
  }

  /** The first top-level occurrence of `w` in `s`. */
  function TopLevelFind(s: string, w: string): (r: Option<nat>)
    ensures r.Some? ==> TopLevelAt(s, w, r.value)
    ensures r.Some? ==> forall j :: 0 <= j < r.value ==> !TopLevelAt(s, w, j)
    ensures r.None? ==> forall j :: 0 <= j ==> !TopLevelAt(s, w, j)
  {
    assert s[..0] == [];
    TopLevelFrom(s, w, 0, 0)
  }

  /** The connective words in the order `logicOperation` tries them. */
  function SplitOrder(reading: Reading): (ws: seq<string>)
    ensures |ws| == 2 && {ws[0], ws[1]} == {AndWord, OrWord}
  {
    if reading == AsWritten then [AndWord, OrWord] else [OrWord, AndWord]
  }

  /** Where `logicOperation` splits: the first top-level occurrence of the
      first connective in `SplitOrder`, or failing that of the second. */
  function Connective(s: string, reading: Reading): (r: Option<(string, nat)>)
    ensures r.Some? ==> (r.value.0 == AndWord || r.value.0 == OrWord) && TopLevelAt(s, r.value.0, r.value.1)
    ensures r.Some? ==> forall j :: 0 <= j < r.value.1 ==> !TopLevelAt(s, r.value.0, j)
    ensures r.Some? && r.value.0 == SplitOrder(reading)[1] ==> forall j :: 0 <= j ==> !TopLevelAt(s, SplitOrder(reading)[0], j)
    ensures r.None? ==> forall j :: 0 <= j ==> !TopLevelAt(s, AndWord, j) && !TopLevelAt(s, OrWord, j)
  {
    var words := SplitOrder(reading);
    match TopLevelFind(s, words[0])
    case Some(k) => Some((words[0], k))
    case None =>
      match TopLevelFind(s, words[1])
      case Some(k) => Some((words[1], k))
      case None => None
  }

  /** The first group `evaluateParentheses` closes, scanning from `i` with
      the positions of the still-open '（' on `open`: the '（' at the bottom
      of the stack and the '）' that empties it. A '）' met with an empty
      stack is passed over. */
  function ScanGroup(expr: string, i: nat, open: seq<nat>): (r: Option<(nat, nat)>)
    requires i <= |expr|
    requires forall j :: 0 <= j < |open| ==> open[j] < i && expr[open[j]] == '（'
    ensures r.Some? ==> r.value.0 < r.value.1 < |expr|
    ensures r.Some? ==> expr[r.value.0] == '（' && expr[r.value.1] == '）'
    ensures r.Some? && |open| > 0 ==> r.value.0 == open[0]
    decreases |expr| - i
  {
    if i == |expr| then None
    else if expr[i] == '（' then ScanGroup(expr, i + 1, open + [i])
    else if expr[i] == '）' && |open| > 0 then
      if |open| == 1 then Some((open[0], i)) else ScanGroup(expr, i + 1, open[..|open| - 1])
    else ScanGroup(expr, i + 1, open)
  }

  // ---------------------------------------------------------------------
  // Classification of one part of an operand

  /** The branches of `underStanding`'s if/elif chain. */
  datatype Kind =
    | LogicPart
    | RelationPart
    | QuotedPart(text: string)
    | ArrayPart(elements: seq<string>)
    | DigitsPart
    | NumeralPart
    | ElementPart(name: string, index: nat)
    | VariablePart
    | FormulaPart

  predicate HasLogicMarker(part: string)
  {
    Contains(part, AndWord) || Contains(part, OrWord) || Contains(part, NotWord)
  }

  predicate HasComparator(part: string)
  {
    FirstPresent(part, Comparators).Some?
  }

  /** `re.match(open + "(.*)" + close, part)`: `part` starts with `open`,
      and the greedy group runs up to the last `close` after it. */
  function Quoted(part: string, open: char, close: char): (r: Option<string>)
    ensures r.Some? ==> |r.value| + 2 <= |part| && part[0] == open
    ensures r.Some? ==> part[1..|r.value| + 1] == r.value && part[|r.value| + 1] == close
    ensures r.Some? ==> close !in part[|r.value| + 2..]
    ensures r.None? <==> |part| == 0 || part[0] != open || close !in part[1..]
  {
    if |part| > 0 && part[0] == open && close in part[1..] then
      var k := LastIndex(part[1..], close);
      assert part[k + 2..] == part[1..][k + 1..];
      Some(part[1..k + 1])
    else None
  }

  predicate Braced(part: string)
  {
    |part| > 0 && part[0] == '{' && part[|part| - 1] == '}'
  }

  /** Python's `part.isnumeric()`, with the kanji numerals as the only
      numeric characters beyond the digits. */
  predicate AllNumeric(part: string)
  {
    |part| > 0 && forall i :: 0 <= i < |part| ==> IsDigit(part[i]) || part[i] in Numerals
  }

  /** No arithmetic or parenthesis glyph: the variable branch. */
  predicate Plain(part: string)
  {
    forall i :: 0 <= i < |part| ==> part[i] !in FormulaGlyphs
  }

  /** `re.match(r"(.*)\[(\d+)\]$", part)`: a base name and a decimal index
      in brackets that close the part; the greedy name runs to the last
      '['. */
  function ElementRef(part: string): (r: Option<(string, nat)>)
    ensures r.Some? ==> |r.value.0| + 3 <= |part| && part[..|r.value.0|] == r.value.0
    ensures r.Some? ==> part[|r.value.0|] == '[' && part[|part| - 1] == ']'
    ensures r.Some? ==> AllDigits(part[|r.value.0| + 1..|part| - 1])
    ensures r.Some? ==> r.value.1 == DigitsValue(part[|r.value.0| + 1..|part| - 1])
  {
    if |part| > 0 && part[|part| - 1] == ']' && '[' in part[..|part| - 1] then
      var body := part[..|part| - 1];
      var p := LastIndex(body, '[');
      var digits := body[p + 1..];
      if AllDigits(digits) then
        assert part[p + 1..|part| - 1] == digits;
        Some((body[..p], DigitsValue(digits)))
      else None
    else None
  }

  /** The branch of `underStanding` that a stripped part takes, in the
      priority of its if/elif chain. A part that is exactly the input
      marker 【外部からの入力】 is `Plain`, so it lands in the variable
      branch before the input branch is reached. */
  function Classify(part: string): (k: Kind)
    ensures k.LogicPart? <==> HasLogicMarker(part)
    ensures k.RelationPart? <==> !HasLogicMarker(part) && HasComparator(part)
    ensures k.ArrayPart? ==> Braced(part) && forall e :: e in k.elements ==> |e| < |part|
    ensures k.DigitsPart? ==> AllDigits(part)
    ensures k.NumeralPart? ==> AllNumeric(part) && !AllDigits(part)
    ensures k.ElementPart? || k.VariablePart? ==> Plain(part)
    ensures k.FormulaPart? ==> !Plain(part)
  {
    if HasLogicMarker(part) then LogicPart
    else if HasComparator(part) then RelationPart
    else if Quoted(part, '「', '」').Some? then QuotedPart(Quoted(part, '「', '」').value)
    else if Quoted(part, '"', '"').Some? then QuotedPart(Quoted(part, '"', '"').value)
    else if Braced(part) then ArrayPart(Split(Strip(part, {'{', '}'}), ','))
    else if AllDigits(part) then DigitsPart
    else if AllNumeric(part) then NumeralPart
    else if Plain(part) then
      match ElementRef(part)
      case Some((name, index)) => ElementPart(name, index)
      case None => VariablePart
    else FormulaPart
  }

  /** `variables[name][index]`: a missing name, an index past the end and
      a number in place of a list or string are errors. */
  function Subscript(store: Store, name: string, index: nat): (r: Result<Value>)
    ensures name !in store ==> r == Err(UndefinedVariable(name))
    ensures r.Ok? ==> name in store && (store[name].Arr? || store[name].Str?)
    ensures r.Ok? && store[name].Arr? ==> index < |store[name].items| && r.value == store[name].items[index]
    ensures r.Ok? && store[name].Str? ==> index < |store[name].s| && r.value == Str([store[name].s[index]])
    ensures name in store && store[name].IsNumber() ==> r == Err(NotSubscriptable(name))
  {
    if name !in store then Err(UndefinedVariable(name))
    else match store[name]
      case Arr(items) => if index < |items| then Ok(items[index]) else Err(IndexOutOfRange(name, index))
      case Str(s) => if index < |s| then Ok(Str([s[index]])) else Err(IndexOutOfRange(name, index))
      case _ => Err(NotSubscriptable(name))
  }

  /** A truth token, or None, added to a fresh string: None is a
      TypeError. */
  function TextValue(o: Option<string>): (r: Result<Value>)
    ensures r.Ok? <==> o.Some?
    ensures r.Ok? ==> r.value == Str(o.value)
  {
    match o
    case None => Err(TypeMismatch)
    case Some(t) => Ok(Str(t))
  }

  // ---------------------------------------------------------------------
  // The mutually recursive evaluators

  /** `underStanding(s)`: split on 'と', resolve every stripped part, and
      accumulate. */
  function UnderStanding(reading: Reading, store: Store, s: string): (r: Result<Value>)
    decreases |s|, 6, 0
  {
    Accumulate(reading, store, Split(s, 'と'), |s|, None)
  }

  /** The loop of `underStanding` over the remaining `parts`; `acc` is the
      answer so far, None before the first part. The first part starts
      from the empty value of its own kind (`type(val)()`), every later
      one is added with Python's `+=`. */
  function Accumulate(reading: Reading, store: Store, parts: seq<string>, bound: nat, acc: Option<Value>): (r: Result<Value>)
    requires forall p :: p in parts ==> |p| <= bound
    decreases bound, 5, |parts|
  {
    if |parts| == 0 then Ok(if acc.Some? then acc.value else Int(0))
    else
      var v :- ResolvePart(reading, store, Strip(parts[0], {' '}));
      var next :- Add(if acc.Some? then acc.value else Empty(v), v);
      Accumulate(reading, store, parts[1..], bound, Some(next))
  }

  /** One stripped part of an operand, resolved by the branch `Classify`
      picks. */
  function ResolvePart(reading: Reading, store: Store, part: string): (r: Result<Value>)
    decreases |part|, 4, 0
  {
    match Classify(part)
    case LogicPart =>
      var o :- LogicOperation(reading, store, part);
      TextValue(o)
    case RelationPart =>
      var o :- RelationalOperation(reading, store, part);
      TextValue(o)
    case QuotedPart(text) => Ok(Str(text))
    case ArrayPart(elements) =>
      var values :- ResolveElements(reading, store, elements, |part| - 1);
      Ok(Arr(values))
    case DigitsPart => Ok(Int(DigitsValue(part)))
    case NumeralPart => Err(InvalidNumber(part))
    case ElementPart(name, index) => Subscript(store, name, index)
    case VariablePart => if part in store then Ok(store[part]) else Err(UndefinedVariable(part))
    case FormulaPart => Calc.Calc(part)
  }

  /** The elements of a `{…}` literal, each resolved by `underStanding`,
      left to right. */
  function ResolveElements(reading: Reading, store: Store, elements: seq<string>, bound: nat): (r: Result<seq<Value>>)
    requires forall e :: e in elements ==> |e| <= bound
    ensures r.Ok? ==> |r.value| == |elements|
    decreases bound, 7, |elements|
  {
    if |elements| == 0 then Ok([])
    else
      var v :- UnderStanding(reading, store, elements[0]);
      var rest :- ResolveElements(reading, store, elements[1..], bound);
      Ok([v] + rest)
  }

  /** `logicOperation`: strip spaces, replace parenthesised groups until
      none is left, then a trailing でない negates the relational value of
      the text before it; otherwise split at the connective `Connective`
      finds, with Python's short-circuit `and`/`or`; otherwise the text is
      a single comparison. */
  function LogicOperation(reading: Reading, store: Store, raw: string): (r: Result<Option<string>>)
    ensures r.Ok? && r.value.Some? ==> r.value.value == TrueText || r.value.value == FalseText
    decreases |raw|, 3, 0
  {
    var text := Strip(raw, {' '});
    var grouped :- ResolveGroups(reading, store, text);
    Ungrouped(reading, store, grouped)
  }

  /** The rest of `logicOperation`, once no group is left in `text`. */
  function Ungrouped(reading: Reading, store: Store, text: string): (r: Result<Option<string>>)
    ensures r.Ok? && r.value.Some? ==> r.value.value == TrueText || r.value.value == FalseText
    decreases |text|, 2, 5
  {
    if EndsWith(text, NotWord) then
      var o :- Leaf(reading, store, text[..|text| - |NotWord|]);
      Ok(Some(BoolToDncl(!Truthy(o))))
    else
      match Connective(text, reading)
      case None => Leaf(reading, store, text)
      case Some((word, k)) => Junction(reading, store, text, word, k)
  }

  /** A text with no connective left: as written it always goes to
      `relationalOperation`, which reads a truth token put in place of a
      group as None; the intended reading takes such a token as its own
      value. */
  function Leaf(reading: Reading, store: Store, raw: string): (r: Result<Option<string>>)
    ensures r.Ok? && r.value.Some? ==> r.value.value == TrueText || r.value.value == FalseText
    ensures reading == Intended && (raw == TrueText || raw == FalseText) ==> r == Ok(Some(raw))
    ensures reading == AsWritten || (raw != TrueText && raw != FalseText) ==> r == RelationalOperation(reading, store, raw)
    decreases |raw|, 0, 2
  {
    if reading == Intended && (raw == TrueText || raw == FalseText) then Ok(Some(raw))
    else RelationalOperation(reading, store, raw)
  }

  /** Python's `L and R` or `L or R` over the two sides of the connective
      `word` at `k`; the right side is not evaluated when the left one
      decides. */
  function Junction(reading: Reading, store: Store, text: string, word: string, k: nat): (r: Result<Option<string>>)
    requires |word| > 0 && k + |word| <= |text|
    ensures r.Ok? ==> r.value == Some(TrueText) || r.value == Some(FalseText)
    decreases |text|, 2, 1
  {
    var left :- LogicOperation(reading, store, text[..k]);
    if word == AndWord && !Truthy(left) then Ok(Some(FalseText))
    else if word != AndWord && Truthy(left) then Ok(Some(TrueText))
    else
      var right :- LogicOperation(reading, store, text[k + |word|..]);
      Ok(Some(BoolToDncl(Truthy(right))))
  }

  /** The while-loop of `logicOperation`: while both '（' and '）' occur,
      replace one group. When no '（' is closed by a later '）' the
      program's loop would never end; the model reports that instead. */
  function ResolveGroups(reading: Reading, store: Store, raw: string): (r: Result<string>)
    ensures r.Ok? ==> |r.value| <= |raw|
    ensures r.Ok? ==> !('（' in r.value && '）' in r.value)
    decreases |raw|, 2, 0
  {
    if '（' in raw && '）' in raw then
      var next :- EvaluateParentheses(reading, store, raw);
      if next == raw then Err(UnbalancedGroups(raw))
      else ResolveGroups(reading, store, next)
    else Ok(raw)
  }

  /** `evaluateParentheses`: the first group to close at the outermost
      level is replaced by the truth token of its interior; text before
      and after it stays. Without such a group the text is returned
      as is. */
  function EvaluateParentheses(reading: Reading, store: Store, expr: string): (r: Result<string>)
    ensures ScanGroup(expr, 0, []).None? ==> r == Ok(expr)
    ensures r.Ok? ==> r.value == expr || |r.value| < |expr|
    ensures ScanGroup(expr, 0, []).Some? && r.Ok? ==> |r.value| < |expr|
    decreases |expr|, 1, 0
  {
    match ScanGroup(expr, 0, [])
    case None => Ok(expr)
    case Some((start, end)) =>
      var o :- LogicOperation(reading, store, expr[start + 1..end]);
      if o.None? then Err(TypeMismatch)
      else Ok(Replace(expr, start, end, o.value))
  }

  /** `expr[:start] + token + expr[end + 1:]` for a one-character token. */
  function Replace(expr: string, start: nat, end: nat, token: string): (r: string)
    requires start < end < |expr| && |token| == 1
    ensures |r| == |expr| - (end - start) < |expr|
    ensures r[..start] == expr[..start] && r[start] == token[0] && r[start + 1..] == expr[end + 1..]
  {
    var r := expr[..start] + token + expr[end + 1..];
    assert r[start + 1..] == expr[end + 1..];
    r
  }

  /** `relationalOperation`: the first glyph of `Comparators` present in
      the text splits it, the first two pieces are resolved and compared.
      Without any glyph the result is None, as the program falls off the
      end of its if/elif chain. */
  function RelationalOperation(reading: Reading, store: Store, raw: string): (r: Result<Option<string>>)
    ensures r.Ok? && r.value.Some? ==> r.value.value == TrueText || r.value.value == FalseText
    ensures r == Ok(None) <==> !HasComparator(raw)
    decreases |raw|, 0, 1
  {
    match FirstPresent(raw, Comparators)
    case None => Ok(None)
    case Some(k) =>
      var glyph := Comparators[k];
      var pieces := Split(raw, glyph);
      Compared(reading, store, glyph, pieces[0], pieces[1], |raw|)
  }

  /** The comparison of the operands `x` and `y` by `glyph`, each resolved
      in turn; `bound` is the length of the comparison they come from. */
  function Compared(reading: Reading, store: Store, glyph: char, x: string, y: string, bound: nat): (r: Result<Option<string>>)
    requires |x| < bound && |y| < bound
    ensures r.Ok? ==> r.value == Some(TrueText) || r.value == Some(FalseText)
    decreases bound, 0, 0
  {
    var a :- UnderStanding(reading, store, x);
    var b :- UnderStanding(reading, store, y);
    var holds :- Holds(glyph, a, b);
    Ok(Some(BoolToDncl(holds)))
  }

  /** Python's `a > b`, `a < b`, `a == b`, `a != b`, `a >= b`, `a <= b`
      for the glyphs '＞ ＜ ＝ ≠ ≧ ≦'. */
  function Holds(glyph: char, a: Value, b: Value): (r: Result<bool>)
    ensures glyph == '＝' || glyph == '≠' ==> r.Ok?
    ensures glyph != '＝' && glyph != '≠' ==> (r.Ok? <==> Compare(a, b).Ok?)
  {
    if glyph == '＝' then Ok(Equal(a, b))
    else if glyph == '≠' then Ok(!Equal(a, b))
    else
      var o :- Compare(a, b);
      Ok(if glyph == '＞' then o == Greater
         else if glyph == '＜' then o == Less
         else if glyph == '≧' then o != Less
         else o != Greater)
  }
}

=== FILE: compiler_facts.dfy ===
/** What `underStanding` makes of the operands a program actually writes:
    numbers, quoted text, variable names and list elements, and the sums
    and concatenations of parts joined by 'と'. */
module CompilerFacts {
  import opened Wrappers
  import opened Text
  import opened TextFacts
  import opened Values
  import opened Compiler

  /** A character of a name or a number: no 'と' to split at, no space to
      strip, no quote, brace, bracket, comparison or formula glyph. */
  predicate NameChar(c: char)
  {
    c !in {'と', ' ', '「', '"', '{', '[', ']'} && c !in Comparators && c !in FormulaGlyphs
  }

  /** A whole part that every branch before the variable branch passes
      over (apart from the numeric ones, which look at its characters). */
  predicate Simple(s: string)
  {
    |s| > 0 && (forall i :: 0 <= i < |s| ==> NameChar(s[i])) && !HasLogicMarker(s)
  }

  lemma NoComparator(s: string)
    requires forall i :: 0 <= i < |s| ==> s[i] !in Comparators
    ensures !HasComparator(s)
  {
    forall j | 0 <= j < |Comparators|
      ensures Comparators[j] !in s
    {
      assert Comparators[j] in Comparators;
    }
  }

  lemma NoMarker(s: string)
    requires forall i :: 0 <= i < |s| ==> s[i] !in {'か', 'ま', 'で'}
    ensures !HasLogicMarker(s)
  {
    AbsentWord(s, AndWord);
    AbsentWord(s, OrWord);
    AbsentWord(s, NotWord);
  }

  /** A digit run is a simple part. */
  lemma DigitsSimple(s: string)
    requires AllDigits(s)
    ensures Simple(s)
  {
    NoMarker(s);
  }

  /** A simple part is resolved by the numeric branches or the variable
      and element branches, and a simple part is its own stripped form. */
  lemma SimpleParts(s: string)
    requires Simple(s)
    ensures Strip(s, {' '}) == s && Split(s, 'と') == [s]
    ensures Classify(s).DigitsPart? || Classify(s).NumeralPart? || Classify(s).ElementPart? || Classify(s).VariablePart?
    ensures Classify(s).ElementPart? <==> ElementRef(s).Some?
    ensures Classify(s).VariablePart? <==> !AllNumeric(s) && ElementRef(s).None?
  {
    SimpleText(s);
    PlainKind(s);
  }

  lemma SimpleText(s: string)
    requires Simple(s)
    ensures Strip(s, {' '}) == s && Split(s, 'と') == [s]
    ensures !HasLogicMarker(s) && !HasComparator(s) && Plain(s)
    ensures s[0] !in {'「', '"', '{'}
  {
    NoComparator(s);
    assert NameChar(s[0]) && NameChar(s[|s| - 1]);
    assert s[0] in s;
  }

  /** A part the first five branches pass over is a number, an element
      or a variable. */
  lemma PlainKind(s: string)
    requires |s| > 0 && !HasLogicMarker(s) && !HasComparator(s) && Plain(s)
    requires s[0] !in {'「', '"', '{'}
    ensures Classify(s).DigitsPart? || Classify(s).NumeralPart? || Classify(s).ElementPart? || Classify(s).VariablePart?
    ensures Classify(s).ElementPart? <==> ElementRef(s).Some?
    ensures Classify(s).VariablePart? <==> !AllNumeric(s) && ElementRef(s).None?
  {
  }

  lemma OnePartFails(reading: Reading, store: Store, p: string, bound: nat)
    requires |p| <= bound
    requires ResolvePart(reading, store, Strip(p, {' '})).Err?
    ensures Accumulate(reading, store, [p], bound, None) == ResolvePart(reading, store, Strip(p, {' '}))
  {
  }

  lemma OnePartResolves(reading: Reading, store: Store, p: string, bound: nat, v: Value)
    requires |p| <= bound
    requires ResolvePart(reading, store, Strip(p, {' '})) == Ok(v)
    ensures Accumulate(reading, store, [p], bound, None) == Ok(v)
  {
    assert Add(Empty(v), v) == Ok(v);
    assert [p][1..] == [];
  }

  /** One part: resolve it and add it to the empty value of its own kind,
      which gives the part's own value. */
  lemma SinglePart(reading: Reading, store: Store, s: string)
    requires Split(s, 'と') == [s]
    ensures UnderStanding(reading, store, s) == ResolvePart(reading, store, Strip(s, {' '}))
  {
    assert UnderStanding(reading, store, s) == Accumulate(reading, store, [s], |s|, None);
    OnePart(reading, store, s, |s|);
  }

  lemma OnePart(reading: Reading, store: Store, p: string, bound: nat)
    requires |p| <= bound
    ensures Accumulate(reading, store, [p], bound, None) == ResolvePart(reading, store, Strip(p, {' '}))
  {
    var r := ResolvePart(reading, store, Strip(p, {' '}));
    if r.Ok? {
      OnePartResolves(reading, store, p, bound, r.value);
    } else {
      OnePartFails(reading, store, p, bound);
    }
  }

  /** `int(s)` for a digit run. */
  lemma DigitsOperand(reading: Reading, store: Store, s: string)
    requires AllDigits(s)
    ensures UnderStanding(reading, store, s) == Ok(Int(DigitsValue(s)))
  {
    DigitsSimple(s);
    SimpleParts(s);
    SinglePart(reading, store, s);
  }

  /** A name resolves to its value in the store, and a name the store
      lacks is an error rather than a default. */
  lemma VariableOperand(reading: Reading, store: Store, name: string)
    requires Simple(name) && !IsDigit(name[0]) && name[0] !in Numerals && name[|name| - 1] != ']'
    ensures UnderStanding(reading, store, name) == if name in store then Ok(store[name]) else Err(UndefinedVariable(name))
  {
    SimpleParts(name);
    SinglePart(reading, store, name);
  }

  const InputMarker: string := "【外部からの入力】"

  lemma InputMarkerChars()
    ensures forall i :: 0 <= i < |InputMarker| ==> NameChar(InputMarker[i])
  {
  }

  lemma InputMarkerSimple()
    ensures Simple(InputMarker)
  {
    InputMarkerChars();
    assert AndWord[1] !in InputMarker;
    AbsentLetter(InputMarker, AndWord, 1);
    AbsentWord(InputMarker, OrWord);
    AbsentWord(InputMarker, NotWord);
  }

  /** The input marker is resolved as a variable of that name, so the
      branch that would read a line of input is never reached. */
  lemma InputMarkerIsVariable(reading: Reading, store: Store)
    ensures UnderStanding(reading, store, InputMarker) ==
              if InputMarker in store then Ok(store[InputMarker]) else Err(UndefinedVariable(InputMarker))
  {
    InputMarkerSimple();
    InputMarkerEdges();
    VariableOperand(reading, store, InputMarker);
  }

  lemma InputMarkerEdges()
    ensures !IsDigit(InputMarker[0]) && InputMarker[0] !in Numerals && InputMarker[|InputMarker| - 1] != ']'
  {
  }

  /** Appending characters that `w` does not use creates no occurrence
      of `w`. */
  lemma AppendNoWord(a: string, b: string, w: string)
    requires |w| > 0 && !Contains(a, w)
    requires forall i :: 0 <= i < |b| ==> b[i] !in w
    ensures !Contains(a + b, w)
  {
    forall j: nat | j + |w| <= |a + b|
      ensures !OccursAt(a + b, w, j)
    {
      if j + |w| <= |a| {
        assert (a + b)[j..j + |w|] == a[j..j + |w|];
        assert !OccursAt(a, w, j);
      } else {
        assert (a + b)[j..j + |w|][|w| - 1] == b[j + |w| - 1 - |a|];
      }
    }
  }

  /** The element pattern recovers the base name and the index. */
  lemma ElementPattern(name: string, digits: string)
    requires '[' !in name && AllDigits(digits)
    ensures ElementRef(name + "[" + digits + "]") == Some((name, DigitsValue(digits)))
  {
    var s := name + "[" + digits + "]";
    var body := s[..|s| - 1];
    assert body == name + "[" + digits;
    assert body[|name|] == '[';
    assert body[|name| + 1..] == digits;
    assert '[' !in digits;
    assert s[|s| - 1] == ']';
    assert body[..|name|] == name;
    assert '[' in body;
    var p := LastIndex(body, '[');
  }

  lemma ElementNoMarker(name: string, digits: string)
    requires Simple(name) && AllDigits(digits)
    ensures !HasLogicMarker(name + "[" + digits + "]")
  {
    var tail := "[" + digits + "]";
    assert name + tail == name + "[" + digits + "]";
    assert forall i :: 0 <= i < |tail| ==> tail[i] == '[' || tail[i] == ']' || IsDigit(tail[i]);
    AppendNoWord(name, tail, AndWord);
    AppendNoWord(name, tail, OrWord);
    AppendNoWord(name, tail, NotWord);
  }

  lemma ElementNoComparator(name: string, digits: string)
    requires Simple(name) && AllDigits(digits)
    ensures !HasComparator(name + "[" + digits + "]")
  {
    var s := name + "[" + digits + "]";
    assert forall i :: 0 <= i < |s| ==> s[i] !in Comparators by {
      assert forall i :: |name| < i < |s| - 1 ==> s[i] == digits[i - |name| - 1];
    }
    NoComparator(s);
  }

  lemma ElementShape(name: string, digits: string)
    requires Simple(name) && AllDigits(digits)
    ensures var s := name + "[" + digits + "]";
            Strip(s, {' '}) == s && !AllNumeric(s) && s[0] == name[0]
  {
    var s := name + "[" + digits + "]";
    assert s[0] == name[0] && NameChar(name[0]);
    assert s[|s| - 1] == ']';
    assert s[|name|] == '[' && !IsDigit('[') && '[' !in Numerals;
  }

  lemma ElementUnsplit(name: string, digits: string)
    requires Simple(name) && AllDigits(digits)
    ensures var s := name + "[" + digits + "]";
            Split(s, 'と') == [s] && Plain(s)
  {
    var s := name + "[" + digits + "]";
    assert forall i :: |name| < i < |s| - 1 ==> s[i] == digits[i - |name| - 1];
    assert forall i :: 0 <= i < |s| ==> s[i] != 'と';
  }

  /** `name[digits]`: the element of a list or the character of a text
      at `index`, the number the digits spell, with a missing name, a
      number and an index past the end as errors. */
  lemma ElementOperand(reading: Reading, store: Store, name: string, digits: string, index: nat)
    requires Simple(name) && AllDigits(digits) && DigitsValue(digits) == index
    ensures UnderStanding(reading, store, name + "[" + digits + "]") == Subscript(store, name, index)
  {
    var s := name + "[" + digits + "]";
    ElementKind(name, digits, index);
    SinglePart(reading, store, s);
    KindElement(reading, store, s, name, index);
  }

  lemma ElementKind(name: string, digits: string, index: nat)
    requires Simple(name) && AllDigits(digits) && DigitsValue(digits) == index
    ensures var s := name + "[" + digits + "]";
            Classify(s) == ElementPart(name, index) && Split(s, 'と') == [s] && Strip(s, {' '}) == s
  {
    ElementPattern(name, digits);
    ElementNoMarker(name, digits);
    ElementNoComparator(name, digits);
    ElementShape(name, digits);
    ElementUnsplit(name, digits);
  }

  lemma KindElement(reading: Reading, store: Store, part: string, name: string, index: nat)
    requires Strip(part, {' '}) == part && Classify(part) == ElementPart(name, index)
    ensures ResolvePart(reading, store, Strip(part, {' '})) == Subscript(store, name, index)
  {
  }

  // ---------------------------------------------------------------------
  // Parts joined by 'と'

  /** Python's loop `answer += val` over values already resolved: the
      first value starts from the empty value of its own kind, and a
      pairing `+=` rejects is a TypeError. */
  function Fold(acc: Option<Value>, vs: seq<Value>): Result<Value>
    decreases |vs|
  {
    if |vs| == 0 then Ok(if acc.Some? then acc.value else Int(0))
    else
      var next :- Add(if acc.Some? then acc.value else Empty(vs[0]), vs[0]);
      Fold(Some(next), vs[1..])
  }

  /** Every part, stripped, resolves to the value at the same position. */
  predicate ResolveAll(reading: Reading, store: Store, parts: seq<string>, vs: seq<Value>)
    decreases |parts|
  {
    && |parts| == |vs|
    && (|parts| > 0 ==>
          && ResolvePart(reading, store, Strip(parts[0], {' '})) == Ok(vs[0])
          && ResolveAll(reading, store, parts[1..], vs[1..]))
  }

  /** One step of the accumulation loop: a part that resolves to `v` is
      added to the running value. */
  lemma AccumulateStep(reading: Reading, store: Store, parts: seq<string>, bound: nat, acc: Option<Value>, v: Value, next: Value)
    requires |parts| > 0 && forall p :: p in parts ==> |p| <= bound
    requires ResolvePart(reading, store, Strip(parts[0], {' '})) == Ok(v)
    requires Add(if acc.Some? then acc.value else Empty(v), v) == Ok(next)
    ensures Accumulate(reading, store, parts, bound, acc) == Accumulate(reading, store, parts[1..], bound, Some(next))
  {
  }

  lemma AccumulateAddFails(reading: Reading, store: Store, parts: seq<string>, bound: nat, acc: Option<Value>, v: Value)
    requires |parts| > 0 && forall p :: p in parts ==> |p| <= bound
    requires ResolvePart(reading, store, Strip(parts[0], {' '})) == Ok(v)
    requires Add(if acc.Some? then acc.value else Empty(v), v).Err?
    ensures Accumulate(reading, store, parts, bound, acc) == Err(TypeMismatch)
  {
  }

  /** Once every part resolves, `underStanding`'s loop is the `+=` chain
      over the resolved values. */
  lemma {:induction false} AccumulateFolds(reading: Reading, store: Store, parts: seq<string>, bound: nat, acc: Option<Value>, vs: seq<Value>)
    requires forall p :: p in parts ==> |p| <= bound
    requires ResolveAll(reading, store, parts, vs)
    ensures Accumulate(reading, store, parts, bound, acc) == Fold(acc, vs)
    decreases |parts|
  {
    if |parts| > 0 {
      var v := vs[0];
      var r := Add(if acc.Some? then acc.value else Empty(v), v);
      if r.Ok? {
        AccumulateStep(reading, store, parts, bound, acc, v, r.value);
        AccumulateFolds(reading, store, parts[1..], bound, Some(r.value), vs[1..]);
      } else {
        AccumulateAddFails(reading, store, parts, bound, acc, v);
      }
    }
  }

  /** `underStanding` of parts joined by 'と', when no part holds 'と' and
      every part resolves. */
  lemma JoinedParts(reading: Reading, store: Store, parts: seq<string>, vs: seq<Value>)
    requires |parts| >= 1 && forall p :: p in parts ==> 'と' !in p
    requires ResolveAll(reading, store, parts, vs)
    ensures UnderStanding(reading, store, Join(parts, 'と')) == Fold(None, vs)
  {
    var s := Join(parts, 'と');
    SplitJoin(parts, 'と');
    AccumulateFolds(reading, store, parts, |s|, None, vs);
  }

  function Sum(ns: seq<int>): int
  {
    if |ns| == 0 then 0 else ns[0] + Sum(ns[1..])
  }

  function Ints(ns: seq<int>): (vs: seq<Value>)
    ensures |vs| == |ns| && forall i :: 0 <= i < |ns| ==> vs[i] == Int(ns[i])
  {
    if |ns| == 0 then [] else [Int(ns[0])] + Ints(ns[1..])
  }

  /** Integers add up, starting from `acc`. */
  lemma {:induction false} FoldInts(acc: int, ns: seq<int>)
    ensures Fold(Some(Int(acc)), Ints(ns)) == Ok(Int(acc + Sum(ns)))
    decreases |ns|
  {
    if |ns| > 0 {
      assert Ints(ns)[1..] == Ints(ns[1..]);
      FoldInts(acc + ns[0], ns[1..]);
    }
  }

  /** The first value starts the chain as it is. */
  lemma FoldFirst(vs: seq<Value>)
    requires |vs| >= 1
    ensures Fold(None, vs) == Fold(Some(vs[0]), vs[1..])
  {
    assert Add(Empty(vs[0]), vs[0]) == Ok(vs[0]);
  }

  lemma FoldIntsFromNone(ns: seq<int>)
    requires |ns| >= 1
    ensures Fold(None, Ints(ns)) == Ok(Int(Sum(ns)))
  {
    var vs := Ints(ns);
    FoldFirst(vs);
    IntsTail(ns);
    var total := Sum(ns);
    assert Fold(None, vs) == Fold(Some(Int(ns[0])), Ints(ns[1..]));
    FoldInts(ns[0], ns[1..]);
    assert ns[0] + Sum(ns[1..]) == total;
  }

  lemma IntsTail(ns: seq<int>)
    requires |ns| >= 1
    ensures Ints(ns)[0] == Int(ns[0]) && Ints(ns)[1..] == Ints(ns[1..])
    ensures Sum(ns) == ns[0] + Sum(ns[1..])
  {
  }

  /** A digit run, as a part, is the integer it spells. */
  lemma DigitsPartValue(reading: Reading, store: Store, p: string)
    requires AllDigits(p)
    ensures ResolvePart(reading, store, Strip(p, {' '})) == Ok(Int(DigitsValue(p)))
  {
    DigitsSimple(p);
    SimpleParts(p);
    assert p[|p| - 1] != ']';
    assert Classify(p) == DigitsPart;
  }

  /** The integers the digit runs spell. */
  function Numbers(parts: seq<string>): (ns: seq<int>)
    requires forall p :: p in parts ==> AllDigits(p)
    ensures |ns| == |parts|
    ensures forall i :: 0 <= i < |parts| ==> AllDigits(parts[i]) && ns[i] == DigitsValue(parts[i])
  {
    if |parts| == 0 then []
    else
      assert parts[0] in parts && AllDigits(parts[0]);
      [DigitsValue(parts[0])] + Numbers(parts[1..])
  }

  lemma {:induction false} DigitsResolveAll(reading: Reading, store: Store, parts: seq<string>)
    requires forall p :: p in parts ==> AllDigits(p)
    ensures ResolveAll(reading, store, parts, Ints(Numbers(parts)))
    decreases |parts|
  {
    if |parts| > 0 {
      assert parts[0] in parts;
      DigitsPartValue(reading, store, parts[0]);
      assert Numbers(parts)[1..] == Numbers(parts[1..]);
      assert Ints(Numbers(parts))[1..] == Ints(Numbers(parts[1..]));
      DigitsResolveAll(reading, store, parts[1..]);
    }
  }

  lemma DigitsUnsplit(parts: seq<string>)
    requires forall p :: p in parts ==> AllDigits(p)
    ensures forall p :: p in parts ==> 'と' !in p
  {
    forall p | p in parts
      ensures 'と' !in p
    {
      DigitsSimple(p);
    }
  }

  /** Digit runs joined by 'と' add up: `1と2と3` is 6. */
  lemma DigitPartsSum(reading: Reading, store: Store, parts: seq<string>)
    requires |parts| >= 1 && forall p :: p in parts ==> AllDigits(p)
    ensures UnderStanding(reading, store, Join(parts, 'と')) == Ok(Int(Sum(Numbers(parts))))
  {
    DigitsUnsplit(parts);
    DigitsResolveAll(reading, store, parts);
    JoinedParts(reading, store, parts, Ints(Numbers(parts)));
    FoldIntsFromNone(Numbers(parts));
  }

  // ---------------------------------------------------------------------
  // List literals

  /** The elements of a `{…}` literal, resolved in order: a list holds
      the value of each element, and a failure is the failure of one of
      them. */
  lemma ElementsResolved(reading: Reading, store: Store, elements: seq<string>, bound: nat)
    requires forall e :: e in elements ==> |e| <= bound
    ensures ResolveElements(reading, store, elements, bound).Ok? ==>
              forall i :: 0 <= i < |elements| ==> UnderStanding(reading, store, elements[i]) == Ok(ResolveElements(reading, store, elements, bound).value[i])
    ensures ResolveElements(reading, store, elements, bound).Err? ==>
              exists i :: 0 <= i < |elements| && UnderStanding(reading, store, elements[i]) == Err(ResolveElements(reading, store, elements, bound).error)
  {
    if ResolveElements(reading, store, elements, bound).Ok? {
      forall i | 0 <= i < |elements|
        ensures UnderStanding(reading, store, elements[i]) == Ok(ResolveElements(reading, store, elements, bound).value[i])
      {
        ElementAt(reading, store, elements, bound, ResolveElements(reading, store, elements, bound).value, i);
      }
    } else {
      var i := FirstFailure(reading, store, elements, bound);
    }
  }

  lemma {:induction false} ElementAt(reading: Reading, store: Store, elements: seq<string>, bound: nat, vs: seq<Value>, i: nat)
    requires forall e :: e in elements ==> |e| <= bound
    requires i < |elements| && ResolveElements(reading, store, elements, bound) == Ok(vs)
    ensures UnderStanding(reading, store, elements[i]) == Ok(vs[i])
    decreases i
  {
    if i == 0 {
      ElementsHead(reading, store, elements, bound);
    } else {
      ElementsRest(reading, store, elements, bound);
      var tail := elements[1..];
      assert forall e :: e in tail ==> e in elements;
      ElementAt(reading, store, tail, bound, vs[1..], i - 1);
      assert tail[i - 1] == elements[i] && vs[1..][i - 1] == vs[i];
    }
  }

  lemma {:induction false} FirstFailure(reading: Reading, store: Store, elements: seq<string>, bound: nat) returns (i: nat)
    requires forall e :: e in elements ==> |e| <= bound
    requires ResolveElements(reading, store, elements, bound).Err?
    ensures i < |elements| && UnderStanding(reading, store, elements[i]) == Err(ResolveElements(reading, store, elements, bound).error)
    decreases |elements|
  {
    ElementsFail(reading, store, elements, bound);
    if UnderStanding(reading, store, elements[0]).Err? {
      ElementsHeadFails(reading, store, elements, bound);
      i := 0;
    } else {
      ElementsRestFails(reading, store, elements, bound);
      var tail := elements[1..];
      assert forall e :: e in tail ==> e in elements;
      var j := FirstFailure(reading, store, tail, bound);
      assert tail[j] == elements[j + 1];
      i := j + 1;
    }
  }

  /** A list that resolves starts with its first element's value. */
  lemma ElementsHead(reading: Reading, store: Store, elements: seq<string>, bound: nat)
    requires |elements| > 0 && forall e :: e in elements ==> |e| <= bound
    requires ResolveElements(reading, store, elements, bound).Ok?
    ensures UnderStanding(reading, store, elements[0]) == Ok(ResolveElements(reading, store, elements, bound).value[0])
  {
  }

  /** ... and goes on with the values of the other elements. */
  lemma ElementsRest(reading: Reading, store: Store, elements: seq<string>, bound: nat)
    requires |elements| > 0 && forall e :: e in elements ==> |e| <= bound
    requires ResolveElements(reading, store, elements, bound).Ok?
    ensures ResolveElements(reading, store, elements[1..], bound) == Ok(ResolveElements(reading, store, elements, bound).value[1..])
  {
  }

  /** A list that fails has a first element. */
  lemma ElementsFail(reading: Reading, store: Store, elements: seq<string>, bound: nat)
    requires forall e :: e in elements ==> |e| <= bound
    requires ResolveElements(reading, store, elements, bound).Err?
    ensures |elements| > 0
  {
  }

  /** A first element that fails is the list's failure. */
  lemma ElementsHeadFails(reading: Reading, store: Store, elements: seq<string>, bound: nat)
    requires |elements| > 0 && forall e :: e in elements ==> |e| <= bound
    requires UnderStanding(reading, store, elements[0]).Err?
    ensures ResolveElements(reading, store, elements, bound) == Err(UnderStanding(reading, store, elements[0]).error)
  {
  }

  /** After a first element that resolves, the list fails as the rest does. */
  lemma ElementsRestFails(reading: Reading, store: Store, elements: seq<string>, bound: nat)
    requires |elements| > 0 && forall e :: e in elements ==> |e| <= bound
    requires UnderStanding(reading, store, elements[0]).Ok? && ResolveElements(reading, store, elements, bound).Err?
    ensures ResolveElements(reading, store, elements[1..], bound) == Err(ResolveElements(reading, store, elements, bound).error)
  {
  }

  /** The `{…}` literal of a list whose elements are written `x`. */
  function Braces(x: string): string
  {
    "{" + x + "}"
  }

  /** Digit runs joined by ',' hold only digits and commas, and start and
      end with a digit. */
  lemma {:induction false} DigitListChars(parts: seq<string>)
    requires |parts| >= 1 && forall p :: p in parts ==> AllDigits(p)
    ensures var x := Join(parts, ',');
            && |x| > 0 && IsDigit(x[0]) && IsDigit(x[|x| - 1])
            && forall i :: 0 <= i < |x| ==> IsDigit(x[i]) || x[i] == ','
    decreases |parts|
  {
    assert parts[0] in parts;
    if |parts| > 1 {
      var tail := parts[1..];
      assert forall p :: p in tail ==> p in parts;
      DigitListChars(tail);
      var x, head, rest := Join(parts, ','), parts[0], Join(tail, ',');
      assert x == head + [','] + rest;
      assert forall i :: |head| < i < |x| ==> x[i] == rest[i - |head| - 1];
    }
  }

  /** Stripping braces from a braced text that starts and ends with
      something else leaves the text between them. */
  lemma StripBraces(x: string)
    requires |x| > 0 && x[0] !in {'{', '}'} && x[|x| - 1] !in {'{', '}'}
    ensures Strip(Braces(x), {'{', '}'}) == x
  {
    var b, cs := Braces(x), {'{', '}'};
    assert b[1..] == x + "}";
    assert TrimLeft(b[1..], cs) == x + "}";
    assert TrimLeft(b, cs) == x + "}";
    assert (x + "}")[..|x|] == x;
    assert TrimRight(x + "}", cs) == x;
  }

  /** A list of digit runs passes the first four branches of
      `underStanding` and lands in the list branch with its runs as the
      elements. */
  lemma DigitListKind(parts: seq<string>)
    requires |parts| >= 1 && forall p :: p in parts ==> AllDigits(p)
    ensures Split(Braces(Join(parts, ',')), 'と') == [Braces(Join(parts, ','))]
    ensures Strip(Braces(Join(parts, ',')), {' '}) == Braces(Join(parts, ','))
    ensures Classify(Braces(Join(parts, ','))) == ArrayPart(parts)
  {
    var x := Join(parts, ',');
    DigitListChars(parts);
    BracesText(x);
    StripBraces(x);
    CommaSplit(parts);
    BracedKind(Braces(x), parts);
  }

  /** A character of a list of digit runs. */
  predicate ListChar(c: char)
  {
    IsDigit(c) || c in {'{', '}', ','}
  }

  lemma ListCharPlain(c: char)
    requires ListChar(c)
    ensures c != 'と' && c !in {'か', 'ま', 'で'} && c !in Comparators
  {
  }

  lemma BracesChars(x: string)
    requires forall i :: 0 <= i < |x| ==> IsDigit(x[i]) || x[i] == ','
    ensures forall i :: 0 <= i < |Braces(x)| ==> ListChar(Braces(x)[i])
  {
    var b := Braces(x);
    assert forall i :: 0 < i < |b| - 1 ==> b[i] == x[i - 1];
  }

  /** A braced run of digits and commas holds nothing that an earlier
      branch of `underStanding` looks for. */
  lemma BracesText(x: string)
    requires forall i :: 0 <= i < |x| ==> IsDigit(x[i]) || x[i] == ','
    ensures Split(Braces(x), 'と') == [Braces(x)] && Strip(Braces(x), {' '}) == Braces(x)
    ensures !HasLogicMarker(Braces(x)) && !HasComparator(Braces(x)) && Braced(Braces(x))
  {
    var b := Braces(x);
    BracesChars(x);
    BracesUnmarked(b);
    ListCharPlain(b[0]);
  }

  lemma BracesUnmarked(b: string)
    requires forall i :: 0 <= i < |b| ==> ListChar(b[i])
    ensures 'と' !in b && !HasLogicMarker(b) && !HasComparator(b)
  {
    forall i | 0 <= i < |b|
      ensures b[i] != 'と' && b[i] !in {'か', 'ま', 'で'} && b[i] !in Comparators
    {
      ListCharPlain(b[i]);
    }
    NoMarker(b);
    NoComparator(b);
  }

  /** Digit runs joined by ',' split back into the runs. */
  lemma CommaSplit(parts: seq<string>)
    requires |parts| >= 1 && forall p :: p in parts ==> AllDigits(p)
    ensures Split(Join(parts, ','), ',') == parts
  {
    forall p | p in parts
      ensures ',' !in p
    {
      assert forall i :: 0 <= i < |p| ==> IsDigit(p[i]);
    }
    SplitJoin(parts, ',');
  }

  /** A braced part with no connective and no comparison glyph is a list
      whose elements are its interior split at ','. */
  lemma BracedKind(b: string, elements: seq<string>)
    requires !HasLogicMarker(b) && !HasComparator(b) && Braced(b)
    requires Split(Strip(b, {'{', '}'}), ',') == elements
    ensures Classify(b) == ArrayPart(elements)
  {
  }

  /** A list of digit runs resolves element by element to their integers. */
  lemma {:induction false} DigitElements(reading: Reading, store: Store, parts: seq<string>, bound: nat)
    requires forall p :: p in parts ==> AllDigits(p) && |p| <= bound
    ensures ResolveElements(reading, store, parts, bound) == Ok(Ints(Numbers(parts)))
    decreases |parts|
  {
    if |parts| > 0 {
      var tail := parts[1..];
      assert forall p :: p in tail ==> p in parts;
      assert parts[0] in parts;
      DigitElements(reading, store, tail, bound);
      DigitsOperand(reading, store, parts[0]);
      ElementsCons(reading, store, parts, bound, Int(DigitsValue(parts[0])), Ints(Numbers(tail)));
      assert Numbers(parts) == [DigitsValue(parts[0])] + Numbers(tail);
    }
  }

  lemma ElementsCons(reading: Reading, store: Store, elements: seq<string>, bound: nat, v: Value, rest: seq<Value>)
    requires |elements| > 0 && forall e :: e in elements ==> |e| <= bound
    requires UnderStanding(reading, store, elements[0]) == Ok(v)
    requires ResolveElements(reading, store, elements[1..], bound) == Ok(rest)
    ensures ResolveElements(reading, store, elements, bound) == Ok([v] + rest)
  {
  }

  /** `{d1,…,dn}` of digit runs is the list of the integers they spell. */
  lemma DigitList(reading: Reading, store: Store, parts: seq<string>)
    requires |parts| >= 1 && forall p :: p in parts ==> AllDigits(p)
    ensures UnderStanding(reading, store, Braces(Join(parts, ','))) == Ok(Arr(Ints(Numbers(parts))))
  {
    var b := Braces(Join(parts, ','));
    DigitListKind(parts);
    forall p | p in parts
      ensures AllDigits(p) && |p| <= |b| - 1
    {
      assert Join(parts, ',') == b[1..|b| - 1];
    }
    DigitElements(reading, store, parts, |b| - 1);
    ListPart(reading, store, b, parts, Ints(Numbers(parts)));
    SinglePart(reading, store, b);
  }

  lemma ListPart(reading: Reading, store: Store, part: string, elements: seq<string>, vs: seq<Value>)
    requires Classify(part) == ArrayPart(elements)
    requires ResolveElements(reading, store, elements, |part| - 1) == Ok(vs)
    ensures ResolvePart(reading, store, part) == Ok(Arr(vs))
  {
  }

  /** The 「…」 literal of a text. */
  function Quote(x: string): string
  {
    "「" + x + "」"
  }

  /** A character a quoted literal can hold without being read as
      something else: no 'と' splitting it, no closing quote, no
      comparison glyph and no character that starts a connective. */
  predicate QuotableChar(c: char)
  {
    c !in {'と', '」', 'か', 'ま', 'で'} && c !in Comparators
  }

  predicate Quotable(x: string)
  {
    forall i :: 0 <= i < |x| ==> QuotableChar(x[i])
  }

  lemma QuoteChars(x: string)
    requires Quotable(x)
    ensures forall i :: 0 <= i < |Quote(x)| ==> Quote(x)[i] !in {'と', 'か', 'ま', 'で'} && Quote(x)[i] !in Comparators
  {
    assert forall i :: 0 < i < |Quote(x)| - 1 ==> Quote(x)[i] == x[i - 1];
  }

  lemma QuotePattern(x: string)
    requires Quotable(x)
    ensures Quoted(Quote(x), '「', '」') == Some(x)
  {
    var q := Quote(x);
    assert q[1..] == x + "」";
    assert '」' !in x;
    assert LastIndex(q[1..], '」') == |x|;
  }

  lemma QuoteClassify(x: string)
    requires Quotable(x)
    ensures Strip(Quote(x), {' '}) == Quote(x)
    ensures Classify(Quote(x)) == QuotedPart(x)
  {
    QuoteText(x);
    QuotedKind(Quote(x), x);
  }

  lemma QuoteText(x: string)
    requires Quotable(x)
    ensures Strip(Quote(x), {' '}) == Quote(x)
    ensures !HasLogicMarker(Quote(x)) && !HasComparator(Quote(x))
    ensures Quoted(Quote(x), '「', '」') == Some(x)
  {
    var q := Quote(x);
    QuoteChars(x);
    NoMarker(q);
    NoComparator(q);
    QuotePattern(x);
  }

  /** The first two branches pass a part with no connective and no
      comparison glyph on to the quote branch. */
  lemma QuotedKind(q: string, x: string)
    requires !HasLogicMarker(q) && !HasComparator(q) && Quoted(q, '「', '」') == Some(x)
    ensures Classify(q) == QuotedPart(x)
  {
  }

  /** A quoted literal, as a part, is its interior. */
  lemma QuotedPartValue(reading: Reading, store: Store, x: string)
    requires Quotable(x)
    ensures ResolvePart(reading, store, Strip(Quote(x), {' '})) == Ok(Str(x))
  {
    QuoteClassify(x);
    KindQuoted(reading, store, Quote(x), x);
  }

  lemma KindQuoted(reading: Reading, store: Store, part: string, x: string)
    requires Classify(part) == QuotedPart(x)
    ensures ResolvePart(reading, store, part) == Ok(Str(x))
  {
  }

  /** The concatenation of the texts. */
  function Concat(xs: seq<string>): string
  {
    if |xs| == 0 then "" else xs[0] + Concat(xs[1..])
  }

  function Quotes(xs: seq<string>): (qs: seq<string>)
    ensures |qs| == |xs| && forall i :: 0 <= i < |xs| ==> qs[i] == Quote(xs[i])
  {
    if |xs| == 0 then [] else [Quote(xs[0])] + Quotes(xs[1..])
  }

  function Strs(xs: seq<string>): (vs: seq<Value>)
    ensures |vs| == |xs| && forall i :: 0 <= i < |xs| ==> vs[i] == Str(xs[i])
  {
    if |xs| == 0 then [] else [Str(xs[0])] + Strs(xs[1..])
  }

  /** Texts concatenate, starting from `acc`. */
  lemma {:induction false} FoldTexts(acc: string, xs: seq<string>)
    ensures Fold(Some(Str(acc)), Strs(xs)) == Ok(Str(acc + Concat(xs)))
    decreases |xs|
  {
    if |xs| > 0 {
      assert Strs(xs)[1..] == Strs(xs[1..]);
      assert Strs(xs)[0] == Str(xs[0]);
      assert Add(Str(acc), Str(xs[0])) == Ok(Str(acc + xs[0]));
      assert Fold(Some(Str(acc)), Strs(xs)) == Fold(Some(Str(acc + xs[0])), Strs(xs[1..]));
      FoldTexts(acc + xs[0], xs[1..]);
      assert acc + xs[0] + Concat(xs[1..]) == acc + Concat(xs);
    } else {
      assert acc + Concat(xs) == acc;
    }
  }

  lemma FoldTextsFromNone(xs: seq<string>)
    requires |xs| >= 1
    ensures Fold(None, Strs(xs)) == Ok(Str(Concat(xs)))
  {
    assert Strs(xs)[1..] == Strs(xs[1..]);
    FoldFirst(Strs(xs));
    FoldTexts(xs[0], xs[1..]);
  }

  lemma {:induction false} QuotesResolveAll(reading: Reading, store: Store, xs: seq<string>)
    requires forall x :: x in xs ==> Quotable(x)
    ensures ResolveAll(reading, store, Quotes(xs), Strs(xs))
    decreases |xs|
  {
    if |xs| > 0 {
      assert xs[0] in xs;
      QuotedPartValue(reading, store, xs[0]);
      assert Quotes(xs)[1..] == Quotes(xs[1..]);
      assert Strs(xs)[1..] == Strs(xs[1..]);
      QuotesResolveAll(reading, store, xs[1..]);
    }
  }

  lemma QuotesUnsplit(xs: seq<string>)
    requires forall x :: x in xs ==> Quotable(x)
    ensures forall q :: q in Quotes(xs) ==> 'と' !in q
  {
    var qs := Quotes(xs);
    forall q | q in qs
      ensures 'と' !in q
    {
      var i :| 0 <= i < |qs| && qs[i] == q;
      assert xs[i] in xs;
      QuoteChars(xs[i]);
    }
  }

  /** Quoted literals joined by 'と' concatenate their interiors:
      `「ab」と「cd」` is "abcd". */
  lemma QuotedPartsConcatenate(reading: Reading, store: Store, xs: seq<string>)
    requires |xs| >= 1 && forall x :: x in xs ==> Quotable(x)
    ensures UnderStanding(reading, store, Join(Quotes(xs), 'と')) == Ok(Str(Concat(xs)))
  {
    QuotesUnsplit(xs);
    QuotesResolveAll(reading, store, xs);
    JoinedParts(reading, store, Quotes(xs), Strs(xs));
    FoldTextsFromNone(xs);
  }
}

=== FILE: logic_facts.dfy ===
/** What `logicOperation` makes of connectives, negation and groups: the
    program as written and the corrected reading side by side. As written,
    `a かつ b または c` is `a and (b or c)` and a negated or joined group
    loses its value; the corrected reading gives `(a and b) or c` and keeps
    the group's value. */
module LogicFacts {
  import opened Wrappers
  import opened Text
  import opened TextFacts
  import opened Values
  import opened Compiler
  import opened RelationFacts

  /** A text that `logicOperation` takes as it is: nothing to strip, no
      parenthesis to resolve, no trailing でない. */
  predicate Bare(s: string)
  {
    && |s| > 0 && s[0] != ' ' && s[|s| - 1] != ' ' && s[|s| - 1] != 'い'
    && '（' !in s && '）' !in s
  }

  /** A bare text with no connective in it: a single comparison. */
  predicate Atom(s: string)
  {
    Bare(s) && forall i :: 0 <= i < |s| ==> s[i] != 'か' && s[i] != 'ま'
  }

  // ---------------------------------------------------------------------
  // Finding connectives

  /** A word whose first character does not occur is not found. */
  lemma Nowhere(s: string, w: string)
    requires |w| > 0 && forall i :: 0 <= i < |s| ==> s[i] != w[0]
    ensures TopLevelFind(s, w) == None
  {
    forall j: nat
      ensures !TopLevelAt(s, w, j)
    {
      if j + |w| <= |s| {
        assert s[j..j + |w|][0] == s[j];
      }
    }
  }

  /** Without parentheses, the first occurrence of a word is found at the
      first position holding its first character. */
  lemma FoundAt(s: string, w: string, k: nat)
    requires '（' !in s && '）' !in s
    requires |w| > 0 && OccursAt(s, w, k)
    requires forall j :: 0 <= j < k ==> s[j] != w[0]
    ensures TopLevelFind(s, w) == Some(k)
  {
    DepthWithoutParens(s);
    assert s[k..k + |w|][0] == s[k];
    assert TopLevelAt(s, w, k);
    forall j | 0 <= j < k
      ensures !TopLevelAt(s, w, j)
    {
      if j + |w| <= |s| {
        assert s[j..j + |w|][0] == s[j];
      }
    }
  }

  lemma AtomConnective(s: string, reading: Reading)
    requires Atom(s)
    ensures Connective(s, reading) == None
  {
    Nowhere(s, AndWord);
    Nowhere(s, OrWord);
  }

  /** Gluing two bare texts with a connective gives a bare text. */
  lemma BareJoin(a: string, w: string, b: string)
    requires Bare(a) && Bare(b) && (w == AndWord || w == OrWord)
    ensures Bare(a + w + b)
  {
    var s := a + w + b;
    assert s[0] == a[0] && s[|s| - 1] == b[|b| - 1];
    assert forall i :: 0 <= i < |s| ==> s[i] in a || s[i] in w || s[i] in b;
  }

  /** Where the connective of `a かつ b` is found, in either reading. */
  lemma AndConnective(a: string, b: string, reading: Reading)
    requires Atom(a) && Atom(b)
    ensures Connective(a + AndWord + b, reading) == Some((AndWord, |a|))
  {
    var s := a + AndWord + b;
    BareJoin(a, AndWord, b);
    assert s[|a|..|a| + 2] == AndWord;
    forall i | 0 <= i < |s|
      ensures s[i] != 'ま'
    {
      if i < |a| {
        assert s[i] == a[i];
      } else if i >= |a| + 2 {
        assert s[i] == b[i - |a| - 2];
      }
    }
    forall j | 0 <= j < |a|
      ensures s[j] != 'か'
    {
      assert s[j] == a[j];
    }
    FoundAt(s, AndWord, |a|);
    Nowhere(s, OrWord);
  }

  /** Where the connective of `b または c` is found, in either reading. */
  lemma OrConnective(b: string, c: string, reading: Reading)
    requires Atom(b) && Atom(c)
    ensures Connective(b + OrWord + c, reading) == Some((OrWord, |b|))
  {
    var s := b + OrWord + c;
    BareJoin(b, OrWord, c);
    assert s[|b|..|b| + 3] == OrWord;
    forall i | 0 <= i < |s|
      ensures s[i] != 'か'
    {
      if i < |b| {
        assert s[i] == b[i];
      } else if i >= |b| + 3 {
        assert s[i] == c[i - |b| - 3];
      }
    }
    forall j | 0 <= j < |b|
      ensures s[j] != 'ま'
    {
      assert s[j] == b[j];
    }
    FoundAt(s, OrWord, |b|);
    Nowhere(s, AndWord);
  }

  /** In `a かつ b または c` the program finds かつ first; the corrected
      reading looks for または first. */
  lemma MixedConnective(a: string, b: string, c: string)
    requires Atom(a) && Atom(b) && Atom(c)
    ensures Connective(a + AndWord + b + OrWord + c, AsWritten) == Some((AndWord, |a|))
    ensures Connective(a + AndWord + b + OrWord + c, Intended) == Some((OrWord, |a| + 2 + |b|))
  {
    var s := a + AndWord + b + OrWord + c;
    MixedText(a, b, c, s);
    BothFound(s, |a|, |a| + 2 + |b|);
  }

  /** With かつ first at `i` and または first at `k`, each reading splits at
      the word it tries first. */
  lemma BothFound(s: string, i: nat, k: nat)
    requires '（' !in s && '）' !in s
    requires OccursAt(s, AndWord, i) && OccursAt(s, OrWord, k)
    requires forall j :: 0 <= j < i ==> s[j] != AndWord[0]
    requires forall j :: 0 <= j < k ==> s[j] != OrWord[0]
    ensures Connective(s, AsWritten) == Some((AndWord, i))
    ensures Connective(s, Intended) == Some((OrWord, k))
  {
    FoundAt(s, AndWord, i);
    FoundAt(s, OrWord, k);
    FirstWordFound(s, AsWritten, i);
    FirstWordFound(s, Intended, k);
  }

  /** The connective tried first, once found, is the one split at. */
  lemma FirstWordFound(s: string, reading: Reading, k: nat)
    requires TopLevelFind(s, SplitOrder(reading)[0]) == Some(k)
    ensures Connective(s, reading) == Some((SplitOrder(reading)[0], k))
  {
  }

  /** Where the words of `a かつ b または c` sit. */
  lemma MixedText(a: string, b: string, c: string, s: string)
    requires Atom(a) && Atom(b) && Atom(c) && s == a + AndWord + b + OrWord + c
    ensures '（' !in s && '）' !in s
    ensures OccursAt(s, AndWord, |a|) && OccursAt(s, OrWord, |a| + 2 + |b|)
    ensures forall j :: 0 <= j < |a| ==> s[j] != AndWord[0]
    ensures forall j :: 0 <= j < |a| + 2 + |b| ==> s[j] != OrWord[0]
  {
    var p := a + AndWord + b;
    assert s == p + OrWord + c;
    BareJoin(a, AndWord, b);
    BareJoin(p, OrWord, c);
    assert s[|a|..|a| + 2] == AndWord;
    assert s[|p|..|p| + 3] == OrWord;
    forall j | 0 <= j < |a|
      ensures s[j] != 'か'
    {
      assert s[j] == a[j];
    }
    forall j | 0 <= j < |p|
      ensures s[j] != 'ま'
    {
      if j < |a| {
        assert s[j] == a[j];
      } else if j >= |a| + 2 {
        assert s[j] == b[j - |a| - 2];
      }
    }
  }

  // ---------------------------------------------------------------------
  // One step of logicOperation

  lemma NoGroups(reading: Reading, store: Store, s: string)
    requires '（' !in s
    ensures ResolveGroups(reading, store, s) == Ok(s)
  {
  }

  /** A bare text is its own stripped form and is not a negation. */
  lemma BareFacts(s: string)
    requires Bare(s)
    ensures Strip(s, {' '}) == s && '（' !in s && !EndsWith(s, NotWord)
  {
    if |NotWord| <= |s| {
      assert s[|s| - 1] == s[|s| - |NotWord|..][|NotWord| - 1];
    }
  }

  /** A bare text without a connective is a leaf. */
  lemma LogicLeaf(reading: Reading, store: Store, s: string)
    requires Strip(s, {' '}) == s && '（' !in s && !EndsWith(s, NotWord)
    requires Connective(s, reading) == None
    ensures LogicOperation(reading, store, s) == Leaf(reading, store, s)
  {
  }

  /** A bare text is split at the connective found. */
  lemma LogicSplit(reading: Reading, store: Store, s: string, w: string, k: nat)
    requires Strip(s, {' '}) == s && '（' !in s && !EndsWith(s, NotWord)
    requires Connective(s, reading) == Some((w, k)) && |w| > 0 && k + |w| <= |s|
    ensures LogicOperation(reading, store, s) == Junction(reading, store, s, w, k)
  {
    NoGroups(reading, store, s);
    assert Ungrouped(reading, store, s) == Junction(reading, store, s, w, k);
  }

  /** `L and R`, with the right side evaluated only when the left one
      holds. */
  lemma JunctionAnd(reading: Reading, store: Store, s: string, k: nat, l: bool, r: bool)
    requires k + |AndWord| <= |s|
    requires LogicOperation(reading, store, s[..k]) == Ok(Some(BoolToDncl(l)))
    requires l ==> LogicOperation(reading, store, s[k + |AndWord|..]) == Ok(Some(BoolToDncl(r)))
    ensures Junction(reading, store, s, AndWord, k) == Ok(Some(BoolToDncl(l && r)))
  {
    OrNotAnd();
  }

  /** `L or R`, with the right side evaluated only when the left one
      fails. */
  lemma JunctionOr(reading: Reading, store: Store, s: string, k: nat, l: bool, r: bool)
    requires k + |OrWord| <= |s|
    requires LogicOperation(reading, store, s[..k]) == Ok(Some(BoolToDncl(l)))
    requires !l ==> LogicOperation(reading, store, s[k + |OrWord|..]) == Ok(Some(BoolToDncl(r)))
    ensures Junction(reading, store, s, OrWord, k) == Ok(Some(BoolToDncl(l || r)))
  {
    if l {
      OrLeftHolds(reading, store, s, k);
    } else {
      OrLeftFails(reading, store, s, k, r);
    }
  }

  lemma OrLeftHolds(reading: Reading, store: Store, s: string, k: nat)
    requires k + |OrWord| <= |s|
    requires LogicOperation(reading, store, s[..k]) == Ok(Some(TrueText))
    ensures Junction(reading, store, s, OrWord, k) == Ok(Some(TrueText))
  {
    OrNotAnd();
  }

  lemma OrLeftFails(reading: Reading, store: Store, s: string, k: nat, r: bool)
    requires k + |OrWord| <= |s|
    requires LogicOperation(reading, store, s[..k]) == Ok(Some(FalseText))
    requires LogicOperation(reading, store, s[k + |OrWord|..]) == Ok(Some(BoolToDncl(r)))
    ensures Junction(reading, store, s, OrWord, k) == Ok(Some(BoolToDncl(r)))
  {
    OrNotAnd();
  }

  lemma OrNotAnd()
    ensures OrWord != AndWord && !Truthy(Some(FalseText)) && Truthy(Some(TrueText))
  {
    assert OrWord[0] != AndWord[0];
  }

  /** A bare text split at かつ is the conjunction of its sides. */
  lemma AndStep(reading: Reading, store: Store, s: string, k: nat, a: string, b: string, x: bool, y: bool)
    requires Bare(s) && Connective(s, reading) == Some((AndWord, k))
    requires k + |AndWord| <= |s| && s[..k] == a && s[k + |AndWord|..] == b
    requires LogicOperation(reading, store, a) == Ok(Some(BoolToDncl(x)))
    requires x ==> LogicOperation(reading, store, b) == Ok(Some(BoolToDncl(y)))
    ensures LogicOperation(reading, store, s) == Ok(Some(BoolToDncl(x && y)))
  {
    BareFacts(s);
    LogicSplit(reading, store, s, AndWord, k);
    JunctionAnd(reading, store, s, k, x, y);
  }

  /** A bare text split at または is the disjunction of its sides. */
  lemma OrStep(reading: Reading, store: Store, s: string, k: nat, a: string, b: string, x: bool, y: bool)
    requires Bare(s) && Connective(s, reading) == Some((OrWord, k))
    requires k + |OrWord| <= |s| && s[..k] == a && s[k + |OrWord|..] == b
    requires LogicOperation(reading, store, a) == Ok(Some(BoolToDncl(x)))
    requires !x ==> LogicOperation(reading, store, b) == Ok(Some(BoolToDncl(y)))
    ensures LogicOperation(reading, store, s) == Ok(Some(BoolToDncl(x || y)))
  {
    BareFacts(s);
    LogicSplit(reading, store, s, OrWord, k);
    JunctionOr(reading, store, s, k, x, y);
  }

  /** A single comparison is evaluated by `relationalOperation` (as a leaf). */
  lemma AtomLogic(reading: Reading, store: Store, a: string)
    requires Atom(a)
    ensures LogicOperation(reading, store, a) == Leaf(reading, store, a)
  {
    AtomConnective(a, reading);
    BareFacts(a);
    LogicLeaf(reading, store, a);
  }

  lemma AndPieces(a: string, b: string, reading: Reading)
    requires Atom(a) && Atom(b)
    ensures Bare(a + AndWord + b)
    ensures Connective(a + AndWord + b, reading) == Some((AndWord, |a|))
    ensures (a + AndWord + b)[..|a|] == a && (a + AndWord + b)[|a| + |AndWord|..] == b
  {
    AndConnective(a, b, reading);
    BareJoin(a, AndWord, b);
  }

  lemma OrPieces(b: string, c: string, reading: Reading)
    requires Atom(b) && Atom(c)
    ensures Bare(b + OrWord + c)
    ensures Connective(b + OrWord + c, reading) == Some((OrWord, |b|))
    ensures (b + OrWord + c)[..|b|] == b && (b + OrWord + c)[|b| + |OrWord|..] == c
  {
    OrConnective(b, c, reading);
    BareJoin(b, OrWord, c);
  }

  lemma MixedPieces(a: string, b: string, c: string)
    requires Atom(a) && Atom(b) && Atom(c)
    ensures Bare(a + AndWord + b + OrWord + c)
    ensures Connective(a + AndWord + b + OrWord + c, AsWritten) == Some((AndWord, |a|))
    ensures Connective(a + AndWord + b + OrWord + c, Intended) == Some((OrWord, |a + AndWord + b|))
    ensures (a + AndWord + b + OrWord + c)[..|a|] == a
    ensures (a + AndWord + b + OrWord + c)[|a| + |AndWord|..] == b + OrWord + c
    ensures (a + AndWord + b + OrWord + c)[..|a + AndWord + b|] == a + AndWord + b
    ensures (a + AndWord + b + OrWord + c)[|a + AndWord + b| + |OrWord|..] == c
  {
    MixedConnective(a, b, c);
    BareJoin(a, AndWord, b);
    BareJoin(a + AndWord + b, OrWord, c);
  }

  /** `a かつ b` is the conjunction of its sides, in either reading. */
  lemma AndOf(reading: Reading, store: Store, a: string, b: string, x: bool, y: bool)
    requires Atom(a) && Atom(b)
    requires Leaf(reading, store, a) == Ok(Some(BoolToDncl(x)))
    requires Leaf(reading, store, b) == Ok(Some(BoolToDncl(y)))
    ensures LogicOperation(reading, store, a + AndWord + b) == Ok(Some(BoolToDncl(x && y)))
  {
    AtomLogic(reading, store, a);
    AtomLogic(reading, store, b);
    AndPieces(a, b, reading);
    AndStep(reading, store, a + AndWord + b, |a|, a, b, x, y);
  }

  /** `b または c` is the disjunction of its sides, in either reading. */
  lemma OrOf(reading: Reading, store: Store, b: string, c: string, y: bool, z: bool)
    requires Atom(b) && Atom(c)
    requires Leaf(reading, store, b) == Ok(Some(BoolToDncl(y)))
    requires Leaf(reading, store, c) == Ok(Some(BoolToDncl(z)))
    ensures LogicOperation(reading, store, b + OrWord + c) == Ok(Some(BoolToDncl(y || z)))
  {
    AtomLogic(reading, store, b);
    AtomLogic(reading, store, c);
    OrPieces(b, c, reading);
    OrStep(reading, store, b + OrWord + c, |b|, b, c, y, z);
  }

  // ---------------------------------------------------------------------
  // Precedence of かつ over または

  /** As written, `a かつ b または c` is `a and (b or c)`: the first
      connective found becomes the root, so かつ binds looser than
      または. */
  lemma MixedAsWritten(store: Store, a: string, b: string, c: string, x: bool, y: bool, z: bool)
    requires Atom(a) && Atom(b) && Atom(c)
    requires Leaf(AsWritten, store, a) == Ok(Some(BoolToDncl(x)))
    requires Leaf(AsWritten, store, b) == Ok(Some(BoolToDncl(y)))
    requires Leaf(AsWritten, store, c) == Ok(Some(BoolToDncl(z)))
    ensures LogicOperation(AsWritten, store, a + AndWord + b + OrWord + c) == Ok(Some(BoolToDncl(x && (y || z))))
  {
    AtomLogic(AsWritten, store, a);
    OrOf(AsWritten, store, b, c, y, z);
    MixedPieces(a, b, c);
    AndStep(AsWritten, store, a + AndWord + b + OrWord + c, |a|, a, b + OrWord + c, x, y || z);
  }

  /** Corrected, `a かつ b または c` is `(a and b) or c`: かつ binds
      tighter, as the program's own comment on its search order says. */
  lemma MixedIntended(store: Store, a: string, b: string, c: string, x: bool, y: bool, z: bool)
    requires Atom(a) && Atom(b) && Atom(c)
    requires Leaf(Intended, store, a) == Ok(Some(BoolToDncl(x)))
    requires Leaf(Intended, store, b) == Ok(Some(BoolToDncl(y)))
    requires Leaf(Intended, store, c) == Ok(Some(BoolToDncl(z)))
    ensures LogicOperation(Intended, store, a + AndWord + b + OrWord + c) == Ok(Some(BoolToDncl((x && y) || z)))
  {
    AndOf(Intended, store, a, b, x, y);
    AtomLogic(Intended, store, c);
    MixedPieces(a, b, c);
    OrStep(Intended, store, a + AndWord + b + OrWord + c, |a + AndWord + b|, a + AndWord + b, c, x && y, z);
  }

  // ---------------------------------------------------------------------
  // Groups

  /** The scan passes over characters that are not parentheses. */
  lemma {:induction false} ScanSkips(expr: string, i: nat, j: nat, open: seq<nat>)
    requires i <= j <= |expr|
    requires forall m :: i <= m < j ==> expr[m] != '（' && expr[m] != '）'
    requires forall m :: 0 <= m < |open| ==> open[m] < i && expr[open[m]] == '（'
    ensures ScanGroup(expr, i, open) == ScanGroup(expr, j, open)
    decreases j - i
  {
    if i < j {
      ScanSkips(expr, i + 1, j, open);
    }
  }

  /** The '（' at `f` is closed at `e`: the depth counted from it first
      falls back to zero with the '）' at `e`. */
  predicate Closes(expr: string, f: nat, e: nat)
    requires f <= e < |expr|
  {
    Depth(expr[f..e + 1]) == 0 && forall m :: f < m <= e ==> Depth(expr[f..m]) > 0
  }

  /** No '）' after the '（' at `f` closes it. */
  predicate Unclosed(expr: string, f: nat)
    requires f < |expr|
  {
    forall m :: f < m <= |expr| ==> Depth(expr[f..m]) > 0
  }

  /** The scan's stack is the depth counted from its bottom '（', which has
      not been closed since: the scan returns that '（' together with the
      '）' that closes it, and nothing when no '）' does. */
  lemma {:induction false} ScanStacked(expr: string, i: nat, open: seq<nat>)
    requires i <= |expr| && |open| > 0
    requires forall j :: 0 <= j < |open| ==> open[j] < i && expr[open[j]] == '（'
    requires Depth(expr[open[0]..i]) == |open| && forall m :: open[0] < m <= i ==> Depth(expr[open[0]..m]) > 0
    ensures ScanGroup(expr, i, open).Some? ==> Closes(expr, open[0], ScanGroup(expr, i, open).value.1)
    ensures ScanGroup(expr, i, open).None? ==> Unclosed(expr, open[0])
    decreases |expr| - i
  {
    if i < |expr| {
      DepthSnoc(expr, open[0], i);
      if expr[i] == '（' {
        var next := open + [i];
        assert next[0] == open[0];
        ScanStacked(expr, i + 1, next);
      } else if expr[i] == '）' {
        if |open| > 1 {
          var next := open[..|open| - 1];
          assert next[0] == open[0];
          ScanStacked(expr, i + 1, next);
        }
      } else {
        ScanStacked(expr, i + 1, open);
      }
    }
  }

  /** A '（' met with an empty stack is the one whose group the scan
      returns. */
  lemma ScanOpens(expr: string, i: nat)
    requires i < |expr| && expr[i] == '（'
    ensures ScanGroup(expr, i, []).Some? ==> ScanGroup(expr, i, []).value.0 == i && Closes(expr, i, ScanGroup(expr, i, []).value.1)
    ensures ScanGroup(expr, i, []).None? ==> Unclosed(expr, i)
  {
    var open: seq<nat> := [i];
    assert [] + [i] == open;
    assert ScanGroup(expr, i, []) == ScanGroup(expr, i + 1, open);
    var one := expr[i..i + 1];
    assert one == [expr[i]] && one[1..] == [];
    assert Depth(one) == 1;
    ScanStacked(expr, i + 1, open);
  }

  /** With an empty stack the scan waits for the next '（' and then works
      on the group it opens. */
  lemma {:induction false} ScanFromEmpty(expr: string, i: nat)
    requires i <= |expr|
    ensures ScanGroup(expr, i, []).Some? ==>
              && i <= ScanGroup(expr, i, []).value.0
              && (forall m :: i <= m < ScanGroup(expr, i, []).value.0 ==> expr[m] != '（')
              && Closes(expr, ScanGroup(expr, i, []).value.0, ScanGroup(expr, i, []).value.1)
    ensures ScanGroup(expr, i, []).None? ==>
              forall f :: i <= f < |expr| && expr[f] == '（' && (forall m :: i <= m < f ==> expr[m] != '（') ==> Unclosed(expr, f)
    decreases |expr| - i
  {
    if i < |expr| {
      if expr[i] == '（' {
        ScanOpens(expr, i);
      } else {
        assert ScanGroup(expr, i, []) == ScanGroup(expr, i + 1, []);
        ScanFromEmpty(expr, i + 1);
      }
    }
  }

  /** The depth from a '（' is one more than the depth after it. */
  lemma DepthAfterOpen(expr: string, f: nat, m: nat)
    requires f < m <= |expr| && expr[f] == '（'
    ensures Depth(expr[f..m]) == 1 + Depth(expr[f + 1..m])
  {
    assert expr[f..m][1..] == expr[f + 1..m];
  }

  /** `evaluateParentheses` works on the group opened by the first '（'
      and closed by its matching '）', so the interior it hands to
      `logicOperation` is balanced; there is no group exactly when there
      is no '（' or the first one is never closed. */
  lemma ScanGroupFinds(expr: string)
    ensures ScanGroup(expr, 0, []).Some? ==>
              && '（' in expr && ScanGroup(expr, 0, []).value.0 == FirstIndex(expr, '（')
              && Balanced(expr[ScanGroup(expr, 0, []).value.0 + 1..ScanGroup(expr, 0, []).value.1])
    ensures ScanGroup(expr, 0, []).None? <==> '（' !in expr || Unclosed(expr, FirstIndex(expr, '（'))
  {
    ScanFromEmpty(expr, 0);
    match ScanGroup(expr, 0, [])
    case Some((s, e)) =>
      assert expr[s] in expr;
      var k := FirstIndex(expr, '（');
      assert forall m :: 0 <= m < k ==> expr[m] in expr[..k];
      GroupInterior(expr, s, e);
      DepthAfterOpen(expr, s, e + 1);
    case None =>
      if '（' in expr {
        var k := FirstIndex(expr, '（');
        assert forall m :: 0 <= m < k ==> expr[m] in expr[..k];
      }
  }

  /** When both parentheses occur but no '）' closes the first '（', the
      program's grouping loop finds nothing to replace and never ends; the
      model stops with `UnbalancedGroups` at once. */
  lemma UnclosedGroupStops(reading: Reading, store: Store, raw: string)
    requires '（' in raw && '）' in raw && Unclosed(raw, FirstIndex(raw, '（'))
    ensures ResolveGroups(reading, store, raw) == Err(UnbalancedGroups(raw))
  {
    ScanGroupFinds(raw);
  }

  /** The interior of a closed group is balanced. */
  lemma GroupInterior(expr: string, s: nat, e: nat)
    requires s < e < |expr| && expr[s] == '（' && expr[e] == '）' && Closes(expr, s, e)
    ensures Balanced(expr[s + 1..e])
  {
    var inner := expr[s + 1..e];
    DepthAfterOpen(expr, s, e + 1);
    DepthSnoc(expr, s + 1, e);
    forall m | 0 <= m <= |inner|
      ensures Depth(inner[..m]) >= 0
    {
      assert inner[..m] == expr[s + 1..s + 1 + m];
      DepthAfterOpen(expr, s, s + 1 + m);
    }
  }

  /** In `（a）rest` the first group is `（a）`. */
  lemma FirstGroup(a: string, rest: string)
    requires '（' !in a && '）' !in a
    ensures ScanGroup("（" + a + "）" + rest, 0, []) == Some((0, |a| + 1))
  {
    var e := "（" + a + "）" + rest;
    assert e[0] == '（' && e[|a| + 1] == '）';
    assert [] + [0] == [0];
    assert ScanGroup(e, 0, []) == ScanGroup(e, 1, [0]);
    forall m | 1 <= m < |a| + 1
      ensures e[m] != '（' && e[m] != '）'
    {
      assert e[m] == a[m - 1];
    }
    ScanSkips(e, 1, |a| + 1, [0]);
    assert ScanGroup(e, |a| + 1, [0]) == Some((0, |a| + 1));
  }

  /** The text facts of one group replaced: its interior, and what is
      left once the token is put in its place. */
  lemma GroupPieces(a: string, rest: string, t: string)
    requires '（' !in a && '）' !in a && '（' !in rest && (t == TrueText || t == FalseText)
    ensures |t| == 1 && |t + rest| < |"（" + a + "）" + rest| && '（' !in t + rest
    ensures ScanGroup("（" + a + "）" + rest, 0, []) == Some((0, |a| + 1))
    ensures ("（" + a + "）" + rest)[1..|a| + 1] == a
    ensures Replace("（" + a + "）" + rest, 0, |a| + 1, t) == t + rest
    ensures '（' in "（" + a + "）" + rest && '）' in "（" + a + "）" + rest
  {
    var e := "（" + a + "）" + rest;
    FirstGroup(a, rest);
    assert e[0] == '（' && e[|a| + 1] == '）';
    var r := Replace(e, 0, |a| + 1, t);
    assert r == [r[0]] + r[1..];
  }

  /** `evaluateParentheses` replaces exactly the group the scan finds, from
      its '（' to its '）', by the truth token of the group's interior,
      and keeps the text on both sides. */
  lemma GroupReplaced(reading: Reading, store: Store, expr: string, start: nat, end: nat, r: string)
    requires ScanGroup(expr, 0, []) == Some((start, end))
    requires EvaluateParentheses(reading, store, expr) == Ok(r)
    ensures |r| == |expr| - (end - start)
    ensures r[..start] == expr[..start] && r[start + 1..] == expr[end + 1..]
    ensures r[start] == '真' || r[start] == '偽'
    ensures LogicOperation(reading, store, expr[start + 1..end]) == Ok(Some([r[start]]))
  {
    var o := LogicOperation(reading, store, expr[start + 1..end]).value.value;
    assert r == Replace(expr, start, end, o);
    assert o == [o[0]];
  }

  lemma GroupStep(reading: Reading, store: Store, e: string, a: string, t: string, next: string)
    requires ScanGroup(e, 0, []) == Some((0, |a| + 1)) && e[1..|a| + 1] == a && |t| == 1
    requires LogicOperation(reading, store, a) == Ok(Some(t))
    requires Replace(e, 0, |a| + 1, t) == next
    ensures EvaluateParentheses(reading, store, e) == Ok(next)
  {
  }

  /** The grouping loop stops once a round leaves no '（'. */
  lemma GroupsOnce(reading: Reading, store: Store, e: string, next: string)
    requires '（' in e && '）' in e
    requires EvaluateParentheses(reading, store, e) == Ok(next) && |next| < |e| && '（' !in next
    ensures ResolveGroups(reading, store, e) == Ok(next)
  {
    NoGroups(reading, store, next);
  }

  /** The grouping loop on `（a）rest` stops after that one group when
      `rest` has no parenthesis. */
  lemma GroupResolved(reading: Reading, store: Store, a: string, rest: string, t: string)
    requires '（' !in a && '）' !in a && '（' !in rest
    requires LogicOperation(reading, store, a) == Ok(Some(t))
    ensures t == TrueText || t == FalseText
    ensures ResolveGroups(reading, store, "（" + a + "）" + rest) == Ok(t + rest)
  {
    GroupPieces(a, rest, t);
    GroupOnce(reading, store, "（" + a + "）" + rest, a, t, t + rest);
  }

  /** One group whose interior is `a`, replaced, leaves no '（'. */
  lemma GroupOnce(reading: Reading, store: Store, e: string, a: string, t: string, next: string)
    requires ScanGroup(e, 0, []) == Some((0, |a| + 1)) && e[1..|a| + 1] == a && |t| == 1
    requires LogicOperation(reading, store, a) == Ok(Some(t))
    requires Replace(e, 0, |a| + 1, t) == next
    requires '（' in e && '）' in e && |next| < |e| && '（' !in next
    ensures ResolveGroups(reading, store, e) == Ok(next)
  {
    GroupStep(reading, store, e, a, t, next);
    GroupsOnce(reading, store, e, next);
  }

  /** A trailing でない negates the leaf before it. */
  lemma Negated(reading: Reading, store: Store, e: string, g: string, o: Option<string>)
    requires ResolveGroups(reading, store, Strip(e, {' '})) == Ok(g) && EndsWith(g, NotWord)
    requires Leaf(reading, store, g[..|g| - |NotWord|]) == Ok(o)
    ensures LogicOperation(reading, store, e) == Ok(Some(BoolToDncl(!Truthy(o))))
  {
    assert Ungrouped(reading, store, g) == Ok(Some(BoolToDncl(!Truthy(o))));
  }

  lemma NegatedGroupPieces(a: string, t: string)
    requires |t| == 1
    ensures Strip("（" + a + "）" + NotWord, {' '}) == "（" + a + "）" + NotWord
    ensures EndsWith(t + NotWord, NotWord) && (t + NotWord)[..|t + NotWord| - |NotWord|] == t
  {
    var e := "（" + a + "）" + NotWord;
    assert e[0] == '（' && e[|e| - 1] == 'い';
    assert (t + NotWord)[|t|..] == NotWord;
  }

  /** As written, `（a）でない` is 真 whatever `a` is: the group becomes a
      bare truth token, `relationalOperation` finds no comparison glyph in
      it and answers None, and `not None` holds. */
  lemma NegatedGroupAsWritten(store: Store, a: string, t: string)
    requires '（' !in a && '）' !in a
    requires LogicOperation(AsWritten, store, a) == Ok(Some(t))
    ensures LogicOperation(AsWritten, store, "（" + a + "）" + NotWord) == Ok(Some(TrueText))
  {
    TokenLeaf(store, t);
    NegatedGroup(AsWritten, store, a, t, None);
  }

  /** `（a）でない` negates the leaf that the group's token makes. */
  lemma NegatedGroup(reading: Reading, store: Store, a: string, t: string, o: Option<string>)
    requires '（' !in a && '）' !in a
    requires LogicOperation(reading, store, a) == Ok(Some(t))
    requires Leaf(reading, store, t) == Ok(o)
    ensures LogicOperation(reading, store, "（" + a + "）" + NotWord) == Ok(Some(BoolToDncl(!Truthy(o))))
  {
    GroupThenNot(reading, store, a, t);
    Negated(reading, store, "（" + a + "）" + NotWord, t + NotWord, o);
  }

  /** The group of `（a）でない` resolves to its token, followed by でない. */
  lemma GroupThenNot(reading: Reading, store: Store, a: string, t: string)
    requires '（' !in a && '）' !in a
    requires LogicOperation(reading, store, a) == Ok(Some(t))
    ensures ResolveGroups(reading, store, Strip("（" + a + "）" + NotWord, {' '})) == Ok(t + NotWord)
    ensures EndsWith(t + NotWord, NotWord) && (t + NotWord)[..|t + NotWord| - |NotWord|] == t
  {
    NegatedGroupPieces(a, t);
    GroupNotResolved(reading, store, a, t, Strip("（" + a + "）" + NotWord, {' '}));
  }

  lemma GroupNotResolved(reading: Reading, store: Store, a: string, t: string, e: string)
    requires '（' !in a && '）' !in a && e == "（" + a + "）" + NotWord
    requires LogicOperation(reading, store, a) == Ok(Some(t))
    ensures ResolveGroups(reading, store, e) == Ok(t + NotWord)
  {
    GroupResolved(reading, store, a, NotWord, t);
  }

  /** As written, a bare truth token is not a comparison: its leaf is None. */
  lemma TokenLeaf(store: Store, t: string)
    requires t == TrueText || t == FalseText
    ensures Leaf(AsWritten, store, t) == Ok(None)
  {
    TokenHasNoComparator(t);
  }

  lemma NegatedAtomPieces(a: string)
    requires Atom(a)
    ensures Strip(a + NotWord, {' '}) == a + NotWord && '（' !in a + NotWord
    ensures EndsWith(a + NotWord, NotWord) && (a + NotWord)[..|a + NotWord| - |NotWord|] == a
  {
    var e := a + NotWord;
    assert e[0] == a[0] && e[|e| - 1] == 'い';
    assert e[|a|..] == NotWord;
  }

  /** `aでない` is the negation of the comparison `a`, in either reading. */
  lemma NegatedAtom(reading: Reading, store: Store, a: string, x: bool)
    requires Atom(a)
    requires Leaf(reading, store, a) == Ok(Some(BoolToDncl(x)))
    ensures LogicOperation(reading, store, a + NotWord) == Ok(Some(BoolToDncl(!x)))
  {
    NegatedAtomPieces(a);
    NoGroups(reading, store, a + NotWord);
    Negated(reading, store, a + NotWord, a + NotWord, Some(BoolToDncl(x)));
  }

  /** Corrected, `（a）でない` is the negation of `a`. */
  lemma NegatedGroupIntended(store: Store, a: string, t: string)
    requires '（' !in a && '）' !in a
    requires LogicOperation(Intended, store, a) == Ok(Some(t))
    ensures LogicOperation(Intended, store, "（" + a + "）" + NotWord) == Ok(Some(BoolToDncl(!DnclToBool(t))))
  {
    NegatedGroup(Intended, store, a, t, Some(t));
  }

  // ---------------------------------------------------------------------
  // A group joined by かつ

  /** The text facts of `（a）かつb` and of `tかつb`, the text its group
      leaves: nothing to strip, and the token is a comparison-free atom. */
  lemma GroupSideText(a: string, b: string, g: string)
    requires Atom(b) && g == "（" + a + "）" + AndWord + b
    ensures g == "（" + a + "）" + (AndWord + b)
    ensures Strip(g, {' '}) == g && '（' !in AndWord + b
  {
    Regroup("（" + a + "）", AndWord, b);
    EndsUnspaced(g, b);
    NoOpenAfter(b);
  }

  /** A text that starts with '（' and ends as `b` does is already stripped. */
  lemma EndsUnspaced(g: string, b: string)
    requires Atom(b) && |g| >= |b| + 1 && g[0] == '（' && g[|g| - |b|..] == b
    ensures Strip(g, {' '}) == g
  {
    assert g[|g| - 1] == b[|b| - 1];
  }

  lemma NoOpenAfter(b: string)
    requires Atom(b)
    ensures '（' !in AndWord + b
  {
    var w := AndWord + b;
    forall i | 0 <= i < |w|
      ensures w[i] != '（'
    {
      if i >= |AndWord| {
        assert w[i] == b[i - |AndWord|];
      }
    }
  }

  /** A truth token is a comparison-free atom. */
  lemma TokenAtom(t: string)
    requires t == TrueText || t == FalseText
    ensures Atom(t)
  {
  }

  /** The group of `（a）かつb` resolves to `tかつb`, where `t` is the truth
      token of `a`. */
  lemma JoinedResolves(reading: Reading, store: Store, a: string, t: string, b: string, g: string, s: string)
    requires '（' !in a && '）' !in a && Atom(b)
    requires LogicOperation(reading, store, a) == Ok(Some(t))
    requires g == "（" + a + "）" + AndWord + b && s == t + AndWord + b
    ensures t == TrueText || t == FalseText
    ensures Strip(g, {' '}) == g && ResolveGroups(reading, store, g) == Ok(s)
  {
    GroupSideText(a, b, g);
    GroupResolved(reading, store, a, AndWord + b, t);
    Regroup(t, AndWord, b);
  }

  lemma Regroup(x: string, y: string, z: string)
    ensures x + y + z == x + (y + z)
  {
  }

  /** A text whose groups resolve to a bare text is read as that text. */
  lemma SameAfterGroups(reading: Reading, store: Store, g: string, s: string)
    requires Strip(g, {' '}) == g && ResolveGroups(reading, store, g) == Ok(s) && Bare(s)
    ensures LogicOperation(reading, store, g) == LogicOperation(reading, store, s)
  {
    BareFacts(s);
    NoGroups(reading, store, s);
    SameUngrouped(reading, store, g, s);
  }

  lemma SameUngrouped(reading: Reading, store: Store, g: string, s: string)
    requires Strip(g, {' '}) == g && ResolveGroups(reading, store, g) == Ok(s)
    requires Strip(s, {' '}) == s && ResolveGroups(reading, store, s) == Ok(s)
    ensures LogicOperation(reading, store, g) == LogicOperation(reading, store, s)
  {
  }

  /** As written, `tかつb` with a truth token `t` is 偽: the token is no
      comparison, so its side answers None. */
  lemma TokenAndAsWritten(store: Store, t: string, b: string, s: string)
    requires (t == TrueText || t == FalseText) && Atom(b) && s == t + AndWord + b
    ensures Bare(s) && LogicOperation(AsWritten, store, s) == Ok(Some(FalseText))
  {
    TokenAtom(t);
    AndPieces(t, b, AsWritten);
    BareFacts(s);
    LogicSplit(AsWritten, store, s, AndWord, |t|);
    TokenLeft(store, t);
    AndLeftNone(AsWritten, store, s, |t|);
  }

  lemma TokenLeft(store: Store, t: string)
    requires t == TrueText || t == FalseText
    ensures LogicOperation(AsWritten, store, t) == Ok(None)
  {
    TokenAtom(t);
    AtomLogic(AsWritten, store, t);
    TokenLeaf(store, t);
  }

  /** A left side that answers None is falsy, so かつ gives 偽 without
      looking at its right side. */
  lemma AndLeftNone(reading: Reading, store: Store, s: string, k: nat)
    requires k + |AndWord| <= |s|
    requires LogicOperation(reading, store, s[..k]) == Ok(None)
    ensures Junction(reading, store, s, AndWord, k) == Ok(Some(FalseText))
  {
    NoneFalsy();
  }

  lemma NoneFalsy()
    ensures !Truthy(None)
  {
    var o: Option<string> := None;
    assert !o.Some?;
  }

  /** As written, `（a）かつb` is 偽 whatever `a` and `b` are: the group's
      token reaches `relationalOperation`, which answers None, and the
      comparison `b` is never evaluated. */
  lemma JoinedGroupAsWritten(store: Store, a: string, t: string, b: string)
    requires '（' !in a && '）' !in a && Atom(b)
    requires LogicOperation(AsWritten, store, a) == Ok(Some(t))
    ensures LogicOperation(AsWritten, store, "（" + a + "）" + AndWord + b) == Ok(Some(FalseText))
  {
    JoinedResolves(AsWritten, store, a, t, b, "（" + a + "）" + AndWord + b, t + AndWord + b);
    JoinedAsWrittenAt(store, t, b, "（" + a + "）" + AndWord + b, t + AndWord + b);
  }

  lemma JoinedAsWrittenAt(store: Store, t: string, b: string, g: string, s: string)
    requires (t == TrueText || t == FalseText) && Atom(b) && s == t + AndWord + b
    requires Strip(g, {' '}) == g && ResolveGroups(AsWritten, store, g) == Ok(s)
    ensures LogicOperation(AsWritten, store, g) == Ok(Some(FalseText))
  {
    TokenAndAsWritten(store, t, b, s);
    SameAfterGroups(AsWritten, store, g, s);
  }

  /** Corrected, `（a）かつb` is the conjunction of `a` and the comparison
      `b`. */
  lemma JoinedGroupIntended(store: Store, a: string, t: string, b: string, y: bool)
    requires '（' !in a && '）' !in a && Atom(b)
    requires LogicOperation(Intended, store, a) == Ok(Some(t))
    requires Leaf(Intended, store, b) == Ok(Some(BoolToDncl(y)))
    ensures LogicOperation(Intended, store, "（" + a + "）" + AndWord + b) == Ok(Some(BoolToDncl(DnclToBool(t) && y)))
  {
    JoinedResolves(Intended, store, a, t, b, "（" + a + "）" + AndWord + b, t + AndWord + b);
    JoinedIntendedAt(store, t, b, y, "（" + a + "）" + AndWord + b, t + AndWord + b);
  }

  lemma JoinedIntendedAt(store: Store, t: string, b: string, y: bool, g: string, s: string)
    requires (t == TrueText || t == FalseText) && Atom(b) && s == t + AndWord + b
    requires Leaf(Intended, store, b) == Ok(Some(BoolToDncl(y)))
    requires Strip(g, {' '}) == g && ResolveGroups(Intended, store, g) == Ok(s)
    ensures LogicOperation(Intended, store, g) == Ok(Some(BoolToDncl(DnclToBool(t) && y)))
  {
    TokenAndIntended(store, t, b, s, y);
    SameAfterGroups(Intended, store, g, s);
  }

  /** Corrected, `tかつb` with a truth token `t` is `t`'s value and `b`. */
  lemma TokenAndIntended(store: Store, t: string, b: string, s: string, y: bool)
    requires (t == TrueText || t == FalseText) && Atom(b) && s == t + AndWord + b
    requires Leaf(Intended, store, b) == Ok(Some(BoolToDncl(y)))
    ensures Bare(s) && LogicOperation(Intended, store, s) == Ok(Some(BoolToDncl(DnclToBool(t) && y)))
  {
    TokenAtom(t);
    AndPieces(t, b, Intended);
    assert Leaf(Intended, store, t) == Ok(Some(BoolToDncl(DnclToBool(t))));
    AndOf(Intended, store, t, b, DnclToBool(t), y);
  }

  /** A truth token holds no comparison glyph. */
  lemma TokenHasNoComparator(t: string)
    requires t == TrueText || t == FalseText
    ensures !HasComparator(t)
  {
    forall j | 0 <= j < |Comparators|
      ensures Comparators[j] !in t
    {
      assert Comparators[j] in Comparators;
    }
  }

  // ---------------------------------------------------------------------
  // The two findings on concrete input

  lemma SmallTexts()
    ensures "1＞2" == Decimal(1) + ['＞'] + Decimal(2)
    ensures "1＜2" == Decimal(1) + ['＜'] + Decimal(2)
    ensures Atom("1＞2") && Atom("1＜2")
  {
  }

  /** `1＞2` is false, in either reading. */
  lemma OneAboveTwo(reading: Reading, store: Store)
    ensures Leaf(reading, store, "1＞2") == Ok(Some(FalseText))
  {
    SmallTexts();
    DigitComparison(reading, store, 1, '＞', 2);
  }

  /** `1＜2` is true, in either reading. */
  lemma OneBelowTwo(reading: Reading, store: Store)
    ensures Leaf(reading, store, "1＜2") == Ok(Some(TrueText))
  {
    SmallTexts();
    DigitComparison(reading, store, 1, '＜', 2);
  }

  /** `1＞2かつ1＜2または1＜2` is 偽 as written and 真 corrected. */
  lemma PrecedenceCounterexample(store: Store)
    ensures LogicOperation(AsWritten, store, "1＞2かつ1＜2または1＜2") == Ok(Some(FalseText))
    ensures LogicOperation(Intended, store, "1＞2かつ1＜2または1＜2") == Ok(Some(TrueText))
  {
    var a, b := "1＞2", "1＜2";
    SmallTexts();
    assert "1＞2かつ1＜2または1＜2" == a + AndWord + b + OrWord + b;
    OneAboveTwo(AsWritten, store);
    OneBelowTwo(AsWritten, store);
    OneAboveTwo(Intended, store);
    OneBelowTwo(Intended, store);
    MixedAsWritten(store, a, b, b, false, true, true);
    MixedIntended(store, a, b, b, false, true, true);
  }

  /** `（1＜2）でない` is 真 as written and 偽 corrected. */
  lemma GroupCounterexample(store: Store)
    ensures LogicOperation(AsWritten, store, "（1＜2）でない") == Ok(Some(TrueText))
    ensures LogicOperation(Intended, store, "（1＜2）でない") == Ok(Some(FalseText))
  {
    var a := "1＜2";
    SmallTexts();
    assert "（1＜2）でない" == "（" + a + "）" + NotWord;
    OneBelowTwo(AsWritten, store);
    OneBelowTwo(Intended, store);
    AtomLogic(AsWritten, store, a);
    AtomLogic(Intended, store, a);
    NegatedGroupAsWritten(store, a, TrueText);
    NegatedGroupIntended(store, a, TrueText);
  }

  /** `（1＜2）かつ1＜2` is 偽 as written and 真 corrected. */
  lemma JoinedGroupCounterexample(store: Store)
    ensures LogicOperation(AsWritten, store, "（1＜2）かつ1＜2") == Ok(Some(FalseText))
    ensures LogicOperation(Intended, store, "（1＜2）かつ1＜2") == Ok(Some(TrueText))
  {
    var a := "1＜2";
    SmallTexts();
    assert "（1＜2）かつ1＜2" == "（" + a + "）" + AndWord + a;
    OneBelowTwo(AsWritten, store);
    OneBelowTwo(Intended, store);
    AtomLogic(AsWritten, store, a);
    AtomLogic(Intended, store, a);
    JoinedGroupAsWritten(store, a, TrueText, a);
    JoinedGroupIntended(store, a, TrueText, a, true);
  }
}

=== FILE: relation_facts.dfy ===
/** What `relationalOperation` makes of a comparison `x glyph y`: the
    relation the glyph names between the two resolved operands, the same
    whichever side is written first, with anything after a second glyph
    ignored. */
module RelationFacts {
  import opened Wrappers
  import opened Text
  import opened TextFacts
  import opened Values
  import opened Compiler
  import opened CompilerFacts

  /** The relation each glyph names, on real numbers. */
  function RealRelation(glyph: char, x: real, y: real): bool
    requires glyph in Comparators
  {
    if glyph == '＞' then x > y
    else if glyph == '＜' then x < y
    else if glyph == '＝' then x == y
    else if glyph == '≠' then x != y
    else if glyph == '≧' then x >= y
    else x <= y
  }

  /** The glyph that states the same relation with its operands swapped. */
  function Converse(glyph: char): (c: char)
    ensures glyph in Comparators ==> c in Comparators
  {
    if glyph == '＞' then '＜'
    else if glyph == '＜' then '＞'
    else if glyph == '≧' then '≦'
    else if glyph == '≦' then '≧'
    else glyph
  }

  /** On numbers, every glyph is its relation between the numbers' values. */
  lemma HoldsOnNumbers(glyph: char, a: Value, b: Value)
    requires glyph in Comparators && a.IsNumber() && b.IsNumber()
    ensures Holds(glyph, a, b) == Ok(RealRelation(glyph, a.AsReal(), b.AsReal()))
  {
    assert Compare(a, b) == Ok(CompareReal(a.AsReal(), b.AsReal()));
  }

  /** `a ＞ b` is `b ＜ a`, `a ≧ b` is `b ≦ a`, and `＝`, `≠` are
      symmetric; a pair that cannot be ordered fails either way. */
  lemma HoldsMirror(glyph: char, a: Value, b: Value)
    requires glyph in Comparators
    ensures Holds(Converse(glyph), b, a) == Holds(glyph, a, b)
  {
    CompareFlip(a, b);
    CompareFailsAlike(a, b);
    CompareFailsAlike(b, a);
    EqualSymmetric(a, b);
    if glyph != '＝' && glyph != '≠' && Compare(a, b).Ok? {
      var o := Compare(a, b).value;
      assert Compare(b, a) == Ok(o.Flip());
      assert (o.Flip() == Less <==> o == Greater) && (o.Flip() == Greater <==> o == Less);
    }
  }

  /** An operand text with no comparison glyph in it. */
  predicate Operand(x: string)
  {
    forall i :: 0 <= i < |x| ==> x[i] !in Comparators
  }

  /** In `x glyph y` the glyph is the one `relationalOperation` finds, and
      the split gives the two operands. */
  lemma ComparisonPieces(x: string, glyph: char, y: string)
    requires glyph in Comparators && Operand(x) && Operand(y)
    ensures FirstPresent(x + [glyph] + y, Comparators).Some?
    ensures Comparators[FirstPresent(x + [glyph] + y, Comparators).value] == glyph
    ensures Split(x + [glyph] + y, glyph) == [x, y]
  {
    var s := x + [glyph] + y;
    assert s[|x|] == glyph;
    var k := FirstPresent(s, Comparators);
    var j :| 0 <= j < |Comparators| && Comparators[j] == glyph;
    assert Comparators[j] in s;
    forall i | 0 <= i < |s|
      ensures s[i] in Comparators ==> s[i] == glyph
    {
      if i < |x| {
        assert s[i] == x[i];
      } else if i > |x| {
        assert s[i] == y[i - |x| - 1];
      }
    }
    var i :| 0 <= i < |s| && s[i] == Comparators[k.value];
    SplitPair(x, y, glyph);
  }

  /** A comparison whose operands resolve and whose relation holds or
      fails is the truth token of that relation. */
  lemma ComparisonValue(reading: Reading, store: Store, x: string, glyph: char, y: string, a: Value, b: Value, h: bool)
    requires glyph in Comparators && Operand(x) && Operand(y)
    requires UnderStanding(reading, store, x) == Ok(a) && UnderStanding(reading, store, y) == Ok(b)
    requires Holds(glyph, a, b) == Ok(h)
    ensures RelationalOperation(reading, store, x + [glyph] + y) == Ok(Some(BoolToDncl(h)))
  {
    ComparisonPieces(x, glyph, y);
  }

  /** Operands that cannot be ordered (a number against a text, say) make
      an ordering glyph fail. */
  lemma ComparisonFails(reading: Reading, store: Store, x: string, glyph: char, y: string, a: Value, b: Value)
    requires glyph in Comparators && Operand(x) && Operand(y)
    requires UnderStanding(reading, store, x) == Ok(a) && UnderStanding(reading, store, y) == Ok(b)
    requires Holds(glyph, a, b).Err?
    ensures RelationalOperation(reading, store, x + [glyph] + y) == Err(Holds(glyph, a, b).error)
  {
    ComparisonPieces(x, glyph, y);
  }

  /** Comparing two decimal literals is comparing the numbers they spell. */
  lemma DigitComparison(reading: Reading, store: Store, m: nat, glyph: char, n: nat)
    requires glyph in Comparators
    ensures RelationalOperation(reading, store, Decimal(m) + [glyph] + Decimal(n))
         == Ok(Some(BoolToDncl(RealRelation(glyph, m as real, n as real))))
  {
    DecimalOperand(reading, store, m);
    DecimalOperand(reading, store, n);
    HoldsOnNumbers(glyph, Int(m), Int(n));
    ComparisonValue(reading, store, Decimal(m), glyph, Decimal(n), Int(m), Int(n), RealRelation(glyph, m as real, n as real));
  }

  /** A decimal literal is an operand that resolves to its number. */
  lemma DecimalOperand(reading: Reading, store: Store, n: nat)
    ensures Operand(Decimal(n))
    ensures UnderStanding(reading, store, Decimal(n)) == Ok(Int(n))
  {
    DigitsSimple(Decimal(n));
    DigitsOperand(reading, store, Decimal(n));
    DecimalValue(n);
  }

  /** When neither operand holds a comparison glyph and both resolve,
      writing them the other way round, with the converse glyph, gives
      the same answer, ordering failures included. */
  lemma RelationMirror(reading: Reading, store: Store, x: string, glyph: char, y: string, a: Value, b: Value)
    requires glyph in Comparators && Operand(x) && Operand(y)
    requires UnderStanding(reading, store, x) == Ok(a) && UnderStanding(reading, store, y) == Ok(b)
    ensures RelationalOperation(reading, store, y + [Converse(glyph)] + x) == RelationalOperation(reading, store, x + [glyph] + y)
  {
    HoldsMirror(glyph, a, b);
    match Holds(glyph, a, b)
    case Ok(h) =>
      ComparisonValue(reading, store, x, glyph, y, a, b, h);
      ComparisonValue(reading, store, y, Converse(glyph), x, b, a, h);
    case Err(_) =>
      ComparisonFails(reading, store, x, glyph, y, a, b);
      ComparisonFails(reading, store, y, Converse(glyph), x, b, a);
  }

  /** Which glyph is found depends only on which glyphs occur. */
  lemma {:induction false} FirstPresentSame(s: string, t: string, gs: seq<char>)
    requires forall i :: 0 <= i < |gs| ==> (gs[i] in s <==> gs[i] in t)
    ensures FirstPresent(s, gs) == FirstPresent(t, gs)
  {
    if |gs| > 0 {
      FirstPresentSame(s, t, gs[1..]);
    }
  }

  /** `relationalOperation` compares the first two pieces around the glyph
      it finds. */
  lemma FirstTwoPieces(reading: Reading, store: Store, s: string, k: nat, x: string, y: string)
    requires FirstPresent(s, Comparators) == Some(k)
    requires |Split(s, Comparators[k])| >= 2
    requires Split(s, Comparators[k])[0] == x && Split(s, Comparators[k])[1] == y
    ensures |x| < |s| && |y| < |s|
    ensures RelationalOperation(reading, store, s) == Compared(reading, store, Comparators[k], x, y, |s|)
  {
  }

  /** `x glyph y glyph z` compares `x` with `y` only: the program reads
      the first two pieces of the split and drops the rest, so a chain
      like `1＜2＜0` is not a chained comparison. */
  lemma ThirdPieceIgnored(reading: Reading, store: Store, x: string, glyph: char, y: string, z: string)
    requires glyph in Comparators && Operand(x) && Operand(y) && Operand(z)
    ensures RelationalOperation(reading, store, x + [glyph] + y + [glyph] + z)
         == RelationalOperation(reading, store, x + [glyph] + y)
  {
    var long := x + [glyph] + y + [glyph] + z;
    var short := x + [glyph] + y;
    ComparisonPieces(x, glyph, y);
    SameGlyphs(x, glyph, y, z);
    FirstPresentSame(long, short, Comparators);
    SplitThree(x, glyph, y, z);
    var k := FirstPresent(short, Comparators).value;
    FirstTwoPieces(reading, store, long, k, x, y);
    FirstTwoPieces(reading, store, short, k, x, y);
  }

  lemma SameGlyphs(x: string, glyph: char, y: string, z: string)
    requires Operand(z)
    ensures forall i :: 0 <= i < |Comparators| ==>
      (Comparators[i] in x + [glyph] + y + [glyph] + z <==> Comparators[i] in x + [glyph] + y)
  {
    var long := x + [glyph] + y + [glyph] + z;
    var short := x + [glyph] + y;
    assert long == short + [glyph] + z;
    forall j | 0 <= j < |long|
      ensures long[j] in Comparators ==> long[j] in short
    {
      if j < |short| {
        assert long[j] == short[j];
      } else if j == |short| {
        assert long[j] == glyph == short[|x|];
      } else {
        assert long[j] == z[j - |short| - 1];
      }
    }
    forall i | 0 <= i < |Comparators|
      ensures Comparators[i] in long <==> Comparators[i] in short
    {
      if Comparators[i] in long {
        var j :| 0 <= j < |long| && long[j] == Comparators[i];
      }
      if Comparators[i] in short {
        var j :| 0 <= j < |short| && short[j] == Comparators[i];
        assert long[j] == short[j];
      }
    }
  }

  lemma SplitThree(x: string, glyph: char, y: string, z: string)
    requires glyph !in x && glyph !in y && glyph !in z
    ensures Split(x + [glyph] + y + [glyph] + z, glyph) == [x, y, z]
  {
    assert Join([y, z], glyph) == y + [glyph] + z;
    assert Join([x, y, z], glyph) == x + [glyph] + y + [glyph] + z;
    SplitJoin([x, y, z], glyph);
  }

  /** Every ordering failure is Python's TypeError. */
  lemma {:induction false} CompareFailsAlike(a: Value, b: Value)
    ensures Compare(a, b).Err? ==> Compare(a, b) == Err(TypeMismatch)
  {
    if a.Arr? && b.Arr? && !(a.IsNumber() && b.IsNumber()) {
      var k := FirstDifference(a.items, b.items);
      if k < |a.items| && k < |b.items| {
        CompareFailsAlike(a.items[k], b.items[k]);
      }
    }
  }
}

=== FILE: script.dfy ===
/** The statement layer of `compileScript`: the line is read by a cascade
    of patterns (print, assignment, increase, decrease), the statement is
    run against the variable store, and printing appends the printed value
    to an output trace. A script runs line by line until a line fails. */
module Script {
  import opened Wrappers
  import opened Text
  import opened Values
  import opened Compiler
  import Calc

  const PrintWord: string := "を表示する"
  const IncreaseWord: string := "増やす"
  const DecreaseWord: string := "減らす"
  const Arrow: char := '←'
  const Object: char := 'を'

  /** The characters at which Python's `str.splitlines` ends a line. */
  const LineBreaks: set<char> := {'\n', '\r', '\U{000B}', '\U{000C}', '\U{001C}', '\U{001D}', '\U{001E}', '\U{0085}', '\U{2028}', '\U{2029}'}

  /** A line as the pattern cascade reads it. */
  datatype Statement =
    | Print(operand: string)
    | Assign(name: string, raw: string)
    | Increase(name: string, amount: string)
    | Decrease(name: string, amount: string)
    | Skip

  /** `re.match("(.*)を(.*)" + word, line)`: both groups are greedy, so the
      amount ends at the last `word` and the name ends at the last 'を'
      before it. */
  function StepPattern(line: string, word: string): (r: Option<(string, string)>)
    requires |word| > 0
    ensures r.Some? ==> |r.value.0| + 1 + |r.value.1| + |word| <= |line|
    ensures r.Some? ==> line[..|r.value.0|] == r.value.0 && line[|r.value.0|] == Object
    ensures r.Some? ==> line[|r.value.0| + 1..|r.value.0| + 1 + |r.value.1|] == r.value.1
    ensures r.Some? ==> OccursAt(line, word, |r.value.0| + 1 + |r.value.1|)
    ensures r.Some? ==> Object !in r.value.1
    ensures r.None? ==> FindLast(line, word).None? || Object !in line[..FindLast(line, word).value]
  {
    match FindLast(line, word)
    case None => None
    case Some(q) =>
      if Object in line[..q] then
        var p := LastIndex(line[..q], Object);
        assert line[p + 1..q] == line[..q][p + 1..];
        Some((line[..p], line[p + 1..q]))
      else None
  }

  /** The pattern cascade of `compileScript`: print is tried first, then
      assignment at the last '←', then increase, then decrease; any other
      line does nothing. */
  function Parse(line: string): (st: Statement)
    ensures st.Print? <==> FindLast(line, PrintWord).Some?
    ensures st.Assign? <==> FindLast(line, PrintWord).None? && Arrow in line
    ensures st.Increase? <==> FindLast(line, PrintWord).None? && Arrow !in line && StepPattern(line, IncreaseWord).Some?
    ensures st.Decrease? <==>
              && FindLast(line, PrintWord).None? && Arrow !in line
              && StepPattern(line, IncreaseWord).None? && StepPattern(line, DecreaseWord).Some?
    ensures st.Skip? <==>
              && FindLast(line, PrintWord).None? && Arrow !in line
              && StepPattern(line, IncreaseWord).None? && StepPattern(line, DecreaseWord).None?
    ensures st.Print? ==> st.operand == line[..FindLast(line, PrintWord).value]
    ensures st.Increase? ==> (st.name, st.amount) == StepPattern(line, IncreaseWord).value
    ensures st.Decrease? ==> (st.name, st.amount) == StepPattern(line, DecreaseWord).value
  {
    match FindLast(line, PrintWord)
    case Some(k) => Print(line[..k])
    case None =>
      if Arrow in line then
        var k := LastIndex(line, Arrow);
        Assign(line[..k], line[k + 1..])
      else
        match StepPattern(line, IncreaseWord)
        case Some((name, amount)) => Increase(name, amount)
        case None =>
          match StepPattern(line, DecreaseWord)
          case Some((name, amount)) => Decrease(name, amount)
          case None => Skip
  }

  /** `assignment(name, raw)`: the stripped `raw` is resolved first and the
      store is written last, under the stripped name. */
  function Assignment(reading: Reading, store: Store, name: string, raw: string): Result<Store>
  {
    Write(store, Strip(name, {' '}), UnderStanding(reading, store, Strip(raw, {' '})))
  }

  /** Writes `value` under `key` once it has been computed; a failure to
      compute it leaves the store unwritten and is passed on. */
  function Write(store: Store, key: string, value: Result<Value>): (r: Result<Store>)
    ensures r.Ok? <==> value.Ok?
    ensures r.Err? ==> r.error == value.error
    ensures r.Ok? ==> r.value.Keys == store.Keys + {key} && r.value[key] == value.value
    ensures r.Ok? ==> forall k :: k in store && k != key ==> r.value[k] == store[k]
  {
    var v :- value;
    Ok(store[key := v])
  }

  /** The formula evaluator's `＋` and `－` on two numbers: computed in
      reals, an integral result becoming an int. */
  function Arith(a: Value, b: Value, op: char): (r: Result<Value>)
    requires op == '＋' || op == '－'
    ensures r.Ok? <==> a.IsNumber() && b.IsNumber()
    ensures r.Ok? && op == '＋' ==> r.value.IsNumber() && r.value.AsReal() == a.AsReal() + b.AsReal()
    ensures r.Ok? && op == '－' ==> r.value.IsNumber() && r.value.AsReal() == a.AsReal() - b.AsReal()
    ensures r.Ok? && op == '＋' ==> (r.value.Int? <==> Calc.Integral(a.AsReal() + b.AsReal()))
    ensures r.Ok? && op == '－' ==> (r.value.Int? <==> Calc.Integral(a.AsReal() - b.AsReal()))
  {
    if a.IsNumber() && b.IsNumber() then
      Ok(Calc.Normalize(if op == '＋' then a.AsReal() + b.AsReal() else a.AsReal() - b.AsReal()))
    else Err(TypeMismatch)
  }

  /** `assignment(name, f"{name}＋{amount}")` for an increase, with '－'
      for a decrease. As written the name itself goes into the formula,
      whose evaluator knows no variables; the corrected reading puts the
      variable's current value there instead. */
  function Shift(reading: Reading, store: Store, name: string, amount: string, op: char): (r: Result<Store>)
    requires op == '＋' || op == '－'
    ensures reading == AsWritten ==> r == Assignment(reading, store, name, name + [op] + amount)
    ensures r.Ok? ==> r.value.Keys == store.Keys + {Strip(name, {' '})}
    ensures r.Ok? ==> forall k :: k in store && k != Strip(name, {' '}) ==> r.value[k] == store[k]
  {
    if reading == AsWritten then Assignment(reading, store, name, name + [op] + amount)
    else
      var key := Strip(name, {' '});
      if key !in store then Err(UndefinedVariable(key))
      else
        var delta :- UnderStanding(reading, store, Strip(amount, {' '}));
        var v :- Arith(store[key], delta, op);
        Ok(store[key := v])
  }

  /** The interpreter's state: the variable store and what has been printed. */
  datatype Machine = Machine(store: Store, output: seq<Value>)

  /** One statement. Increase and decrease are `Shift`s. */
  function Exec(reading: Reading, m: Machine, st: Statement): (r: Result<Machine>)
    ensures r.Ok? && st.Print? ==> r.value.store == m.store && |r.value.output| == |m.output| + 1
    ensures r.Ok? && st.Print? ==> r.value.output[..|m.output|] == m.output
    ensures r.Ok? && !st.Print? ==> r.value.output == m.output
    ensures r.Ok? ==> Extends(m.output, r.value.output)
    ensures st.Skip? ==> r == Ok(m)
  {
    match st
    case Print(operand) =>
      var v :- UnderStanding(reading, m.store, operand);
      Ok(m.(output := m.output + [v]))
    case Assign(name, raw) =>
      var store :- Assignment(reading, m.store, name, raw);
      Ok(m.(store := store))
    case Increase(name, amount) =>
      var store :- Shift(reading, m.store, name, amount, '＋');
      Ok(m.(store := store))
    case Decrease(name, amount) =>
      var store :- Shift(reading, m.store, name, amount, '－');
      Ok(m.(store := store))
    case Skip => Ok(m)
  }

  /** How a script run ends: after its last line, or at the first line
      that fails, with the state from before that line. */
  datatype Outcome = Done(machine: Machine) | Failed(machine: Machine, error: Error)

  /** `b` starts with `a`. */
  predicate Extends(a: seq<Value>, b: seq<Value>)
  {
    |a| <= |b| && b[..|a|] == a
  }

  lemma ExtendsTransitive(a: seq<Value>, b: seq<Value>, c: seq<Value>)
    requires Extends(a, b) && Extends(b, c)
    ensures Extends(a, c)
  {
    assert c[..|a|] == c[..|b|][..|a|];
  }

  /** One line of the script: read, then run. */
  function ExecLine(reading: Reading, m: Machine, line: string): (r: Result<Machine>)
    ensures r.Ok? ==> Extends(m.output, r.value.output)
  {
    Exec(reading, m, Parse(line))
  }

  /** The loop of `compileScript` over its lines. */
  function Run(reading: Reading, m: Machine, lines: seq<string>): (o: Outcome)
    ensures Extends(m.output, o.machine.output)
    ensures |lines| == 0 ==> o == Done(m)
    decreases |lines|
  {
    if |lines| == 0 then Done(m)
    else
      match ExecLine(reading, m, lines[0])
      case Err(e) => Failed(m, e)
      case Ok(next) =>
        var o := Run(reading, next, lines[1..]);
        ExtendsTransitive(m.output, next.output, o.machine.output);
        o
  }

  /** The position of the first line break in `s`. */
  function FirstBreak(s: string): (k: Option<nat>)
    ensures k.Some? ==> k.value < |s| && s[k.value] in LineBreaks
    ensures k.Some? ==> forall i :: 0 <= i < k.value ==> s[i] !in LineBreaks
    ensures k.None? ==> forall i :: 0 <= i < |s| ==> s[i] !in LineBreaks
  {
    if |s| == 0 then None
    else if s[0] in LineBreaks then Some(0)
    else
      match FirstBreak(s[1..])
      case None => None
      case Some(k) => Some(k + 1)
  }

  /** Python's `str.splitlines()`: "\r\n" is one break, and a break at the
      very end does not start another line. */
  function SplitLines(s: string): (lines: seq<string>)
    ensures forall l :: l in lines ==> forall i :: 0 <= i < |l| ==> l[i] !in LineBreaks
    ensures |s| == 0 <==> |lines| == 0
    decreases |s|
  {
    if |s| == 0 then []
    else
      match FirstBreak(s)
      case None => [s]
      case Some(k) =>
        var width := if s[k] == '\r' && k + 1 < |s| && s[k + 1] == '\n' then 2 else 1;
        [s[..k]] + SplitLines(s[k + width..])
  }

  /** `compileScript(script)` against the store and trace `m` (the program
      keeps its store in a module-level dictionary). */
  function CompileScript(reading: Reading, m: Machine, script: string): (o: Outcome)
    ensures Extends(m.output, o.machine.output)
  {
    Run(reading, m, SplitLines(script))
  }
}

=== FILE: script_facts.dfy ===
/** What the statement layer does with the lines a program writes: which
    statement each line is, what it does to the store and the printed
    trace, how a script is cut into lines, and the increase and decrease
    statements as written and as corrected. */
module ScriptFacts {
  import opened Wrappers
  import opened Text
  import opened TextFacts
  import opened Values
  import opened Compiler
  import opened CompilerFacts
  import opened Script
  import Calc
  import CalcFacts

  /** A variable name as a program writes it: a simple part that starts
      with a character the formula evaluator does not know, and holds no
      character the line patterns look for. */
  predicate Identifier(name: string)
  {
    && Simple(name) && CalcFacts.Foreign(name[0]) && name[0] !in Numerals
    && forall i :: 0 <= i < |name| ==> name[i] !in {'を', '←', '表', '増', '減', 'か', 'ま', 'で'} && name[i] !in LineBreaks
  }

  /** A line with no break in it. */
  predicate Unbroken(l: string)
  {
    forall i :: 0 <= i < |l| ==> l[i] !in LineBreaks
  }

  // ---------------------------------------------------------------------
  // Reading a line

  /** A word whose first character is missing does not occur. */
  lemma Missing(s: string, w: string, i: nat)
    requires i < |w| && w[i] !in s
    ensures FindLast(s, w) == None
  {
    forall j: nat
      ensures !OccursAt(s, w, j)
    {
      if j + |w| <= |s| {
        assert s[j..j + |w|][i] == s[j + i];
      }
    }
  }

  /** A word at the very end is the last occurrence. */
  lemma AtEnd(x: string, w: string)
    ensures FindLast(x + w, w) == Some(|x|)
  {
    assert (x + w)[|x|..|x| + |w|] == w;
    assert OccursAt(x + w, w, |x|);
  }

  /** `xを表示する` prints `x`, whatever `x` is. */
  lemma PrintLine(x: string)
    ensures Parse(x + PrintWord) == Print(x)
  {
    AtEnd(x, PrintWord);
    assert (x + PrintWord)[..|x|] == x;
  }

  /** `name←raw` assigns `raw` to `name` when neither holds 'を' and the
      arrow is the only one. */
  lemma AssignLine(name: string, raw: string)
    requires 'を' !in name && 'を' !in raw && Arrow !in name && Arrow !in raw
    ensures Parse(name + [Arrow] + raw) == Assign(name, raw)
  {
    var line := name + [Arrow] + raw;
    Missing(line, PrintWord, 0);
    assert line[..|name|] == name && line[|name| + 1..] == raw;
    var k := LastIndex(line, Arrow);
    forall i | k < i < |line|
      ensures line[i] != Arrow
    {
      assert line[i] == line[k + 1..][i - k - 1];
    }
    forall i | 0 <= i < |line| && i != |name|
      ensures line[i] != Arrow
    {
      if i < |name| {
        assert line[i] == name[i];
      } else {
        assert line[i] == raw[i - |name| - 1];
      }
    }
    assert line[|name|] == Arrow;
  }

  /** `(.*)を(.*)word` on `nameをamountword`: the amount holds no 'を', so
      the name is everything before the last one. */
  lemma StepLine(name: string, amount: string, word: string)
    requires 'を' !in amount && |word| > 0
    ensures StepPattern(name + [Object] + amount + word, word) == Some((name, amount))
  {
    var line := name + [Object] + amount + word;
    var body := name + [Object] + amount;
    AtEnd(body, word);
    assert line[..|body|] == body;
    assert body[|name|] == Object;
    var p := LastIndex(body, Object);
    forall i | p < i < |body|
      ensures body[i] != Object
    {
      assert body[i] == body[p + 1..][i - p - 1];
    }
    forall i | |name| < i < |body|
      ensures body[i] != Object
    {
      assert body[i] == amount[i - |name| - 1];
    }
    assert body[..p] == name && body[p + 1..] == amount;
    assert line[..p] == name && line[p + 1..|body|] == amount;
  }

  /** The text facts of a step line. */
  lemma StepLineChars(name: string, amount: string, word: string)
    requires Identifier(name) && AllDigits(amount) && (word == IncreaseWord || word == DecreaseWord)
    ensures '表' !in name + [Object] + amount + word
    ensures Arrow !in name + [Object] + amount + word
    ensures word == DecreaseWord ==> '増' !in name + [Object] + amount + word
    ensures 'を' !in amount
  {
    forall i | 0 <= i < |name|
      ensures name[i] != '表' && name[i] != Arrow && name[i] != '増'
    {
      assert name[i] !in {'を', '←', '表', '増', '減', 'か', 'ま', 'で'};
    }
    forall i | 0 <= i < |amount|
      ensures amount[i] != '表' && amount[i] != Arrow && amount[i] != '増' && amount[i] != 'を'
    {
      assert IsDigit(amount[i]);
    }
  }

  /** `nameをamount増やす` is an increase. */
  lemma IncreaseLine(name: string, amount: string)
    requires Identifier(name) && AllDigits(amount)
    ensures Parse(name + [Object] + amount + IncreaseWord) == Increase(name, amount)
  {
    var line := name + [Object] + amount + IncreaseWord;
    StepLineChars(name, amount, IncreaseWord);
    Missing(line, PrintWord, 1);
    StepLine(name, amount, IncreaseWord);
  }

  /** `nameをamount減らす` is a decrease. */
  lemma DecreaseLine(name: string, amount: string)
    requires Identifier(name) && AllDigits(amount)
    ensures Parse(name + [Object] + amount + DecreaseWord) == Decrease(name, amount)
  {
    var line := name + [Object] + amount + DecreaseWord;
    StepLineChars(name, amount, DecreaseWord);
    Missing(line, PrintWord, 1);
    Missing(line, IncreaseWord, 0);
    StepLine(name, amount, DecreaseWord);
  }

  // ---------------------------------------------------------------------
  // Running a line

  /** Printing appends the operand's value to the trace and changes
      nothing else. */
  lemma PrintShows(reading: Reading, m: Machine, x: string, v: Value)
    requires UnderStanding(reading, m.store, x) == Ok(v)
    ensures ExecLine(reading, m, x + PrintWord) == Ok(Machine(m.store, m.output + [v]))
  {
    PrintLine(x);
    PrintExec(reading, m, x + PrintWord, x, v);
  }

  lemma PrintExec(reading: Reading, m: Machine, line: string, x: string, v: Value)
    requires Parse(line) == Print(x)
    requires UnderStanding(reading, m.store, x) == Ok(v)
    ensures ExecLine(reading, m, line) == Ok(Machine(m.store, m.output + [v]))
  {
  }

  /** Assigning stores the value of the right side under the stripped
      name and prints nothing. */
  lemma AssignStores(reading: Reading, m: Machine, name: string, raw: string, v: Value)
    requires 'を' !in name && 'を' !in raw && Arrow !in name && Arrow !in raw
    requires UnderStanding(reading, m.store, Strip(raw, {' '})) == Ok(v)
    ensures ExecLine(reading, m, name + [Arrow] + raw) == Ok(Machine(m.store[Strip(name, {' '}) := v], m.output))
  {
    AssignLine(name, raw);
    AssignExec(reading, m, name + [Arrow] + raw, name, raw, v);
  }

  lemma AssignExec(reading: Reading, m: Machine, line: string, name: string, raw: string, v: Value)
    requires Parse(line) == Assign(name, raw)
    requires UnderStanding(reading, m.store, Strip(raw, {' '})) == Ok(v)
    ensures ExecLine(reading, m, line) == Ok(Machine(m.store[Strip(name, {' '}) := v], m.output))
  {
  }

  lemma IdentifierChars(name: string)
    requires Identifier(name)
    ensures 'を' !in name && Arrow !in name && Strip(name, {' '}) == name
    ensures Unbroken(name)
    ensures Simple(name) && !IsDigit(name[0]) && name[0] !in Numerals && name[|name| - 1] != ']'
  {
    assert NameChar(name[0]) && NameChar(name[|name| - 1]);
    forall i | 0 <= i < |name|
      ensures name[i] != 'を' && name[i] != Arrow
    {
      assert name[i] !in {'を', '←', '表', '増', '減', 'か', 'ま', 'で'};
    }
  }

  /** Two lines that both run go from the first state to the last. */
  lemma RunTwo(reading: Reading, m: Machine, a: string, b: string, m1: Machine, m2: Machine)
    requires ExecLine(reading, m, a) == Ok(m1) && ExecLine(reading, m1, b) == Ok(m2)
    ensures Run(reading, m, [a, b]) == Done(m2)
  {
    assert [a, b][1..] == [b] && [b][1..] == [];
  }

  /** The value assigned to a name is the value that printing the name
      shows. */
  lemma AssignThenPrint(reading: Reading, m: Machine, name: string, raw: string, v: Value)
    requires Identifier(name) && 'を' !in raw && Arrow !in raw
    requires UnderStanding(reading, m.store, Strip(raw, {' '})) == Ok(v)
    ensures Run(reading, m, [name + [Arrow] + raw, name + PrintWord])
         == Done(Machine(m.store[name := v], m.output + [v]))
  {
    IdentifierChars(name);
    VariableOperand(reading, m.store[name := v], name);
    AssignPrintSteps(reading, m, name, raw, v);
  }

  lemma AssignPrintSteps(reading: Reading, m: Machine, name: string, raw: string, v: Value)
    requires 'を' !in name && Arrow !in name && Strip(name, {' '}) == name
    requires 'を' !in raw && Arrow !in raw
    requires UnderStanding(reading, m.store, Strip(raw, {' '})) == Ok(v)
    requires UnderStanding(reading, m.store[name := v], name) == Ok(v)
    ensures Run(reading, m, [name + [Arrow] + raw, name + PrintWord])
         == Done(Machine(m.store[name := v], m.output + [v]))
  {
    var m1 := Machine(m.store[name := v], m.output);
    AssignStores(reading, m, name, raw, v);
    PrintShows(reading, m1, name, v);
    RunTwo(reading, m, name + [Arrow] + raw, name + PrintWord, m1, Machine(m1.store, m.output + [v]));
  }

  // ---------------------------------------------------------------------
  // Increase and decrease

  /** The formula that an increase or decrease hands to `underStanding`
      as written, and why it lands in the formula evaluator. */
  lemma StepFormula(name: string, amount: string, op: char)
    requires Identifier(name) && AllDigits(amount) && (op == '＋' || op == '－')
    ensures Strip(name + [op] + amount, {' '}) == name + [op] + amount
    ensures Split(name + [op] + amount, 'と') == [name + [op] + amount]
    ensures Classify(name + [op] + amount) == FormulaPart
    ensures CalcFacts.Foreign((name + [op] + amount)[0])
  {
    StepFormulaText(name, amount, op);
    FormulaClassify(name + [op] + amount, |name|);
  }

  lemma StepFormulaText(name: string, amount: string, op: char)
    requires Identifier(name) && AllDigits(amount) && (op == '＋' || op == '－')
    ensures Strip(name + [op] + amount, {' '}) == name + [op] + amount
    ensures Split(name + [op] + amount, 'と') == [name + [op] + amount]
    ensures CalcFacts.Foreign((name + [op] + amount)[0])
    ensures (name + [op] + amount)[0] == name[0] && NameChar(name[0])
    ensures (name + [op] + amount)[|name|] == op
    ensures !HasLogicMarker(name + [op] + amount) && !HasComparator(name + [op] + amount)
  {
    FormulaEdges(name, amount, op);
    FormulaChars(name, amount, op);
    FormulaMarks(name + [op] + amount);
  }

  lemma FormulaEdges(name: string, amount: string, op: char)
    requires Identifier(name) && AllDigits(amount) && (op == '＋' || op == '－')
    ensures Strip(name + [op] + amount, {' '}) == name + [op] + amount
    ensures CalcFacts.Foreign((name + [op] + amount)[0])
    ensures (name + [op] + amount)[0] == name[0] && NameChar(name[0])
    ensures (name + [op] + amount)[|name|] == op
  {
    var f := name + [op] + amount;
    assert f[0] == name[0] && f[|f| - 1] == amount[|amount| - 1];
    assert NameChar(name[0]);
    assert IsDigit(amount[|amount| - 1]);
  }

  lemma FormulaMarks(f: string)
    requires forall i :: 0 <= i < |f| ==> f[i] != 'と' && f[i] !in {'か', 'ま', 'で'} && f[i] !in Comparators
    ensures Split(f, 'と') == [f]
    ensures !HasLogicMarker(f) && !HasComparator(f)
  {
    NoMarker(f);
    NoComparator(f);
  }

  /** A part with an arithmetic glyph in it, and none of the marks that
      the earlier branches look for, is a formula. */
  lemma FormulaClassify(f: string, k: nat)
    requires k < |f| && f[k] in {'＋', '－'}
    requires NameChar(f[0]) && !HasLogicMarker(f) && !HasComparator(f)
    ensures Classify(f) == FormulaPart
  {
    assert !IsDigit(f[k]) && f[k] !in Numerals && f[k] in FormulaGlyphs;
  }

  lemma FormulaChars(name: string, amount: string, op: char)
    requires Identifier(name) && AllDigits(amount) && (op == '＋' || op == '－')
    ensures forall i :: 0 <= i < |name + [op] + amount| ==>
      (name + [op] + amount)[i] != 'と' && (name + [op] + amount)[i] !in {'か', 'ま', 'で'} && (name + [op] + amount)[i] !in Comparators
  {
    var f := name + [op] + amount;
    forall i | 0 <= i < |f|
      ensures f[i] != 'と' && f[i] !in {'か', 'ま', 'で'} && f[i] !in Comparators
    {
      if i < |name| {
        assert f[i] == name[i];
        assert name[i] !in {'を', '←', '表', '増', '減', 'か', 'ま', 'で'};
      } else if i > |name| {
        assert f[i] == amount[i - |name| - 1];
        assert IsDigit(amount[i - |name| - 1]);
      }
    }
  }

  /** As written, an increase or decrease of a named variable by a digit
      amount always fails: the formula `name＋amount` starts with a
      character the formula evaluator rejects. */
  lemma ShiftAsWrittenFails(store: Store, name: string, amount: string, op: char)
    requires Identifier(name) && AllDigits(amount) && (op == '＋' || op == '－')
    ensures Shift(AsWritten, store, name, amount, op).Err?
  {
    StepFormula(name, amount, op);
    FormulaFails(store, name + [op] + amount);
  }

  /** A formula part that starts with a character the formula evaluator
      does not know fails. */
  lemma FormulaFails(store: Store, f: string)
    requires Strip(f, {' '}) == f && Split(f, 'と') == [f] && Classify(f) == FormulaPart
    requires |f| > 0 && CalcFacts.Foreign(f[0])
    ensures UnderStanding(AsWritten, store, Strip(f, {' '})).Err?
  {
    SinglePart(AsWritten, store, f);
    CalcFacts.CalcRejects(f, 0);
  }

  /** `xを1増やす` fails as written, whatever the store holds. */
  lemma IncreaseAsWritten(m: Machine, name: string, amount: string)
    requires Identifier(name) && AllDigits(amount)
    ensures ExecLine(AsWritten, m, name + [Object] + amount + IncreaseWord).Err?
  {
    IncreaseLine(name, amount);
    ShiftAsWrittenFails(m.store, name, amount, '＋');
  }

  /** `xを1減らす` fails as written, whatever the store holds. */
  lemma DecreaseAsWritten(m: Machine, name: string, amount: string)
    requires Identifier(name) && AllDigits(amount)
    ensures ExecLine(AsWritten, m, name + [Object] + amount + DecreaseWord).Err?
  {
    DecreaseLine(name, amount);
    ShiftAsWrittenFails(m.store, name, amount, '－');
  }

  /** Integers stay integers under the evaluator's `＋` and `－`. */
  lemma ArithInts(n: int, k: int)
    ensures Arith(Int(n), Int(k), '＋') == Ok(Int(n + k))
    ensures Arith(Int(n), Int(k), '－') == Ok(Int(n - k))
  {
    assert ((n + k) as real).Floor == n + k;
    assert ((n - k) as real).Floor == n - k;
  }

  /** Corrected, a step adds the amount's value to the variable's. */
  lemma ShiftIntendedValue(store: Store, name: string, amount: string, op: char, n: int, k: int)
    requires op == '＋' || op == '－'
    requires Strip(name, {' '}) == name && name in store && store[name] == Int(n)
    requires UnderStanding(Intended, store, Strip(amount, {' '})) == Ok(Int(k))
    ensures Shift(Intended, store, name, amount, op) == Ok(store[name := Int(if op == '＋' then n + k else n - k)])
  {
    ArithInts(n, k);
  }

  /** A digit run as an amount. */
  lemma AmountValue(store: Store, amount: string)
    requires AllDigits(amount)
    ensures UnderStanding(Intended, store, Strip(amount, {' '})) == Ok(Int(DigitsValue(amount)))
  {
    DigitsSimple(amount);
    SimpleParts(amount);
    DigitsOperand(Intended, store, amount);
  }

  /** Running a step line is running its shift. */
  lemma StepExec(m: Machine, line: string, name: string, amount: string, op: char, v: Value)
    requires op == '＋' || op == '－'
    requires Parse(line) == if op == '＋' then Increase(name, amount) else Decrease(name, amount)
    requires Shift(Intended, m.store, name, amount, op) == Ok(m.store[name := v])
    ensures ExecLine(Intended, m, line) == Ok(m.(store := m.store[name := v]))
  {
  }

  /** Corrected, `xを1増やす` adds 1 to the integer in `x`: the
      amount `k` is the number the digits spell. */
  lemma IncreaseIntended(m: Machine, name: string, amount: string, n: int, k: int)
    requires Identifier(name) && AllDigits(amount) && DigitsValue(amount) == k
    requires name in m.store && m.store[name] == Int(n)
    ensures ExecLine(Intended, m, name + [Object] + amount + IncreaseWord)
         == Ok(m.(store := m.store[name := Int(n + k)]))
  {
    IncreaseLine(name, amount);
    IdentifierChars(name);
    AmountValue(m.store, amount);
    ShiftIntendedValue(m.store, name, amount, '＋', n, k);
    StepExec(m, name + [Object] + amount + IncreaseWord, name, amount, '＋', Int(n + k));
  }

  /** Corrected, `xを1減らす` subtracts 1 from the integer in `x`. */
  lemma DecreaseIntended(m: Machine, name: string, amount: string, n: int, k: int)
    requires Identifier(name) && AllDigits(amount) && DigitsValue(amount) == k
    requires name in m.store && m.store[name] == Int(n)
    ensures ExecLine(Intended, m, name + [Object] + amount + DecreaseWord)
         == Ok(m.(store := m.store[name := Int(n - k)]))
  {
    DecreaseLine(name, amount);
    IdentifierChars(name);
    AmountValue(m.store, amount);
    ShiftIntendedValue(m.store, name, amount, '－', n, k);
    StepExec(m, name + [Object] + amount + DecreaseWord, name, amount, '－', Int(n - k));
  }

  /** Corrected, an increase of a name the store lacks is the lookup
      error `compileScript` would raise. */
  lemma ShiftUndefined(store: Store, name: string, amount: string, op: char)
    requires (op == '＋' || op == '－') && Strip(name, {' '}) !in store
    ensures Shift(Intended, store, name, amount, op) == Err(UndefinedVariable(Strip(name, {' '})))
  {
  }

  // ---------------------------------------------------------------------
  // Running a script

  /** Running two scripts one after the other is running the lines of
      both: the second starts from where the first ended, and a failure
      in the first stops everything. */
  lemma {:induction false} RunConcat(reading: Reading, m: Machine, first: seq<string>, second: seq<string>)
    ensures Run(reading, m, first + second)
         == match Run(reading, m, first)
            case Done(next) => Run(reading, next, second)
            case Failed(at, e) => Failed(at, e)
    decreases |first|
  {
    if |first| > 0 {
      assert (first + second)[0] == first[0];
      assert (first + second)[1..] == first[1..] + second;
      match ExecLine(reading, m, first[0])
      case Err(_) =>
      case Ok(next) =>
        RunConcat(reading, next, first[1..], second);
    } else {
      assert first + second == second;
    }
  }

  /** The first line break of `a + [c] + b` is `c` when `a` has none. */
  lemma BreakAfter(a: string, c: char, b: string)
    requires Unbroken(a) && c in LineBreaks
    ensures FirstBreak(a + [c] + b) == Some(|a|)
  {
    var s := a + [c] + b;
    assert s[|a|] == c;
    forall i | 0 <= i < |a|
      ensures s[i] !in LineBreaks
    {
      assert s[i] == a[i];
    }
  }

  /** A line, a "\n", and the rest: the line comes off first. */
  lemma SplitFirst(l: string, rest: string)
    requires Unbroken(l)
    ensures SplitLines(l + ['\n'] + rest) == [l] + SplitLines(rest)
  {
    var s := l + ['\n'] + rest;
    BreakAfter(l, '\n', rest);
    assert s[..|l|] == l && s[|l|] == '\n' && s[|l| + 1..] == rest;
  }

  /** `splitlines` undoes joining with "\n" when no line holds a break and
      the last line is not empty (an empty last line would leave only a
      trailing break, which `splitlines` drops). */
  lemma {:induction false} SplitLinesJoin(lines: seq<string>)
    requires forall l :: l in lines ==> Unbroken(l)
    requires |lines| > 0 ==> |lines[|lines| - 1]| > 0
    ensures SplitLines(Join(lines, '\n')) == lines
    decreases |lines|
  {
    if |lines| == 1 {
      var l := lines[0];
      assert l in lines;
      assert FirstBreak(l) == None;
    } else if |lines| > 1 {
      var l := lines[0];
      var tail := lines[1..];
      assert l in lines;
      forall x | x in tail
        ensures Unbroken(x)
      {
        assert x in lines;
      }
      assert tail[|tail| - 1] == lines[|lines| - 1];
      SplitLinesJoin(tail);
      assert Join(lines, '\n') == l + ['\n'] + Join(tail, '\n');
      SplitFirst(l, Join(tail, '\n'));
      assert lines == [l] + tail;
    }
  }

  /** "\r\n" ends one line, not two. */
  lemma CrLfOneBreak(a: string, b: string)
    requires Unbroken(a)
    ensures SplitLines(a + "\r\n" + b) == [a] + SplitLines(b)
  {
    var s := a + "\r\n" + b;
    assert s == a + ['\r'] + (['\n'] + b);
    BreakAfter(a, '\r', ['\n'] + b);
    assert s[..|a|] == a && s[|a| + 1] == '\n' && s[|a| + 2..] == b;
  }

  /** A script of an assignment and a print of the same name shows the
      assigned value. */
  lemma AssignThenPrintScript(reading: Reading, m: Machine, name: string, raw: string, v: Value)
    requires Identifier(name) && 'を' !in raw && Arrow !in raw
    requires Unbroken(raw)
    requires UnderStanding(reading, m.store, Strip(raw, {' '})) == Ok(v)
    ensures CompileScript(reading, m, name + [Arrow] + raw + "\n" + name + PrintWord)
         == Done(Machine(m.store[name := v], m.output + [v]))
  {
    var first := name + [Arrow] + raw;
    var second := name + PrintWord;
    IdentifierChars(name);
    ScriptLines(name, raw);
    AssignThenPrint(reading, m, name, raw, v);
  }

  lemma ScriptLines(name: string, raw: string)
    requires Unbroken(name)
    requires Unbroken(raw)
    ensures SplitLines(name + [Arrow] + raw + "\n" + name + PrintWord) == [name + [Arrow] + raw, name + PrintWord]
  {
    ScriptChars(name, raw);
    SplitTwo(name + [Arrow] + raw, name + PrintWord);
    assert name + [Arrow] + raw + "\n" + name + PrintWord == name + [Arrow] + raw + "\n" + (name + PrintWord);
  }

  /** Neither line of an assign-then-print script holds a break. */
  lemma ScriptChars(name: string, raw: string)
    requires Unbroken(name)
    requires Unbroken(raw)
    ensures Unbroken(name + [Arrow] + raw)
    ensures Unbroken(name + PrintWord)
    ensures |name + PrintWord| > 0
  {
    NoBreaks(name, [Arrow], raw);
    NoBreaks(name, PrintWord, "");
    assert name + PrintWord + "" == name + PrintWord;
  }

  /** Two lines joined by "\n" split back into the two. */
  lemma SplitTwo(a: string, b: string)
    requires Unbroken(a)
    requires Unbroken(b)
    requires |b| > 0
    ensures SplitLines(a + "\n" + b) == [a, b]
  {
    var s := a + "\n" + b;
    BreakAfter(a, '\n', b);
    assert s[..|a|] == a && s[|a| + 1..] == b;
    assert FirstBreak(b) == None;
  }

  lemma NoBreaks(a: string, b: string, c: string)
    requires Unbroken(a)
    requires Unbroken(b)
    requires Unbroken(c)
    ensures Unbroken(a + b + c)
  {
    forall i | 0 <= i < |a + b + c|
      ensures (a + b + c)[i] !in LineBreaks
    {
      if i < |a| {
        assert (a + b + c)[i] == a[i];
      } else if i < |a| + |b| {
        assert (a + b + c)[i] == b[i - |a|];
      } else {
        assert (a + b + c)[i] == c[i - |a| - |b|];
      }
    }
  }
}

=== FILE: text.dfy ===
/** The string operations the interpreter borrows from Python: `str.strip`,
    `str.split` with a one-character separator, substring search, digit
    recognition, and the parenthesis depth that the formula tokenizer and the
    logic evaluator both track. */
module Text {
  import opened Wrappers

  /** Drops the leading characters that belong to `cs`. */
  function TrimLeft(s: string, cs: set<char>): (r: string)
    ensures |r| <= |s| && r == s[|s| - |r|..]
    ensures |r| > 0 ==> r[0] !in cs
    ensures forall i :: 0 <= i < |s| - |r| ==> s[i] in cs
    decreases |s|
  {
    if |s| > 0 && s[0] in cs then
      var r := TrimLeft(s[1..], cs);
      assert forall i :: 1 <= i < |s| - |r| ==> s[i] == s[1..][i - 1];
      r
    else
      s
  }

  /** Drops the trailing characters that belong to `cs`. */
  function TrimRight(s: string, cs: set<char>): (r: string)
    ensures |r| <= |s| && r == s[..|r|]
    ensures |r| > 0 ==> r[|r| - 1] !in cs
    ensures forall i :: |r| <= i < |s| ==> s[i] in cs
    decreases |s|
  {
    if |s| > 0 && s[|s| - 1] in cs then TrimRight(s[..|s| - 1], cs) else s
  }

  /** `r` is `s` with `a` characters of `cs` cut from the front and
      characters of `cs` only cut from the back. */
  predicate Cut(s: string, r: string, cs: set<char>, a: nat)
  {
    && a + |r| <= |s| && r == s[a..a + |r|]
    && (forall i :: 0 <= i < a ==> s[i] in cs)
    && (forall i :: a + |r| <= i < |s| ==> s[i] in cs)
  }

  /** `r` is a slice of `s` and everything cut off is in `cs`. */
  ghost predicate Trimmed(s: string, r: string, cs: set<char>)
  {
    exists a: nat :: Cut(s, r, cs, a)
  }

  /** Python's `s.strip(chars)`: both ends lose every character of `cs`. */
  function Strip(s: string, cs: set<char>): (r: string)
    ensures |r| <= |s|
    ensures |r| > 0 ==> r[0] !in cs && r[|r| - 1] !in cs
    ensures |s| > 0 && s[0] !in cs && s[|s| - 1] !in cs ==> r == s
    ensures |s| > 0 && (s[0] in cs || s[|s| - 1] in cs) ==> |r| < |s|
    ensures Trimmed(s, r, cs)
  {
    var l := TrimLeft(s, cs);
    var r := TrimRight(l, cs);
    TrimsCut(s, cs);
    assert |r| > 0 ==> r[0] == l[0];
    assert |r| == |s| ==> l == s && r == s;
    r
  }

  /** Trimming the front and then the back cuts only characters of `cs`. */
  lemma TrimsCut(s: string, cs: set<char>)
    ensures Cut(s, TrimRight(TrimLeft(s, cs), cs), cs, |s| - |TrimLeft(s, cs)|)
  {
    var l := TrimLeft(s, cs);
    var r := TrimRight(l, cs);
    var a := |s| - |l|;
    CutOfSlices(s, l, r, cs, a);
  }

  lemma CutOfSlices(s: string, l: string, r: string, cs: set<char>, a: nat)
    requires a <= |s| && l == s[a..] && |r| <= |l| && r == l[..|r|]
    requires forall i :: 0 <= i < a ==> s[i] in cs
    requires forall i :: |r| <= i < |l| ==> l[i] in cs
    ensures Cut(s, r, cs, a)
  {
    assert forall k :: 0 <= k < |r| ==> r[k] == s[a + k];
    forall i | a + |r| <= i < |s|
      ensures s[i] in cs
    {
      assert s[i] == l[i - a];
    }
  }

  /** The position of the first `c` in `s`. */
  function FirstIndex(s: string, c: char): (k: nat)
    requires c in s
    ensures k < |s| && s[k] == c && c !in s[..k]
  {
    if s[0] == c then 0
    else
      var k := 1 + FirstIndex(s[1..], c);
      assert s[..k] == [s[0]] + s[1..][..k - 1];
      k
  }

  /** The position of the last `c` in `s`. */
  function LastIndex(s: string, c: char): (k: nat)
    requires c in s
    ensures k < |s| && s[k] == c && c !in s[k + 1..]
  {
    if s[|s| - 1] == c then |s| - 1
    else
      var k := LastIndex(s[..|s| - 1], c);
      assert s[k + 1..] == s[..|s| - 1][k + 1..] + [s[|s| - 1]];
      k
  }

  /** Glues `parts` back together with `sep` between neighbours. */
  function Join(parts: seq<string>, sep: char): string
  {
    if |parts| == 0 then ""
    else if |parts| == 1 then parts[0]
    else parts[0] + [sep] + Join(parts[1..], sep)
  }

  /** Python's `s.split(sep)` for a one-character separator: always at least
      one piece, no piece holds the separator, and joining gives `s` back. */
  function Split(s: string, sep: char): (parts: seq<string>)
    ensures |parts| >= 1
    ensures forall p :: p in parts ==> sep !in p
    ensures forall p :: p in parts ==> |p| <= |s|
    ensures sep in s ==> |parts| >= 2 && forall p :: p in parts ==> |p| < |s|
    ensures sep !in s ==> parts == [s]
    ensures Join(parts, sep) == s
    decreases |s|
  {
    if sep !in s then [s]
    else
      var k := FirstIndex(s, sep);
      var rest := Split(s[k + 1..], sep);
      assert s == s[..k] + [sep] + s[k + 1..];
      assert ([s[..k]] + rest)[1..] == rest;
      [s[..k]] + rest
  }

  /** `w` occurs in `s` starting at position `i`. */
  predicate OccursAt(s: string, w: string, i: nat)
  {
    i + |w| <= |s| && s[i..i + |w|] == w
  }

  /** The first occurrence of `w` in `s` at or after `i`. */
  function FindFrom(s: string, w: string, i: nat): (r: Option<nat>)
    ensures r.Some? ==> i <= r.value && OccursAt(s, w, r.value)
    ensures r.Some? ==> forall j :: i <= j < r.value ==> !OccursAt(s, w, j)
    ensures r.None? ==> forall j :: i <= j ==> !OccursAt(s, w, j)
    decreases |s| - i
  {
    if OccursAt(s, w, i) then Some(i)
    else if i >= |s| then None
    else FindFrom(s, w, i + 1)
  }

  /** Python's `w in s`. */
  predicate Contains(s: string, w: string)
  {
    FindFrom(s, w, 0).Some?
  }

  /** The last occurrence of `w` in `s` that starts at or before `i`. */
  function FindLastUpTo(s: string, w: string, i: nat): (r: Option<nat>)
    ensures r.Some? ==> r.value <= i && OccursAt(s, w, r.value)
    ensures r.Some? ==> forall j :: r.value < j <= i ==> !OccursAt(s, w, j)
    ensures r.None? ==> forall j: nat :: j <= i ==> !OccursAt(s, w, j)
    decreases i
  {
    if OccursAt(s, w, i) then Some(i)
    else if i == 0 then None
    else FindLastUpTo(s, w, i - 1)
  }

  /** The last occurrence of `w` in `s`: where a greedy `(.*)w` splits. */
  function FindLast(s: string, w: string): (r: Option<nat>)
    ensures r.Some? ==> OccursAt(s, w, r.value)
    ensures r.Some? ==> forall j :: r.value < j ==> !OccursAt(s, w, j)
    ensures r.None? ==> forall j: nat :: !OccursAt(s, w, j)
  {
    FindLastUpTo(s, w, |s|)
  }

  /** Python's `s.endswith(w)`. */
  predicate EndsWith(s: string, w: string)
  {
    |w| <= |s| && s[|s| - |w|..] == w
  }

  /** Python's `isdigit`/`\d`, restricted to ASCII and full-width digits. */
  predicate IsDigit(c: char)
  {
    '0' <= c <= '9' || '０' <= c <= '９'
  }

  function DigitValue(c: char): (d: nat)
    requires IsDigit(c)
    ensures d < 10
  {
    if '0' <= c <= '9' then c as int - '0' as int else c as int - '０' as int
  }

  /** Python's `s.isdigit()`: non-empty and digits only. */
  predicate AllDigits(s: string)
  {
    |s| > 0 && forall i :: 0 <= i < |s| ==> IsDigit(s[i])
  }

  /** The value of a run of decimal digits, as Python's `int()` reads it. */
  function DigitsValue(s: string): nat
    requires forall i :: 0 <= i < |s| ==> IsDigit(s[i])
  {
    if |s| == 0 then 0 else 10 * DigitsValue(s[..|s| - 1]) + DigitValue(s[|s| - 1])
  }

  /** The ASCII decimal rendering of `n`, as Python's `str()` writes it. */
  function Decimal(n: nat): (s: string)
    ensures AllDigits(s)
  {
    if n < 10 then ['0' + n as char]
    else Decimal(n / 10) + ['0' + (n % 10) as char]
  }

  /** How far a character moves the parenthesis depth. */
  function Delta(c: char): int
  {
    if c == '（' then 1 else if c == '）' then -1 else 0
  }

  /** Opening minus closing full-width parentheses in `s`. */
  function Depth(s: string): int
  {
    if |s| == 0 then 0 else Delta(s[0]) + Depth(s[1..])
  }

  /** Every '（' of `s` is closed inside `s` and no '）' closes early. */
  ghost predicate Balanced(s: string)
  {
    Depth(s) == 0 && forall m :: 0 <= m <= |s| ==> Depth(s[..m]) >= 0
  }

  lemma DepthConcat(a: string, b: string)
    ensures Depth(a + b) == Depth(a) + Depth(b)
  {
    if |a| > 0 {
      assert (a + b)[0] == a[0];
      assert (a + b)[1..] == a[1..] + b;
      DepthConcat(a[1..], b);
    } else {
      assert a + b == b;
    }
  }

  /** Extending a prefix by one character moves its depth by that character. */
  lemma DepthSnoc(s: string, i: nat, j: nat)
    requires i <= j < |s|
    ensures Depth(s[i..j + 1]) == Depth(s[i..j]) + Delta(s[j])
  {
    assert s[i..j + 1] == s[i..j] + [s[j]];
    DepthConcat(s[i..j], [s[j]]);
  }
}

=== FILE: text_facts.dfy ===
/** Round trips and small facts about the string operations. */
module TextFacts {
  import opened Wrappers
  import opened Text

  /** `str.split` undoes a join whenever no piece holds the separator. */
  lemma {:induction false} SplitJoin(parts: seq<string>, sep: char)
    requires |parts| >= 1
    requires forall p :: p in parts ==> sep !in p
    ensures Split(Join(parts, sep), sep) == parts
    decreases |parts|
  {
    if |parts| > 1 {
      var tail := parts[1..];
      forall p | p in tail
        ensures sep !in p
      {
        assert p in parts;
      }
      SplitJoin(tail, sep);
      assert parts[0] in parts;
      SplitHead(parts[0], Join(tail, sep), sep);
      assert parts == [parts[0]] + tail;
    }
  }

  /** The first piece comes off at the first separator. */
  lemma SplitHead(head: string, rest: string, sep: char)
    requires sep !in head
    ensures Split(head + [sep] + rest, sep) == [head] + Split(rest, sep)
  {
    var s := head + [sep] + rest;
    assert s[|head|] == sep;
    var k := FirstIndex(s, sep);
    assert s[..|head|] == head;
    assert k == |head|;
    assert s[..k] == head && s[k + 1..] == rest;
  }

  /** Splitting `a + [sep] + b` where neither side holds the separator gives
      the two sides. */
  lemma SplitPair(a: string, b: string, sep: char)
    requires sep !in a && sep !in b
    ensures Split(a + [sep] + b, sep) == [a, b]
  {
    assert Join([a, b], sep) == a + [sep] + Join([b], sep);
    SplitJoin([a, b], sep);
  }

  /** `int(str(n)) == n`. */
  lemma {:induction false} DecimalValue(n: nat)
    ensures DigitsValue(Decimal(n)) == n
  {
    var s := Decimal(n);
    if n >= 10 {
      DecimalValue(n / 10);
      assert s[..|s| - 1] == Decimal(n / 10);
    }
  }

  /** A word cannot occur in a text that lacks its first character. */
  lemma AbsentWord(s: string, w: string)
    requires |w| > 0 && w[0] !in s
    ensures !Contains(s, w)
  {
    forall j: nat | j + |w| <= |s|
      ensures !OccursAt(s, w, j)
    {
      assert s[j..j + |w|][0] == s[j];
    }
  }

  /** Nor can it occur in a text that lacks any one of its characters. */
  lemma AbsentLetter(s: string, w: string, i: nat)
    requires i < |w| && w[i] !in s
    ensures !Contains(s, w)
  {
    forall j: nat | j + |w| <= |s|
      ensures !OccursAt(s, w, j)
    {
      assert s[j..j + |w|][i] == s[j + i];
    }
  }

  /** Text without parentheses has depth 0 at every prefix. */
  lemma {:induction false} DepthWithoutParens(s: string)
    requires '（' !in s && '）' !in s
    ensures Depth(s) == 0
    ensures forall m :: 0 <= m <= |s| ==> Depth(s[..m]) == 0
  {
    if |s| > 0 {
      DepthWithoutParens(s[1..]);
      forall m | 1 <= m <= |s|
        ensures Depth(s[..m]) == 0
      {
        assert s[..m][1..] == s[1..][..m - 1];
      }
    }
  }
}

=== FILE: values.dfy ===
/** Runtime values of the interpreter and the three Python operators the
    resolver applies to them: `+=` (accumulation), `==` and the ordering
    comparisons. Python's bool never appears: truth values are the text
    tokens "真" and "偽", so they are `Str` values here. */
module Values {
  import opened Wrappers

  datatype Value = Int(i: int) | Num(r: real) | Str(s: string) | Arr(items: seq<Value>)
  {
    predicate IsNumber() {
      Int? || Num?
    }

    /** Python's `float(v)` for a number. */
    function AsReal(): real
      requires IsNumber()
    {
      if Int? then i as real else r
    }
  }

  /** One `Str` per character: what `list += str` appends. */
  function Chars(s: string): (r: seq<Value>)
    ensures |r| == |s|
    ensures forall k :: 0 <= k < |s| ==> r[k] == Str([s[k]])
  {
    seq(|s|, k requires 0 <= k < |s| => Str([s[k]]))
  }

  /** The kinds Python's `a += b` accepts for the interpreter's values. */
  predicate CanAdd(a: Value, b: Value)
  {
    (a.IsNumber() && b.IsNumber()) || (a.Str? && b.Str?) || (a.Arr? && (b.Arr? || b.Str?))
  }

  /** Python's `a += b`: numbers add (an int stays an int only when both are),
      strings concatenate, a list is extended by a list or by the characters
      of a string, and every other pairing is a TypeError. */
  function Add(a: Value, b: Value): (r: Result<Value>)
    ensures r.Ok? <==> CanAdd(a, b)
    ensures a.IsNumber() && b.IsNumber() ==>
      r.Ok? && r.value.IsNumber() && r.value.AsReal() == a.AsReal() + b.AsReal()
      && (r.value.Int? <==> a.Int? && b.Int?)
    ensures a.Str? && b.Str? ==>
              && r.Ok? && r.value.Str? && |r.value.s| == |a.s| + |b.s|
              && r.value.s[..|a.s|] == a.s && r.value.s[|a.s|..] == b.s
    ensures a.Arr? && r.Ok? ==>
              && r.value.Arr?
              && |r.value.items| == |a.items| + (if b.Arr? then |b.items| else |b.s|)
              && r.value.items[..|a.items|] == a.items
              && r.value.items[|a.items|..] == (if b.Arr? then b.items else Chars(b.s))
  {
    if a.IsNumber() && b.IsNumber() then
      if a.Int? && b.Int? then Ok(Int(a.i + b.i)) else Ok(Num(a.AsReal() + b.AsReal()))
    else if a.Str? && b.Str? then Ok(Str(a.s + b.s))
    else if a.Arr? && b.Arr? then Ok(Arr(a.items + b.items))
    else if a.Arr? && b.Str? then Ok(Arr(a.items + Chars(b.s)))
    else Err(TypeMismatch)
  }

  /** Python's `type(v)()`: the empty value of `v`'s kind, which `+= v`
      turns into `v` itself. */
  function Empty(v: Value): (e: Value)
    ensures Add(e, v) == Ok(v)
  {
    match v
    case Int(_) => Int(0)
    case Num(_) => Num(0.0)
    case Str(_) => Str("")
    case Arr(_) => Arr([])
  }

  /** Python's `a == b`: numbers compare by value across int and float,
      lists element by element, and values of different kinds are unequal. */
  function Equal(a: Value, b: Value): bool
  {
    if a.IsNumber() && b.IsNumber() then a.AsReal() == b.AsReal()
    else match (a, b)
      case (Str(x), Str(y)) => x == y
      case (Arr(x), Arr(y)) => |x| == |y| && forall k :: 0 <= k < |x| ==> Equal(x[k], y[k])
      case _ => false
  }

  datatype Ordering = Less | Same | Greater
  {
    function Flip(): Ordering {
      match this
      case Less => Greater
      case Same => Same
      case Greater => Less
    }
  }

  function CompareReal(x: real, y: real): (o: Ordering)
    ensures o == Less <==> x < y
    ensures o == Greater <==> x > y
  {
    if x < y then Less else if x > y then Greater else Same
  }

  /** Python's string ordering: lexicographic by code point. */
  function CompareText(x: string, y: string): Ordering
    decreases |x|
  {
    if |x| == 0 then (if |y| == 0 then Same else Less)
    else if |y| == 0 then Greater
    else if x[0] < y[0] then Less
    else if x[0] > y[0] then Greater
    else CompareText(x[1..], y[1..])
  }

  /** The first position at which two lists hold unequal elements, or the
      shorter length when one is a prefix of the other. */
  function FirstDifference(x: seq<Value>, y: seq<Value>): (k: nat)
    ensures k <= |x| && k <= |y|
    ensures forall j :: 0 <= j < k ==> Equal(x[j], y[j])
    ensures k < |x| && k < |y| ==> !Equal(x[k], y[k])
  {
    if |x| == 0 || |y| == 0 || !Equal(x[0], y[0]) then 0
    else 1 + FirstDifference(x[1..], y[1..])
  }

  /** The order behind Python's `<`, `>`, `<=` and `>=`: numbers by value,
      strings by code point, lists at their first unequal element (or by
      length); comparing different kinds is a TypeError. */
  function Compare(a: Value, b: Value): Result<Ordering>
  {
    if a.IsNumber() && b.IsNumber() then Ok(CompareReal(a.AsReal(), b.AsReal()))
    else match (a, b)
      case (Str(x), Str(y)) => Ok(CompareText(x, y))
      case (Arr(x), Arr(y)) =>
        var k := FirstDifference(x, y);
        if k < |x| && k < |y| then Compare(x[k], y[k])
        else Ok(CompareReal(|x| as real, |y| as real))
      case _ => Err(TypeMismatch)
  }

  lemma {:induction false} CompareTextSame(x: string, y: string)
    ensures CompareText(x, y) == Same <==> x == y
    decreases |x|
  {
    if |x| > 0 && |y| > 0 && x[0] == y[0] {
      CompareTextSame(x[1..], y[1..]);
      assert x == [x[0]] + x[1..] && y == [y[0]] + y[1..];
    }
  }

  lemma {:induction false} CompareTextFlip(x: string, y: string)
    ensures CompareText(y, x) == CompareText(x, y).Flip()
    decreases |x|
  {
    if |x| > 0 && |y| > 0 && x[0] == y[0] {
      CompareTextFlip(x[1..], y[1..]);
    }
  }

  /** Python's `==` is reflexive on every value the interpreter builds. */
  lemma {:induction false} EqualReflexive(a: Value)
    ensures Equal(a, a)
  {
    if a.Arr? {
      forall k | 0 <= k < |a.items|
        ensures Equal(a.items[k], a.items[k])
      {
        EqualReflexive(a.items[k]);
      }
    }
  }

  /** Python's `==` is symmetric. */
  lemma {:induction false} EqualSymmetric(a: Value, b: Value)
    ensures Equal(a, b) == Equal(b, a)
  {
    if a.Arr? && b.Arr? && |a.items| == |b.items| {
      forall k | 0 <= k < |a.items|
        ensures Equal(a.items[k], b.items[k]) == Equal(b.items[k], a.items[k])
      {
        EqualSymmetric(a.items[k], b.items[k]);
      }
    }
  }

  /** The ordering and the equality agree: two values compare as the same
      exactly when they are equal. */
  lemma {:induction false} CompareSameIsEqual(a: Value, b: Value)
    ensures Compare(a, b) == Ok(Same) <==> Equal(a, b)
  {
    if a.Str? && b.Str? {
      CompareTextSame(a.s, b.s);
    } else if a.Arr? && b.Arr? {
      var x, y := a.items, b.items;
      var k := FirstDifference(x, y);
      if k < |x| && k < |y| {
        CompareSameIsEqual(x[k], y[k]);
      }
    }
  }

  /** Swapping the operands mirrors the ordering, errors included. */
  lemma {:induction false} CompareFlip(a: Value, b: Value)
    ensures Compare(a, b).Ok? <==> Compare(b, a).Ok?
    ensures Compare(a, b).Ok? ==> Compare(b, a).value == Compare(a, b).value.Flip()
  {
    if a.Str? && b.Str? {
      CompareTextFlip(a.s, b.s);
    } else if a.Arr? && b.Arr? {
      var x, y := a.items, b.items;
      FirstDifferenceSymmetric(x, y);
      var k := FirstDifference(x, y);
      if k < |x| && k < |y| {
        CompareFlip(x[k], y[k]);
      }
    }
  }

  lemma {:induction false} FirstDifferenceSymmetric(x: seq<Value>, y: seq<Value>)
    ensures FirstDifference(x, y) == FirstDifference(y, x)
  {
    if |x| > 0 && |y| > 0 {
      EqualSymmetric(x[0], y[0]);
      FirstDifferenceSymmetric(x[1..], y[1..]);
    }
  }
}

=== FILE: wrappers.dfy ===
/** Failure-compatible wrappers shared by every module of the interpreter model.
    `Result` carries the interpreter's error kinds; Python exceptions become `Err`. */
module Wrappers {

  datatype Option<+T> = None | Some(value: T)

  /** The ways resolving an operand or running a statement can fail. */
  datatype Error =
    | InvalidCharacter(ch: char)          // a glyph the formula tokenizer does not know
    | InvalidNumber(text: string)         // a literal Python's float()/int() rejects
    | MalformedFormula                    // operands and operators do not alternate
    | UnknownOperator(op: char)           // applyOperator's fallback branch
    | DivisionByZero                      // zero divisor for '/', '÷' or '％'
    | UndefinedVariable(name: string)     // KeyError on the variable store
    | IndexOutOfRange(name: string, index: nat)
    | NotSubscriptable(name: string)      // indexing a number
    | TypeMismatch                        // Python TypeError: `+=` or ordering across kinds, or a None result
    | UnbalancedGroups(text: string)      // parentheses that the grouping loop can never remove

  datatype Result<+T> = Ok(value: T) | Err(error: Error) {

    predicate IsFailure() {
      Err?
    }

    function PropagateFailure<U>(): Result<U>
      requires Err?
    {
      Err(error)
    }

    function Extract(): T
      requires Ok?
    {
      value
    }
  }
}
